=== FILE: README.md ===
# Elcappfet menu pipeline in Dafny

Elcappfet shows the weekly menu of a two-station cafeteria (Bistro and Vitality). A
Python backend downloads the cafeteria's HTML page and extracts one menu per station and
weekday. It serves the week over several routes (`/menus`, `/menus/weekly`,
`/menus/today`, `/menus/{jour}`) and generates an image per dish, which it caches for a
while. A React Native app fetches `/menus/weekly`, classifies network and HTTP errors,
and turns the backend's records into display items (a short name, a numeric price and
dietary tags). It caches them in memory and in a persisted key/value store with an
expiry.

This project models that pipeline and proves properties of the model:

| file | what it models |
|---|---|
| `wrappers.dfy`, `text.dfy` | the `Option`/`Result` datatypes and the string helpers: ASCII case folding, the Python and JavaScript whitespace classes, digits, `Join`, decimal rendering of integers |
| `constants.dfy` | the frontend tables: day maps, the dietary keyword table, cache keys, the image endpoint |
| `menu_types.dfy` | the record types shared by the backend answer and the app, and the two type guards; a dish's `type` and `category` are strings, since the backend sends the cleaned panel title |
| `data_transform.dfy` | the frontend transform functions |
| `api.dfy` | the API service's outcome classification, with its mutable base URL as a class |
| `use_menu.dfy` | the `useMenu` hook as a class over the in-memory map, the persisted store, the displayed state and the mounted flag; each step is also written as a function on a snapshot, and the lemmas are stated over those functions |
| `menu_parser.dfy` | the backend parser: text cleaning, the `CHF` price pattern, the assignment of panels to slots (a loop), and the week assembly (a loop) |
| `routes.dfy` | the backend route handlers: legacy, weekly, today, by-day, image, cache statistics and cache clearing |
| `image_generator.dfy` | the backend image cache: a dictionary updated in place, with TTL expiry, cleanup, statistics and the singleton |
| `pipeline.dfy` | how a backend price string is read back by the app |

Time (`Date.now()`, `datetime.now()`, the weekday name) and the network's answers are
parameters. The page the parser searches is a value: a title, then day rows, each with an
optional day name and a list of panels. A panel has an optional title, content and price
text. `encodeURIComponent`, `md5` and image generation are opaque parameters. A missing
environment variable is `None`.

The backend parser exists twice, as `backend/menu_parser_server.py` and as an older copy
`menu_parser_server.py`. Their `nettoyer_texte`, `extraire_menus_jour` and
`parser_html_menu` do the same thing, so one model serves both. In the older copy these
three methods sit twelve lines earlier. Its `/menus` and `/menus/{jour}` routes match the
newer ones.

## Model

| member | source | states |
|---|---|---|
| Constants.FindDayName | frontend/Elcappfet/utils/constants.ts:14-20 | the search over the DAY_MAP keys returns a key that DAY_MAP sends to the index; it returns nothing only when no key maps there |
| Constants.DayMapIsBijection | frontend/Elcappfet/utils/constants.ts:14-20 | DAY_MAP is injective, its values lie in 0..4, and DAY_NAMES_FR[i] maps to i |
| Constants.IndexToDayIsInverse | frontend/Elcappfet/utils/constants.ts:25-31 | INDEX_TO_DAY_FR has keys 0..4, is the inverse of DAY_MAP in both directions, and agrees with DAY_NAMES_FR |
| Constants.DayNameOfIndexSpec | frontend/Elcappfet/utils/constants.ts:47 | the reverse lookup finds a name exactly for indices 0..4, and that name is DAY_NAMES_FR[i] |
| Constants.Labels | frontend/Elcappfet/utils/constants.ts:73-103 | the label list has one entry per table row, each row's label in row order |
| Constants.DietaryKeywordsKeys | frontend/Elcappfet/utils/constants.ts:73-103 | the keyword table's keys are exactly the five tag labels in declaration order, all distinct, and the protein label is "High Protein" |
| Constants.CacheKey | frontend/Elcappfet/utils/constants.ts:112-123 | every cache key starts with "menu_cache_" |
| Constants.CacheKeyInjective | frontend/Elcappfet/utils/constants.ts:112-123 | distinct day indices never share a cache key |
| Constants.MenuImageRoutes | frontend/Elcappfet/utils/constants.ts:136-137 | every image path the app builds from a non-empty type and a non-empty encoded description without "/" is matched by the image route, which binds exactly that type and that encoded description |
| Constants.ImageRouteSegments | backend/menu_parser_server.py:436 | a path the image route matches is "/images/menu/", a non-empty segment without "/", a "/" and a second such segment, and those two segments are what it binds |
| MenuTypes.CategoryName | frontend/Elcappfet/types/menu.ts:14 | a declared category's name is exactly "Bistro" or "Vitality", and "Bistro" only for the Bistro station (the records themselves carry whatever title the backend sent) |
| MenuTypes.IsBackendMenuItemAvailable | frontend/Elcappfet/types/menu.ts:124-128 | a slot is available only when it holds a dish, and then exactly when its `disponible` is true; the bare `{disponible: false}` marker never is |
| Api.FetchedResponseIsSuccess | frontend/Elcappfet/types/menu.ts:133-137 | every weekly menu the fetch returns passes the success guard, and for a parsed weekly-menu body with a status below 400 the fetch succeeds exactly when the guard holds |
| DataTransform.SplitWs | frontend/Elcappfet/utils/dataTransform.ts:24-28 | splitting a trimmed non-empty string on whitespace runs gives its words |
| DataTransform.ExtractMenuName | frontend/Elcappfet/utils/dataTransform.ts:24-28 | the name is the first MENU_NAME_WORD_COUNT (3) whitespace-separated words, joined by single spaces; a blank description gives "" |
| DataTransform.RemoveChf | frontend/Elcappfet/utils/dataTransform.ts:37 | removing "CHF", in any letter case, never lengthens the string or adds a character; DataTransform.RemoveChfScan states which characters go |
| DataTransform.RemoveChfScan | frontend/Elcappfet/utils/dataTransform.ts:37 | text before the first case-insensitive "chf" is kept unchanged, and a "chf" at the scan position is dropped as a whole, three characters, before the scan goes on |
| DataTransform.ReplaceFirstComma | frontend/Elcappfet/utils/dataTransform.ts:40 | the length is kept, and every character is kept except that a comma may become a dot; a string without a comma is unchanged |
| DataTransform.FirstNumRun | frontend/Elcappfet/utils/dataTransform.ts:43 | the match of `/[\d.]+/` is absent exactly when no digit or dot occurs; otherwise it is the maximal run that starts at the first digit or dot |
| DataTransform.ParseFloat | frontend/Elcappfet/utils/dataTransform.ts:45-46 | parseFloat of a run of digits and dots is NaN exactly when the run starts with a dot that no digit follows, and is never negative otherwise |
| DataTransform.ParsePrice | frontend/Elcappfet/utils/dataTransform.ts:35-51 | a parsed price is never a negative number |
| DataTransform.ParsePriceNoNumber | frontend/Elcappfet/utils/dataTransform.ts:43-50 | a price string without digits, dots or commas parses to the default 0 |
| DataTransform.ParsePriceFormats | frontend/Elcappfet/utils/dataTransform.ts:31-50 | "CHF a.b", "a.b" and "a,b" all parse to the decimal value a.b, for any digit strings a (non-empty) and b |
| DataTransform.ParsePriceExampleChf | frontend/Elcappfet/utils/dataTransform.ts:31-34 | "CHF 14.50" parses to 14.5 |
| DataTransform.ParsePriceExampleDot | frontend/Elcappfet/utils/dataTransform.ts:31-34 | "14.50" parses to 14.5 |
| DataTransform.ParsePriceExampleComma | frontend/Elcappfet/utils/dataTransform.ts:31-34 | "14,50" parses to 14.5 |
| DataTransform.ParsePriceLoneDotIsNaN | frontend/Elcappfet/utils/dataTransform.ts:43-50 | "." and "CHF ." parse to NaN rather than to the default price 0 |
| DataTransform.ParsePriceOrZero | frontend/Elcappfet/utils/dataTransform.ts:43-50 | the corrected price is always a non-negative number, and equals parsePrice's result whenever that result is a number |
| DataTransform.Dedupe | frontend/Elcappfet/utils/dataTransform.ts:73 | the spread of a Set keeps each value once, keeps exactly the values of the input, and leaves an input without duplicates as it is |
| DataTransform.DetectDietaryTags | frontend/Elcappfet/utils/dataTransform.ts:57-74 | a label is returned exactly when one of its keywords, lower-cased, occurs in the lower-cased description; no label is repeated; the labels follow the table's order |
| DataTransform.DetectDietaryTagsByLabel | frontend/Elcappfet/utils/dataTransform.ts:57-74 | for each of the five labels, the label is present exactly when one of its own keywords occurs |
| DataTransform.GenerateMenuItemId | frontend/Elcappfet/utils/dataTransform.ts:79-85 | an id starts with the lower-cased type and "_" |
| DataTransform.GenerateMenuItemIdInjective | frontend/Elcappfet/utils/dataTransform.ts:79-85 | two ids of the same type are equal only for the same day index and the same timestamp |
| DataTransform.IdContains | frontend/Elcappfet/utils/dataTransform.ts:79-85 | an id contains a word ending in a lower-case letter exactly when the lower-cased type does, since the rest of the id is underscores, minus signs and digits |
| DataTransform.CategoryIdsDiffer | frontend/Elcappfet/utils/dataTransform.ts:79-85 | for any two types the backend files under the two stations (the first's lower-cased form contains "bistro", the second's contains "vitality" and not "bistro"), their ids never coincide, whatever the day and time |
| DataTransform.TransformBackendMenuItem | frontend/Elcappfet/utils/dataTransform.ts:90-112 | the item keeps the description, and its category is the backend's `type` as sent; its name is that of the helper, and its id and image URL are built from that same `type` string; its price is the parsed price with the lone-dot NaN replaced by 0; the tags are absent exactly when no label matches, and otherwise non-empty |
| DataTransform.SlotItems | frontend/Elcappfet/utils/dataTransform.ts:141-149 | a station gives one transformed dish when its slot is available, and none otherwise |
| DataTransform.DayItems | frontend/Elcappfet/utils/dataTransform.ts:141-149 | a day gives at most two items: the Bistro dish first if available, the Vitality dish last if available |
| DataTransform.TransformWeeklyMenuForDay | frontend/Elcappfet/utils/dataTransform.ts:117-150 | the week title is always returned; the items are empty for an index outside 0..4 or a day missing from `jours`, and otherwise are that day's available dishes |
| DataTransform.TransformWeeklyMenu | frontend/Elcappfet/utils/dataTransform.ts:155-185 | every key of the map is an index 0..4, and every recognised day name of `jours` has an entry |
| DataTransform.TransformWeeklyMenuAgrees | frontend/Elcappfet/utils/dataTransform.ts:117-185 | the week map has an entry for an index exactly when that day is in `jours`, and the entry equals the per-day transform's items |
| DataTransform.ValidateMenuData | frontend/Elcappfet/utils/dataTransform.ts:190-207 | the data is valid exactly when it is an object with a boolean `success` and an object `data`, holding a string `semaine` and an object or array `jours` |
| UseMenu.FailedFetchShowsApiMessage | frontend/Elcappfet/utils/dataTransform.ts:212-222 | when the weekly fetch fails, the message the hook extracts from the thrown error is the API error's own non-empty message, and the hook shows it, prefixed by the cached-data notice exactly when a valid stored entry is shown instead |
| DataTransform.IsCacheValid | frontend/Elcappfet/utils/dataTransform.ts:234-240 | an entry is valid exactly while now < timestamp + duration, so an entry exactly one duration old has expired |
| Api.ImageUrlInjective | frontend/Elcappfet/services/api.ts:194-197 | two image URLs on the same base, each from a non-empty type and a non-empty encoded description without "/", are equal only when their types and encoded descriptions are equal |
| Api.FetchWithTimeout | frontend/Elcappfet/services/api.ts:45-77 | a response passes through unchanged; an abort is the timeout message, another Error the network message, and a non-Error throw "Unknown error occurred", each with no status and tagged with the URL |
| Api.HandleResponse | frontend/Elcappfet/services/api.ts:82-122 | a status of 500 or more is the server-error message; 400..499 is exactly the client-error message for that body; below 400 the data is returned exactly when the body parses, and an unparsable body is the parse-error message; every error carries the status and the endpoint |
| Api.ClientErrorMessageSpec | frontend/Elcappfet/services/api.ts:98-108 | a 4xx message is the body's `detail` when that is non-empty, and otherwise "Request failed with status N" |
| Api.WeeklyMenuResult | frontend/Elcappfet/services/api.ts:128-155 | the weekly menu is returned, unchanged, exactly when a response arrived, its status is below 400, its body parses and `success` is true; a parsed body that is not a successful weekly menu is "Backend returned unsuccessful response" with the status; an error of the response handler is passed through; errors before a response are tagged with the full URL |
| Api.FetchWeeklyMenuErrors | frontend/Elcappfet/services/api.ts:65-155 | case by case: an abort is the timeout message, another thrown Error the network message and any other thrown value the unknown-error message, each without a status and with the full URL; a response is the server-error message at 500 or more, the client-error message for 4xx, the parse-error message for an unparsable body and the unsuccessful-response message otherwise, each with the status and the endpoint; every message is non-empty |
| Api.ApiService.constructor | frontend/Elcappfet/services/api.ts:37-40 | the service starts with the configured base URL |
| Api.ApiService.GetBaseURL | frontend/Elcappfet/services/api.ts:217-219 | returns the current base URL |
| Api.ApiService.SetBaseURL | frontend/Elcappfet/services/api.ts:224-229 | after the call the base URL is the given one, so every later URL is built from it |
| Api.ApiService.GetImageUrl | frontend/Elcappfet/services/api.ts:194-197 | the URL is built from the current base URL |
| Api.ApiService.FetchWeeklyMenu | frontend/Elcappfet/services/api.ts:128-155 | the method returns or raises exactly what the classification function gives for the current base URL |
| UseMenu.LoadStep | frontend/Elcappfet/hooks/useMenu.ts:42-87 | the flag is true exactly for a readable stored entry younger than the duration; such an entry is shown (when mounted) and copied to memory; an expired entry is removed; a missing or unreadable one leaves the whole snapshot unchanged |
| UseMenu.SaveStep | frontend/Elcappfet/hooks/useMenu.ts:92-116 | the day's key now holds the given items, the week title and the current time, and nothing else changes |
| UseMenu.BeginFetch | frontend/Elcappfet/hooks/useMenu.ts:125-131 | a mounted fetch starts with loading = not forced, refreshing = forced, and no error, keeping the data |
| UseMenu.ClearStores | frontend/Elcappfet/hooks/useMenu.ts:223-238 | exactly the store keys with the cache prefix are removed, the others keep their values, and the memory map is empty |
| UseMenu.MemoryHitServesMemory | frontend/Elcappfet/hooks/useMenu.ts:135-145 | a non-forced fetch while mounted, with the day in memory, shows the memory copy, stops loading and refreshing, and neither reads the store nor depends on the network outcome |
| UseMenu.ForcedFetchSkipsCaches | frontend/Elcappfet/hooks/useMenu.ts:135-154 | a forced fetch that succeeds leaves a state that does not depend on the caches |
| UseMenu.FetchSuccessWritesBothCaches | frontend/Elcappfet/hooks/useMenu.ts:161-180 | on success the day's items go to memory and to the store, stamped now, and, while mounted, become the displayed state with loading and error cleared |
| UseMenu.ForcedFailureFallsBackToStore | frontend/Elcappfet/hooks/useMenu.ts:186-198 | a failed forced fetch with a valid stored entry shows that entry and the error prefixed "Using cached data. " |
| UseMenu.FailureWithoutCacheKeepsData | frontend/Elcappfet/hooks/useMenu.ts:199-207 | a failed fetch with no valid stored entry shows the bare error, stops loading and keeps the previous data |
| UseMenu.NonForcedFetchNeverShowsBanner | frontend/Elcappfet/hooks/useMenu.ts:149-198 | a non-forced fetch never shows the "Using cached data." banner: it either serves the stored entry without error or shows the bare error |
| UseMenu.UnmountedFetchKeepsState | frontend/Elcappfet/hooks/useMenu.ts:121-199 | no fetch changes the displayed state while unmounted |
| UseMenu.SaveThenLoad | frontend/Elcappfet/hooks/useMenu.ts:42-116 | a saved entry is read back unchanged while younger than the duration, and is removed once it is that old |
| UseMenu.ClearCacheLeavesNoFallback | frontend/Elcappfet/hooks/useMenu.ts:223-242 | after clearCache, a failing fetch shows the bare error with the old data, and every store key outside the prefix is kept |
| UseMenu.MenuHook.constructor | frontend/Elcappfet/hooks/useMenu.ts:24-31 | the hook starts with the initial state, an empty memory map, the persisted store, and mounted |
| UseMenu.MenuHook.LoadFromCache | frontend/Elcappfet/hooks/useMenu.ts:42-87 | the new hook state and the returned flag are those of the load step on the old state |
| UseMenu.MenuHook.SaveToCache | frontend/Elcappfet/hooks/useMenu.ts:92-116 | the new hook state is that of the save step |
| UseMenu.MenuHook.FetchMenu | frontend/Elcappfet/hooks/useMenu.ts:121-210 | the new hook state is that of the fetch step for the selected day, so the fetch lemmas above hold for the hook |
| UseMenu.MenuHook.Refetch | frontend/Elcappfet/hooks/useMenu.ts:216-218 | refetch is a forced fetch |
| UseMenu.MenuHook.ClearCache | frontend/Elcappfet/hooks/useMenu.ts:223-242 | clearCache is the prefix removal followed by a forced fetch |
| UseMenu.MenuHook.SelectDay | frontend/Elcappfet/hooks/useMenu.ts:247-254 | selecting a day mounts the hook and runs a non-forced fetch for that day |
| UseMenu.MenuHook.Unmount | frontend/Elcappfet/hooks/useMenu.ts:247-254 | unmounting changes only the mounted flag |
| MenuParser.CollapseSpaces | backend/menu_parser_server.py:85 | each whitespace run becomes a single space and no two spaces remain adjacent; no other character is added |
| MenuParser.NettoyerTexte | backend/menu_parser_server.py:79-88 | empty input gives ""; the result has no whitespace at either end, no control character from the listed class, and only plain spaces as whitespace |
| MenuParser.NettoyerTexteKeepsText | backend/menu_parser_server.py:79-88 | cleaning keeps every visible character except the removed control characters, in order |
| MenuParser.CleanTextIsFixedPoint | backend/menu_parser_server.py:79-88 | already clean text, stripped with single spaces and no control character, is returned unchanged |
| MenuParser.NettoyerTexteNotIdempotent | backend/menu_parser_server.py:79-88 | cleaning is not idempotent: removing a control character between two spaces leaves a double space that a second cleaning collapses |
| MenuParser.ChfMatchAt | backend/menu_parser_server.py:134 | a match at a position is "CHF", then the whitespace after it, then a non-empty maximal run of digits and dots |
| MenuParser.FindChf | backend/menu_parser_server.py:134 | the search returns the leftmost position where the pattern matches, or none when it matches nowhere |
| MenuParser.SearchChf | backend/menu_parser_server.py:130-136 | the group is absent exactly when the pattern matches nowhere, and otherwise is a non-empty run of digits and dots |
| MenuParser.NormalisePrice | backend/menu_parser_server.py:130-136 | the price is "N/A" exactly when there is no price text or the pattern does not match, and otherwise is "CHF " followed by the matched digits |
| MenuParser.NormalisePriceExample | menu_parser_server.py:118-124 | a price text "Prix: CHF\n 14.50" becomes "CHF 14.50" |
| MenuParser.LastInSpec | backend/menu_parser_server.py:145-149 | a slot gets a menu exactly when some panel is assigned to it, and then it is the last such panel's menu |
| MenuParser.DayOfSpec | backend/menu_parser_server.py:90-151 | a row gives a day exactly when it has a day name, named by the cleaned lower-cased text; with fewer than two panels both slots are empty; a Bistro menu's title contains "bistro", a Vitality one's "vitality" and not "bistro" |
| MenuParser.LaterPanelWins | backend/menu_parser_server.py:145-149 | the last panel assigned to a slot is the one that slot keeps |
| MenuParser.ExtraireMenusJour | backend/menu_parser_server.py:90-151 | the panel loop, with its "bistro" / "vitality" tests, computes the day that the row specifies: each slot holds the last panel assigned to it |
| MenuParser.ExtractedDays | backend/menu_parser_server.py:175-183 | the days are those of the rows with a day name, in row order, and there are none exactly when no row has a day name |
| MenuParser.DayNames | backend/menu_parser_server.py:191 | the list of available days names each day, in order |
| MenuParser.ParseWeekSpec | backend/menu_parser_server.py:153-200 | the parse fails without day rows and when no row has a day name; otherwise it gives the title (or "Semaine inconnue"), the days in row order, never none, and metadata that counts and names them |
| MenuParser.ParserHtmlMenu | backend/menu_parser_server.py:153-200 | the parser's loop computes the week that the parse function specifies |
| Routes.FetchWeek | backend/menu_parser_server.py:256-287 | a download failure is a 503, a page without rows or days is a 500 with the parser's message, and otherwise exactly the parsed week (title, days and metadata), which is never empty |
| Routes.FetchAndParse | backend/menu_parser_server.py:258-267 | the route head computes the shared fetch-and-parse result |
| Routes.JoursMap | backend/menu_parser_server.py:270-280 | the dict has one key per day name present, each mapped to a day of that name |
| Routes.JoursMapLastWins | backend/menu_parser_server.py:390-413 | under each name the dict holds the last day with that name |
| Routes.JoursMapSize | backend/menu_parser_server.py:390-413 | the dict has at most one entry per day, and strictly fewer entries than days when a name repeats |
| Routes.MenusComplets | menu_parser_server.py:239-270 | the legacy route fails exactly when fetching or parsing fails, with the same error; on success it keeps the title and metadata, has one entry per day name, and under each name holds the two slots of the dict's day, each its item or null |
| Routes.SlotData | backend/menu_parser_server.py:336-350 | a slot is rendered available exactly when it holds a menu, and then carries that menu |
| Routes.WeeklyJours | backend/menu_parser_server.py:390-413 | the weekly days are keyed by the same names as the dict of days, and each holds that day's two slots rendered as available with the item, or unavailable |
| Routes.BuildWeeklyJours | backend/menu_parser_server.py:390-413 | the weekly loop, writing day after day into the dict, builds exactly the keyed and rendered days, so a later day with the same name overwrites an earlier one |
| Routes.WeeklyMenu | backend/menu_parser_server.py:376-434 | the weekly route fails exactly when fetching or parsing fails, with the same error; on success it keeps the title, renders the days, and marks the parser's metadata as served by the weekly endpoint at the given time |
| Routes.GetWeeklyMenu | backend/menu_parser_server.py:376-434 | the weekly route's code computes the weekly response, whose title, days and metadata Routes.WeeklyMenu and Routes.DayServedUnderName state |
| Routes.WeeklyAgreesWithLegacy | backend/menu_parser_server.py:270-413 | the weekly and the legacy routes succeed together and list the same days, a slot being available in one exactly when it is not null in the other, with the same menu |
| Routes.DayServedUnderName | backend/menu_parser_server.py:390-413 | under each day name both routes serve the last parsed day of that name: the weekly route its slots with "disponible", the legacy route its items or null |
| Routes.WeeklyTotalCanExceedDays | backend/menu_parser_server.py:415-427 | `total_jours` is never smaller than the number of listed days, and is strictly larger when two rows share a name |
| Routes.FirstMatch | backend/menu_parser_server.py:321-330 | the lookup gives the first day whose name equals the sought one ignoring case, or none when no day matches |
| Routes.FindJour | backend/menu_parser_server.py:542-552 | the search loop returns the first case-insensitive match, or nothing |
| Routes.TodayMenuSpec | backend/menu_parser_server.py:290-373 | the today route fails exactly when fetching or parsing fails; it serves the first day named like today, with that day's slots, and the first day of the week when none is; the title is the week's and the metadata is marked as served by the today endpoint |
| Routes.TodayFrMapsWeekdays | backend/menu_parser_server.py:305-318 | each of the seven English weekday names, Sunday included, becomes its French name ("Sunday" becomes "dimanche"), and any name that is not a weekday in any letter case is returned lower-cased |
| Routes.GetTodayMenu | backend/menu_parser_server.py:290-373 | the today route's code computes the today response |
| Routes.LookupJour | backend/menu_parser_server.py:542-564 | the by-day lookup succeeds exactly when some day matches ignoring case, and serves the first match; otherwise it is a 404 naming the available days |
| Routes.MenuJour | backend/menu_parser_server.py:528-571 | as intended, the by-day route passes the 503 and parse errors through and answers an unknown day with the lookup's 404 |
| Routes.MenuJourAsWritten | backend/menu_parser_server.py:566-571 | as written, the route succeeds exactly when the intended one does, and a failure of the lookup is turned into a 500 |
| Routes.MenuJourUnknownDayIsServerError | backend/menu_parser_server.py:542-571 | as written, the by-day route never answers 404; where the intended route answers 404, it answers 500 with "Erreur de traitement: 404: " and the detail |
| Routes.MenuJourMissingDayExample | backend/menu_parser_server.py:542-571 | a week holding only Monday, asked for "mardi", gives 404 as intended and 500 as written |
| Routes.GetMenuJour | backend/menu_parser_server.py:528-571 | the by-day route's loop computes the intended by-day response |
| Routes.PriceTokenEnd | backend/menu_parser_server.py:469 | a price token starting at a position is optional whitespace, then a match of the price pattern |
| Routes.RemovePriceTokens | backend/menu_parser_server.py:469 | removing the price tokens never lengthens the text or adds a character, and leaves text without the pattern unchanged; Routes.RemovePriceTokensScan states which characters go |
| Routes.RemovePriceTokensScan | backend/menu_parser_server.py:469 | text before the next price token is kept unchanged, and a price token found at the scan position, with its leading whitespace, is dropped as a whole before the scan resumes after it |
| Routes.ImageRouteItem | backend/menu_parser_server.py:463-475 | the item keeps the type; its price is "CHF " and the matched digits, or "N/A" when the pattern does not match; its content is the stripped description with its price tokens removed when it carries a price, and the stripped description otherwise |
| Routes.AsServerError | backend/menu_parser_server.py:491-493 | an exception caught by a route becomes a 500 whose detail is the route's prefix and the message; a result passes unchanged |
| Routes.GenerateForRoute | backend/menu_parser_server.py:478-493 | the generator's cache moves by one cache step for the item, and a generation failure becomes a 500 with the image prefix |
| Routes.ServeMenuImage | backend/menu_parser_server.py:448-493 | without a generator or key the route is a 500 and creates nothing; the first request with a key creates a fresh generator whose TTL is the configured hours (2 by default) times 3600 and whose cache is one generation step from empty; later requests run one cache step of the existing generator and keep it |
| Routes.GetMenuImage | backend/menu_parser_server.py:437-493 | the route serves the item built from the URL's type and description, with the same outcomes as Routes.ServeMenuImage, including the fresh generator of the first request |
| Routes.GetCacheStats | backend/menu_parser_server.py:496-506 | the route fails exactly when no generator can exist; otherwise it reports the cache size, the number of entries younger than the TTL as valid, the rest as expired, and the TTL in seconds; an existing generator is left unchanged and a first call reports an empty cache |
| Routes.ClearImageCache | backend/menu_parser_server.py:509-525 | the route fails exactly when no generator can exist; otherwise the cache is empty afterwards and `entries_removed` is its size before clearing |
| ImageGenerator.MenuStringAmbiguous | backend/image_generator.py:51-62 | the key string joins type, content and price with "_", so two different menus can share a cache key |
| ImageGenerator.Unexpired | backend/image_generator.py:94-118 | the entries kept are exactly those still younger than the TTL, with their values unchanged |
| ImageGenerator.GenerateStep | backend/image_generator.py:120-202 | a valid entry under the key is served as it is, without generation, and the cache does not change; otherwise the expired entries go, and a generated image is stored under the key with the current time |
| ImageGenerator.MissLeavesOnlyValidEntries | backend/image_generator.py:137-193 | after a miss, the cache holds only entries that are still valid |
| ImageGenerator.ValidKeys | backend/image_generator.py:211-214 | the valid keys among a key set are those whose entry is younger than the TTL |
| ImageGenerator.EffectiveKey | backend/image_generator.py:39 | the key argument wins when non-empty, then the environment's key when non-empty; an empty key counts as absent |
| ImageGenerator.MenuImageGenerator.constructor | backend/image_generator.py:32-49 | a generator starts with an empty cache and a TTL of the given hours times 3600 seconds |
| ImageGenerator.MenuImageGenerator.CleanupExpiredCache | backend/image_generator.py:106-118 | the deletion loop removes exactly the expired entries and leaves the valid ones untouched |
| ImageGenerator.MenuImageGenerator.GenerateImage | backend/image_generator.py:120-202 | the new cache and the result are those of the cache step for the menu's key |
| ImageGenerator.MenuImageGenerator.GetCacheStats | backend/image_generator.py:204-221 | the counting loop reports the cache size, the number of valid entries (never more than the total), the expired count as the difference, and the TTL |
| ImageGenerator.NewMenuImageGenerator | backend/image_generator.py:32-49 | creation fails with the missing-key message exactly when neither the argument nor the environment gives a non-empty key; otherwise the TTL defaults to 2 hours |
| ImageGenerator.GeneratorRegistry.constructor | backend/image_generator.py:224-225 | the module starts without a generator |
| ImageGenerator.GeneratorRegistry.GetImageGenerator | backend/image_generator.py:224-231 | once created, the same instance is returned on every call; a created instance has the configured TTL in seconds and the given digest; with no instance and no key the call fails and stays without one |
| Pipeline.NormalisedMatchedDigits | backend/menu_parser_server.py:130-136 | the digits the backend matched come through the app's price normalisation unchanged |
| Pipeline.PriceRoundTrip | frontend/Elcappfet/utils/dataTransform.ts:35-51 | the app reads "N/A" as 0, and any other backend price as parseFloat of exactly the digits the backend matched |
| Pipeline.PriceIsNaNOnlyForLoneDot | frontend/Elcappfet/utils/dataTransform.ts:43-50 | a backend price reads as NaN exactly when the matched digits start with a dot that no digit follows |
| Pipeline.ShownPrice | frontend/Elcappfet/utils/dataTransform.ts:90-112 | with the corrected parse, the app shows 0 for "N/A" and for a lone dot, and otherwise the number the matched digits spell |

## Left out

- Network, HTML and storage I/O. `requests`, BeautifulSoup's tree search, `fetch` with its `AbortController` and timer, and AsyncStorage are replaced by their results. These are a download outcome, a page value, a fetch outcome, and a map in which an unreadable value is `None`.
- Async and concurrency. Each fetch is one sequential step, and the interleaving of concurrent fetches is not modelled. React's `useEffect`/`useCallback` plumbing becomes the `SelectDay` and `Unmount` methods.
- Text encoding. Case folding is ASCII only, and `\d` is an ASCII digit. Python's `str.lower()` and `\d` also act on other Unicode letters and digits.
- Floating point. A price is an exact rational or NaN, so rounding of long decimals is not modelled.
- The image route's first step. The Gemini call, the prompt and the PIL resize are one opaque `Generation` outcome. `md5` is an abstract digest. The `memory_usage_mb` estimate of the statistics is not computed.
- The "service not available" branches of the image routes. Their 503 is raised inside the `try`, so the image route answers a 500 "Erreur génération image: 503: ..." and the clear route a 500 "Erreur vidage cache: 503: ..."; the statistics route returns an error object. The import that provides the generator always succeeds here.
- DataTransform.TransformWeeklyMenu: a day key is looked up in a map of the day names only. In JavaScript a key such as "constructor" or "toString" finds an inherited prototype member instead of `undefined`, so the source would store that day under a non-index key; this is not modelled.
- Api.WeeklyMenuResult: a body is either unparsable or a parsed value of the payload type. A JSON `null` body (where reading `success` throws a TypeError) and a successful body of the wrong shape (where the transformation throws) are not expressible; in the source both reach the hook's `catch` and show the TypeError's message.
- Constants.ImageRouteSegments: matches the path as the app builds it. The server percent-decodes the path before matching, so a description whose encoding holds "%2F" arrives with an extra "/" and is not matched; decoding is not modelled.
- Configuration. `CACHE_TTL_HOURS` is a parsed `Option<int>`, and a non-numeric value (an `int()` failure) is not modelled. The API timeout and `CACHE_DURATION` are parameters.
- UseMenu.NetworkStep: one `now` stands for three clock reads: the `Date.now()` in each item's id, the timestamp saved with the day, and the `lastFetch` set after the awaited write. In the source the later reads can be slightly later than the earlier ones.
- ImageGenerator.MenuImageGenerator.GenerateImage: one `now` is used for the validity check, the cleanup and the stored timestamp. The source reads the clock again before storing, so the stored time can be slightly later.
- Routes.TodayMenuSpec: the 404 for a week without days cannot happen after a successful parse. It is modelled as the 500 it would become, and it is not stated.
- Routes.LookupJour: the 404 detail uses Python's list repr for plain names. Quotes or backslashes inside a day name, which repr would escape, are not modelled.
- Api.HandleResponse: a 4xx body whose `detail` is not a string is treated like a body without a detail.
- Response headers, CORS, logging, and the `/` and `/health` routes carry no menu logic. `formatCacheDate` and `fetchTodayMenu` are not used by the hook.

## Findings

| source | as written | input that shows it | evidently intended | confidence | as-written member | corrected member |
|---|---|---|---|---|---|---|
| backend/menu_parser_server.py:542-552,566-571 | the 404 for an unknown day is raised inside the `try`, whose `except Exception` turns it into a 500 "Erreur de traitement: 404: ..." (the older copy, menu_parser_server.py:287-297,311-316, does the same) | a week holding only "Lundi", request `/menus/mardi` | a 404 listing the available days | high, not executed | Routes.MenuJourAsWritten (shown by Routes.MenuJourMissingDayExample and Routes.MenuJourUnknownDayIsServerError) | Routes.MenuJour, used by Routes.GetMenuJour |
| frontend/Elcappfet/utils/dataTransform.ts:43-50 | a match of `/[\d.]+/` that starts with a dot not followed by a digit (such as "." or "..5") is passed to `parseFloat`, which gives NaN, so the "default price" 0 is not returned | the price string "CHF ." or "." (the backend emits "CHF ." for a page price "CHF .") | 0 for a price that does not parse | high, not executed | DataTransform.ParsePriceLoneDotIsNaN (with Pipeline.PriceIsNaNOnlyForLoneDot) | DataTransform.ParsePriceOrZero, used by DataTransform.TransformBackendMenuItem |

=== FILE: api.dfy ===
/** The HTTP client of the frontend (frontend/Elcappfet/services/api.ts): how the outcome of a
    request is classified into data or an error, and the URL building over a mutable base URL.
    fetch(), the AbortController timer and the JSON parser are not modelled; what they produce
    is an input. */
module Api {
  import opened Wrappers
  import opened Text
  import opened Constants
  import opened MenuTypes

  /** APIServiceError: a message, the HTTP status when a response arrived, and the URL or
      endpoint path it concerns. */
  datatype ApiError = ApiError(message: string, status: Option<int>, endpoint: string)

  /** What fetch() threw: the abort raised by the timeout, another Error, or a non-Error value. */
  datatype FetchFailure = Aborted | OtherError(message: string) | NonError

  /** A JSON body as it parsed: the weekly payload, or another object whose `detail` field is
      the given string ("" when it is absent or empty). */
  datatype Payload = WeeklyJson(response: BackendWeeklyMenuResponse) | DetailJson(detail: string)

  datatype Body = Parsed(payload: Payload) | NotJson

  datatype HttpResponse = HttpResponse(status: int, body: Body) {
    /** Response.ok */
    predicate Ok() { 200 <= status <= 299 }
  }

  datatype FetchOutcome = Responded(response: HttpResponse) | Threw(failure: FetchFailure)

  const UNKNOWN_ERROR := "Unknown error occurred"
  const UNSUCCESSFUL := "Backend returned unsuccessful response"

  /** getImageUrl: the base URL followed by the MENU_IMAGE path. */
  function ImageUrl(baseURL: string, menuType: string, description: string, encode: string -> string): (url: string)
    ensures baseURL <= url
    ensures url[|baseURL|..] == MenuImage(menuType, description, encode)
  {
    baseURL + MenuImage(menuType, description, encode)
  }

  /** fetchWithTimeout: a response is passed through; a throw becomes an error tagged with
      the full URL and no status. */
  function FetchWithTimeout(url: string, outcome: FetchOutcome): (r: Result<HttpResponse, ApiError>)
    ensures outcome.Responded? <==> r.Success?
    ensures r.Success? ==> r.value == outcome.response
    ensures r.Failure? ==> r.error.status == None && r.error.endpoint == url
    ensures r.Failure? ==> (r.error.message == TIMEOUT <==> outcome.failure == Aborted)
    ensures r.Failure? ==> (r.error.message == UNKNOWN_ERROR <==> outcome.failure == NonError)
    ensures r.Failure? && outcome.failure.OtherError? ==> r.error.message == NETWORK_ERROR
  {
    match outcome
    case Responded(response) => Success(response)
    case Threw(Aborted) => Failure(ApiError(TIMEOUT, None, url))
    case Threw(OtherError(_)) => Failure(ApiError(NETWORK_ERROR, None, url))
    case Threw(NonError) => Failure(ApiError(UNKNOWN_ERROR, None, url))
  }

  /** The message of a 4xx response: its non-empty `detail`, or a sentence naming the status. */
  function ClientErrorMessage(status: int, body: Body): string {
    var fallback := "Request failed with status " + IntToString(status);
    match body
    case Parsed(DetailJson(detail)) => if detail != "" then detail else fallback
    case _ => fallback
  }

  /** handleResponse: a non-ok status of at least 500 or 400 is an error carrying the status;
      otherwise (an ok status, or a non-ok status below 400) the body must parse as JSON. */
  function HandleResponse(response: HttpResponse, endpoint: string): (r: Result<Payload, ApiError>)
    ensures r.Failure? ==> r.error.status == Some(response.status) && r.error.endpoint == endpoint
    ensures response.status >= 500 ==> r.Failure? && r.error.message == SERVER_ERROR
    ensures 400 <= response.status < 500 ==>
      r == Failure(ApiError(ClientErrorMessage(response.status, response.body), Some(response.status), endpoint))
    ensures response.status < 400 ==> (r.Success? <==> response.body.Parsed?)
    ensures response.status < 400 && response.body.NotJson? ==>
      r == Failure(ApiError(PARSE_ERROR, Some(response.status), endpoint))
    ensures r.Success? ==> response.status < 400 && response.body == Parsed(r.value)
  {
    if !response.Ok() && response.status >= 500 then
      Failure(ApiError(SERVER_ERROR, Some(response.status), endpoint))
    else if !response.Ok() && response.status >= 400 then
      Failure(ApiError(ClientErrorMessage(response.status, response.body), Some(response.status), endpoint))
    else
      match response.body
      case Parsed(payload) => Success(payload)
      case NotJson => Failure(ApiError(PARSE_ERROR, Some(response.status), endpoint))
  }

  /** What fetchWeeklyMenu returns or raises, given the base URL and what fetch() did. */
  function WeeklyMenuResult(baseURL: string, outcome: FetchOutcome): (r: Result<BackendWeeklyMenuResponse, ApiError>)
    ensures r.Success? <==>
      outcome.Responded? && outcome.response.status < 400
      && outcome.response.body.Parsed? && outcome.response.body.payload.WeeklyJson?
      && outcome.response.body.payload.response.success
    ensures r.Success? ==> r.value == outcome.response.body.payload.response
    ensures r.Failure? && outcome.Responded? ==> r.error.endpoint == WEEKLY_MENU
    ensures r.Failure? && outcome.Threw? ==> r.error.endpoint == baseURL + WEEKLY_MENU
    ensures outcome.Responded? && outcome.response.status < 400 && outcome.response.body.Parsed?
            && !(outcome.response.body.payload.WeeklyJson? && outcome.response.body.payload.response.success) ==>
      r == Failure(ApiError(UNSUCCESSFUL, Some(outcome.response.status), WEEKLY_MENU))
    ensures outcome.Responded? && HandleResponse(outcome.response, WEEKLY_MENU).Failure? ==>
      r == Failure(HandleResponse(outcome.response, WEEKLY_MENU).error)
  {
    var url := baseURL + WEEKLY_MENU;
    match FetchWithTimeout(url, outcome)
    case Failure(e) => Failure(e)
    case Success(response) =>
      match HandleResponse(response, WEEKLY_MENU)
      case Failure(e) => Failure(e)
      case Success(payload) =>
        if payload.WeeklyJson? && payload.response.success then Success(payload.response)
        else Failure(ApiError(UNSUCCESSFUL, Some(response.status), WEEKLY_MENU))
  }

  /** Which error fetchWeeklyMenu raises in each case: the three fetch failures tagged with
      the full URL and no status; then, tagged with the endpoint and the status, the server
      error, the 4xx message, the parse error and the unsuccessful-response error. Every
      message is non-empty. */
  lemma FetchWeeklyMenuErrors(baseURL: string, outcome: FetchOutcome)
    ensures var r := WeeklyMenuResult(baseURL, outcome); var url := baseURL + WEEKLY_MENU;
      (outcome == Threw(Aborted) ==> r == Failure(ApiError(TIMEOUT, None, url)))
      && (outcome.Threw? && outcome.failure.OtherError? ==> r == Failure(ApiError(NETWORK_ERROR, None, url)))
      && (outcome == Threw(NonError) ==> r == Failure(ApiError(UNKNOWN_ERROR, None, url)))
    ensures var r := WeeklyMenuResult(baseURL, outcome);
      outcome.Responded? ==>
        var status := outcome.response.status;
        var body := outcome.response.body;
        (status >= 500 ==> r == Failure(ApiError(SERVER_ERROR, Some(status), WEEKLY_MENU)))
        && (400 <= status < 500 ==> r == Failure(ApiError(ClientErrorMessage(status, body), Some(status), WEEKLY_MENU)))
        && (status < 400 && body.NotJson? ==> r == Failure(ApiError(PARSE_ERROR, Some(status), WEEKLY_MENU)))
        && (status < 400 && body.Parsed? && !(body.payload.WeeklyJson? && body.payload.response.success) ==>
              r == Failure(ApiError(UNSUCCESSFUL, Some(status), WEEKLY_MENU)))
    ensures var r := WeeklyMenuResult(baseURL, outcome);
      r.Failure? ==> r.error.message != "" && (r.error.status == None <==> outcome.Threw?)
  {
    if outcome.Responded? && 400 <= outcome.response.status < 500 {
      ClientErrorMessageSpec(outcome.response.status, "");
    }
  }

  /** fetchWeeklyMenu's `!data.success` test and the isSuccessResponse guard agree: every
      response it returns passes the guard, and a parsed weekly body that fails the guard is
      the unsuccessful-response error. */
  lemma FetchedResponseIsSuccess(baseURL: string, outcome: FetchOutcome)
    ensures WeeklyMenuResult(baseURL, outcome).Success? ==> IsSuccessResponse(WeeklyMenuResult(baseURL, outcome).value)
    ensures outcome.Responded? && outcome.response.status < 400 && outcome.response.body.Parsed?
            && outcome.response.body.payload.WeeklyJson? ==>
      (WeeklyMenuResult(baseURL, outcome).Success? <==> IsSuccessResponse(outcome.response.body.payload.response))
  {
  }

  /** The image URL names its item: two URLs built on the same base URL are equal only for the
      same type and the same encoded description, as long as neither holds a '/'. */
  lemma ImageUrlInjective(baseURL: string, type1: string, description1: string,
                          type2: string, description2: string, encode: string -> string)
    requires ImageSegments(type1, encode(description1)) && ImageSegments(type2, encode(description2))
    requires ImageUrl(baseURL, type1, description1, encode) == ImageUrl(baseURL, type2, description2, encode)
    ensures type1 == type2 && encode(description1) == encode(description2)
  {
    var n := |baseURL|;
    assert MenuImage(type1, description1, encode) == ImageUrl(baseURL, type1, description1, encode)[n..];
    assert MenuImage(type2, description2, encode) == ImageUrl(baseURL, type2, description2, encode)[n..];
    MenuImageRoutes(type1, description1, encode);
    MenuImageRoutes(type2, description2, encode);
  }

  /** A 4xx message is the server's detail exactly when that detail is non-empty. */
  lemma ClientErrorMessageSpec(status: int, detail: string)
    ensures detail != "" ==> ClientErrorMessage(status, Parsed(DetailJson(detail))) == detail
    ensures ClientErrorMessage(status, Parsed(DetailJson(""))) == ClientErrorMessage(status, NotJson)
    ensures "Request failed with status " <= ClientErrorMessage(status, NotJson)
    ensures ClientErrorMessage(status, Parsed(DetailJson(detail))) != ""
  {
  }

  /** APIService: the base URL can be changed; every URL is built from its current value.
      The timeout is not kept: its effect is the Aborted outcome. */
  class ApiService {
    var baseURL: string
    const encode: string -> string

    constructor(baseURL0: string, encode0: string -> string)
      ensures baseURL == baseURL0 && encode == encode0
    {
      baseURL := baseURL0;
      encode := encode0;
    }

    method GetBaseURL() returns (url: string)
      ensures url == baseURL
    {
      url := baseURL;
    }

    method SetBaseURL(url: string)
      modifies this
      ensures baseURL == url
    {
      baseURL := url;
    }

    method GetImageUrl(menuType: string, description: string) returns (url: string)
      ensures url == ImageUrl(baseURL, menuType, description, encode)
    {
      url := baseURL + MenuImage(menuType, description, encode);
    }

    method FetchWeeklyMenu(outcome: FetchOutcome) returns (r: Result<BackendWeeklyMenuResponse, ApiError>)
      ensures r == WeeklyMenuResult(baseURL, outcome)
    {
      var url := baseURL + WEEKLY_MENU;
      var fetched := FetchWithTimeout(url, outcome);
      if fetched.Failure? {
        return Failure(fetched.error);
      }
      var response := fetched.value;
      var handled := HandleResponse(response, WEEKLY_MENU);
      if handled.Failure? {
        return Failure(handled.error);
      }
      var payload := handled.value;
      if !(payload.WeeklyJson? && payload.response.success) {
        return Failure(ApiError(UNSUCCESSFUL, Some(response.status), WEEKLY_MENU));
      }
      r := Success(payload.response);
    }
  }
}

=== FILE: constants.dfy ===
/** The constant tables of the frontend (frontend/Elcappfet/utils/constants.ts): day mappings,
    dietary keyword table, cache key naming, endpoint paths and user-facing error messages. */
module Constants {
  import opened Wrappers
  import opened Text

  /** DAY_MAP: French day name (backend key) to day index, Monday = 0 .. Friday = 4. */
  const DAY_MAP: map<string, int> :=
    map["lundi" := 0, "mardi" := 1, "mercredi" := 2, "jeudi" := 3, "vendredi" := 4]

  /** Object.keys(DAY_MAP): the keys of the object literal in declaration order. */
  const DAY_MAP_KEYS: seq<string> := ["lundi", "mardi", "mercredi", "jeudi", "vendredi"]

  /** INDEX_TO_DAY_FR: the reverse table, written out separately in the source. */
  const INDEX_TO_DAY_FR: map<int, string> :=
    map[0 := "lundi", 1 := "mardi", 2 := "mercredi", 3 := "jeudi", 4 := "vendredi"]

  /** DAY_NAMES_FR: a third copy of the weekday names, as a list. */
  const DAY_NAMES_FR: seq<string> := ["lundi", "mardi", "mercredi", "jeudi", "vendredi"]

  /** The first key of `keys` that DAY_MAP sends to `dayIndex` (Array.prototype.find). */
  function FindDayName(keys: seq<string>, dayIndex: int): (r: Option<string>)
    ensures r.Some? ==> r.value in keys && r.value in DAY_MAP && DAY_MAP[r.value] == dayIndex
    ensures r.None? ==> forall k :: k in keys && k in DAY_MAP ==> DAY_MAP[k] != dayIndex
  {
    if keys == [] then None
    else if keys[0] in DAY_MAP && DAY_MAP[keys[0]] == dayIndex then Some(keys[0])
    else FindDayName(keys[1..], dayIndex)
  }

  /** `Object.keys(DAY_MAP).find((day) => DAY_MAP[day] === dayIndex)`. */
  function DayNameOfIndex(dayIndex: int): Option<string> {
    FindDayName(DAY_MAP_KEYS, dayIndex)
  }

  /** DAY_MAP is injective and its values are exactly the indices 0..4. */
  lemma DayMapIsBijection()
    ensures forall a, b :: a in DAY_MAP && b in DAY_MAP && DAY_MAP[a] == DAY_MAP[b] ==> a == b
    ensures forall n :: n in DAY_MAP ==> 0 <= DAY_MAP[n] < 5
    ensures forall i :: 0 <= i < 5 ==> DAY_NAMES_FR[i] in DAY_MAP && DAY_MAP[DAY_NAMES_FR[i]] == i
  {
  }

  /** INDEX_TO_DAY_FR is the inverse of DAY_MAP, and DAY_NAMES_FR lists it in index order. */
  lemma IndexToDayIsInverse()
    ensures INDEX_TO_DAY_FR.Keys == {0, 1, 2, 3, 4}
    ensures forall n :: n in DAY_MAP ==> DAY_MAP[n] in INDEX_TO_DAY_FR && INDEX_TO_DAY_FR[DAY_MAP[n]] == n
    ensures forall i :: i in INDEX_TO_DAY_FR ==> INDEX_TO_DAY_FR[i] in DAY_MAP && DAY_MAP[INDEX_TO_DAY_FR[i]] == i
    ensures forall i :: 0 <= i < 5 ==> DAY_NAMES_FR[i] == INDEX_TO_DAY_FR[i]
  {
  }

  /** The key search finds a day name exactly for the indices 0..4, and it is DAY_NAMES_FR[i]. */
  lemma DayNameOfIndexSpec(dayIndex: int)
    ensures DayNameOfIndex(dayIndex).Some? <==> 0 <= dayIndex < 5
    ensures 0 <= dayIndex < 5 ==> DayNameOfIndex(dayIndex) == Some(DAY_NAMES_FR[dayIndex])
  {
    DayMapIsBijection();
    var r := DayNameOfIndex(dayIndex);
    assert forall k :: k in DAY_MAP_KEYS <==> k in DAY_MAP;
    if r.Some? {
      assert 0 <= dayIndex < 5;
      assert r.value == DAY_NAMES_FR[dayIndex];
    } else {
      assert forall i :: 0 <= i < 5 ==> DAY_MAP[DAY_NAMES_FR[i]] != dayIndex;
    }
  }

  // ---- Dietary tags ----

  const VEGETARIAN := "Vegetarian"
  const VEGAN := "Vegan"
  const GLUTEN_FREE := "Gluten-Free"
  const HIGH_PROTEIN := "High Protein"
  const DAIRY_FREE := "Dairy-Free"

  /** DIETARY_KEYWORDS: tag label to its keywords, in declaration order. */
  const DIETARY_KEYWORDS: seq<(string, seq<string>)> := [
    (VEGETARIAN, ["végétarien", "vegetarien", "légumes", "vegetable"]),
    (VEGAN, ["végan", "vegan"]),
    (GLUTEN_FREE, ["sans gluten", "gluten-free"]),
    (HIGH_PROTEIN, ["poulet", "chicken", "poisson", "fish", "viande", "meat", "protéine"]),
    (DAIRY_FREE, ["sans lactose", "dairy-free"])
  ]

  /** The tag labels, in the order the keyword table lists them. */
  const DIETARY_TAG_ORDER: seq<string> := [VEGETARIAN, VEGAN, GLUTEN_FREE, HIGH_PROTEIN, DAIRY_FREE]

  function Labels(table: seq<(string, seq<string>)>): (r: seq<string>)
    ensures |r| == |table| && forall i :: 0 <= i < |table| ==> r[i] == table[i].0
  {
    seq(|table|, i requires 0 <= i < |table| => table[i].0)
  }

  predicate NoDup(s: seq<string>) {
    forall i, j :: 0 <= i < j < |s| ==> s[i] != s[j]
  }

  /** The keyword table has exactly the five tag labels as keys, in that order, all distinct. */
  lemma DietaryKeywordsKeys()
    ensures Labels(DIETARY_KEYWORDS) == DIETARY_TAG_ORDER
    ensures NoDup(DIETARY_TAG_ORDER)
    ensures DIETARY_TAG_ORDER[3] == "High Protein"
  {
  }

  /** MENU_NAME_WORD_COUNT */
  const MENU_NAME_WORD_COUNT: nat := 3

  // ---- Cache keys ----

  const MENU_CACHE_PREFIX := "menu_cache_"

  /** getCacheKey: the AsyncStorage key of a day's cache entry. */
  function CacheKey(dayIndex: int): (key: string)
    ensures MENU_CACHE_PREFIX <= key
  {
    MENU_CACHE_PREFIX + IntToString(dayIndex)
  }

  /** Distinct day indices never share a cache key. */
  lemma CacheKeyInjective(a: int, b: int)
    requires CacheKey(a) == CacheKey(b)
    ensures a == b
  {
    var n := |MENU_CACHE_PREFIX|;
    assert IntToString(a) == CacheKey(a)[n..];
    assert IntToString(b) == CacheKey(b)[n..];
    IntToStringInjective(a, b);
  }

  // ---- Endpoints ----

  const WEEKLY_MENU := "/menus/weekly"

  /** API_ENDPOINTS.MENU_IMAGE; `encode` stands for encodeURIComponent. */
  function MenuImage(menuType: string, description: string, encode: string -> string): (path: string)
    ensures "/images/menu/" <= path
    ensures path[|"/images/menu/"|..] == menuType + "/" + encode(description)
  {
    "/images/menu/" + menuType + "/" + encode(description)
  }

  const IMAGE_PREFIX := "/images/menu/"

  predicate NotSlash(c: char) { c != '/' }

  /** A type and an encoded description that each fill one path segment: non-empty and
      without a '/' (encodeURIComponent escapes every '/'). */
  predicate ImageSegments(menuType: string, encoded: string) {
    menuType != [] && '/' !in menuType && encoded != [] && '/' !in encoded
  }

  /** How the backend's route /images/menu/{menu_type}/{menu_description} reads a path: after
      the prefix, two non-empty segments without '/', split at the one '/' between them. */
  function ImageRouteSegments(path: string): (r: Option<(string, string)>)
    ensures r.Some? ==> ImageSegments(r.value.0, r.value.1)
                        && path == IMAGE_PREFIX + r.value.0 + "/" + r.value.1
  {
    if !(IMAGE_PREFIX <= path) then None
    else
      var rest := path[|IMAGE_PREFIX|..];
      var t := TakeWhile(rest, NotSlash);
      if t == [] || |t| == |rest| then None
      else
        var d := rest[|t| + 1..];
        if d == [] || '/' in d then None
        else
          assert '/' !in t by {
            forall i | 0 <= i < |t| ensures t[i] != '/' { assert NotSlash(t[i]); }
          }
          assert rest == t + "/" + d;
          Some((t, d))
  }

  /** Every image path the app builds reaches the image route, which binds the type and the
      encoded description it was built from. */
  lemma MenuImageRoutes(menuType: string, description: string, encode: string -> string)
    requires ImageSegments(menuType, encode(description))
    ensures ImageRouteSegments(MenuImage(menuType, description, encode)) == Some((menuType, encode(description)))
  {
    var path := MenuImage(menuType, description, encode);
    var rest := path[|IMAGE_PREFIX|..];
    assert rest == menuType + ("/" + encode(description));
    assert AllSatisfy(menuType, NotSlash);
    TakeWhilePrefix(menuType, "/" + encode(description), NotSlash);
    assert rest[|menuType| + 1..] == encode(description);
  }

  /** TakeWhile stops exactly at the end of a prefix that satisfies `p`, when the next
      character does not. */
  lemma {:induction false} TakeWhilePrefix(a: string, b: string, p: char -> bool)
    requires AllSatisfy(a, p) && b != [] && !p(b[0])
    ensures TakeWhile(a + b, p) == a
    decreases |a|
  {
    if a != [] {
      assert (a + b)[1..] == a[1..] + b;
      TakeWhilePrefix(a[1..], b, p);
    }
  }

  // ---- Error messages ----

  const NETWORK_ERROR := "Unable to connect to the server. Please check your internet connection."
  const SERVER_ERROR := "Server is currently unavailable. Please try again later."
  const PARSE_ERROR := "Unable to process menu data. Please try again."
  const NO_DATA := "No menu data available for this day."
  const TIMEOUT := "Request timed out. Please try again."

  /** Default EXPO_PUBLIC_CACHE_DURATION: two hours, in milliseconds. */
  const DEFAULT_CACHE_DURATION: int := 7200000
}

=== FILE: data_transform.dfy ===
/** The frontend transform layer (frontend/Elcappfet/utils/dataTransform.ts): backend menu
    records become display items. The clock and the URL encoder are parameters. */
module DataTransform {
  import opened Wrappers
  import opened Text
  import opened Constants
  import opened MenuTypes
  import Api

  // ---- extractMenuName ----

  predicate IsJsWordChar(c: char) { !IsJsSpace(c) }

  /** String.prototype.trim() */
  function TrimJs(s: string): string {
    Strip(s, IsJsSpace)
  }

  /** s.split(/\s+/): the fields between maximal runs of whitespace, with an empty first
      (last) field when `s` starts (ends) with whitespace. */
  function SplitWs(s: string): (fields: seq<string>)
    ensures |fields| >= 1
    decreases |s|
  {
    var first := TakeWhile(s, IsJsWordChar);
    var rest := s[|first|..];
    if rest == [] then [first]
    else
      var next := DropWhile(rest, IsJsSpace);
      assert |next| < |rest|;
      [first] + SplitWs(next)
  }

  /** The words of `s`: its maximal runs of non-whitespace characters, in order. */
  function Words(s: string): (ws: seq<string>)
    ensures forall i :: 0 <= i < |ws| ==> ws[i] != []
    decreases |s|
  {
    if s == [] then []
    else if IsJsSpace(s[0]) then Words(s[1..])
    else
      var w := TakeWhile(s, IsJsWordChar);
      [w] + Words(s[|w|..])
  }

  /** The first `n` elements of `ws`, or all of them (Array.prototype.slice(0, n)). */
  function Take(ws: seq<string>, n: nat): (r: seq<string>)
    ensures |r| == if |ws| <= n then |ws| else n
    ensures r <= ws
  {
    if |ws| <= n then ws else ws[..n]
  }

  /** extractMenuName: the first MENU_NAME_WORD_COUNT words of the description, joined by
      single spaces; a blank description gives "". */
  function ExtractMenuName(description: string): (name: string)
    ensures name == Join(Take(Words(description), MENU_NAME_WORD_COUNT), " ")
    ensures Words(description) == [] ==> name == ""
  {
    var t := TrimJs(description);
    WordsOfTrim(description);
    if t == [] then
      assert SplitWs(t) == [[]];
      Join(Take(SplitWs(t), MENU_NAME_WORD_COUNT), " ")
    else
      SplitWsWords(t);
      Join(Take(SplitWs(t), MENU_NAME_WORD_COUNT), " ")
  }

  /** A prefix of word characters that ends where `v` begins with a non-word character
      is unaffected by appending `v`. */
  lemma {:induction false} TakeWhileAppend(u: string, v: string, p: char -> bool)
    requires v == [] || !p(v[0])
    ensures TakeWhile(u + v, p) == TakeWhile(u, p)
    decreases |u|
  {
    if u == [] {
      assert u + v == v;
    } else if p(u[0]) {
      assert (u + v)[1..] == u[1..] + v;
      TakeWhileAppend(u[1..], v, p);
    }
  }

  lemma {:induction false} WordsAllSpace(s: string)
    requires AllSatisfy(s, IsJsSpace)
    ensures Words(s) == []
    decreases |s|
  {
    if s != [] {
      WordsAllSpace(s[1..]);
    }
  }

  /** Leading whitespace does not change the words. */
  lemma {:induction false} WordsDropSpace(s: string)
    ensures Words(DropWhile(s, IsJsSpace)) == Words(s)
    decreases |s|
  {
    if s != [] && IsJsSpace(s[0]) {
      assert DropWhile(s, IsJsSpace) == DropWhile(s[1..], IsJsSpace);
      WordsDropSpace(s[1..]);
    }
  }

  /** Trailing whitespace does not change the words. */
  lemma {:induction false} WordsAppendSpace(u: string, sp: string)
    requires AllSatisfy(sp, IsJsSpace)
    ensures Words(u + sp) == Words(u)
    decreases |u|
  {
    if u == [] {
      assert u + sp == sp;
      WordsAllSpace(sp);
    } else if IsJsSpace(u[0]) {
      assert (u + sp)[1..] == u[1..] + sp;
      WordsAppendSpace(u[1..], sp);
    } else {
      TakeWhileAppend(u, sp, IsJsWordChar);
      var w := TakeWhile(u, IsJsWordChar);
      assert (u + sp)[|w|..] == u[|w|..] + sp;
      WordsAppendSpace(u[|w|..], sp);
    }
  }

  /** trim() does not change the words. */
  lemma WordsOfTrim(s: string)
    ensures Words(TrimJs(s)) == Words(s)
  {
    var t := DropWhile(s, IsJsSpace);
    var r := DropWhileEnd(t, IsJsSpace);
    assert t == r + t[|r|..];
    assert AllSatisfy(t[|r|..], IsJsSpace);
    WordsAppendSpace(r, t[|r|..]);
    WordsDropSpace(s);
  }

  /** On a string that neither starts nor ends with whitespace, split(/\s+/) gives the words. */
  lemma {:induction false} SplitWsWords(t: string)
    requires t != [] && !IsJsSpace(t[0]) && !IsJsSpace(t[|t| - 1])
    ensures SplitWs(t) == Words(t)
    decreases |t|
  {
    var w := TakeWhile(t, IsJsWordChar);
    var rest := t[|w|..];
    if rest != [] {
      var next := DropWhile(rest, IsJsSpace);
      assert rest[|rest| - 1] == t[|t| - 1];
      assert next != [];
      assert next[|next| - 1] == t[|t| - 1];
      SplitWsWords(next);
      WordsDropSpace(rest);
    }
  }

  // ---- parsePrice ----

  /** priceString.replace(/CHF/gi, ""): every "CHF" in any letter case goes, left to right. */
  function RemoveChf(s: string): (r: string)
    ensures |r| <= |s|
    ensures forall i :: 0 <= i < |r| ==> r[i] in s
    decreases |s|
  {
    if |s| >= 3 && Lower(s[..3]) == "chf" then
      var r := RemoveChf(s[3..]);
      assert forall i :: 0 <= i < |r| ==> r[i] in s[3..];
      r
    else if s == [] then []
    else [s[0]] + RemoveChf(s[1..])
  }

  /** A "chf" in any letter case starts at position `i` of `s`. */
  predicate ChfAt(s: string, i: int) {
    0 <= i && i + 3 <= |s| && Lower(s[i..i + 3]) == "chf"
  }

  /** The global replace scans left to right: text in which no match starts is kept as it is,
      and a match is removed before the scan goes on after it. With `b` empty: a string
      without any match is unchanged. */
  lemma {:induction false} RemoveChfScan(a: string, b: string)
    requires forall i :: 0 <= i < |a| ==> !ChfAt(a + b, i)
    ensures RemoveChf(a + b) == a + RemoveChf(b)
    ensures ChfAt(b, 0) ==> RemoveChf(b) == RemoveChf(b[3..])
    decreases |a|
  {
    if ChfAt(b, 0) {
      assert b[..3] == b[0..3];
    }
    if a != [] {
      var s := a + b;
      assert !ChfAt(s, 0);
      if |s| >= 3 {
        assert s[..3] == s[0..3];
      }
      assert s[1..] == a[1..] + b;
      forall i | 0 <= i < |a[1..]| ensures !ChfAt(a[1..] + b, i) {
        assert !ChfAt(s, i + 1);
        if i + 3 <= |a[1..] + b| {
          assert (a[1..] + b)[i..i + 3] == s[i + 1..i + 4];
        }
      }
      RemoveChfScan(a[1..], b);
      assert RemoveChf(s) == [s[0]] + RemoveChf(a[1..] + b);
      ConsAppend(a, RemoveChf(b));
    } else {
      assert a + b == b;
    }
  }

  /** cleaned.replace(",", "."): only the first comma becomes a dot. */
  function ReplaceFirstComma(s: string): (r: string)
    ensures |r| == |s|
    ensures ',' !in s ==> r == s
    ensures forall i :: 0 <= i < |s| ==> r[i] == s[i] || (s[i] == ',' && r[i] == '.')
  {
    if s == [] then []
    else if s[0] == ',' then ['.'] + s[1..]
    else [s[0]] + ReplaceFirstComma(s[1..])
  }

  /** normalized.match(/[\d.]+/): the leftmost maximal run of digits and dots, if any. */
  function FirstNumRun(s: string): (r: Option<string>)
    ensures r.None? <==> forall i :: 0 <= i < |s| ==> !IsNumChar(s[i])
    ensures r.Some? ==> r.value != [] && AllSatisfy(r.value, IsNumChar)
    ensures r.Some? ==> exists i :: 0 <= i < |s| && (forall j :: 0 <= j < i ==> !IsNumChar(s[j]))
                                    && r.value == TakeWhile(s[i..], IsNumChar)
  {
    if s == [] then None
    else if IsNumChar(s[0]) then
      assert s[0..] == s;
      Some(TakeWhile(s, IsNumChar))
    else
      var r := FirstNumRun(s[1..]);
      if r.Some? then
        FirstNumRunShift(s, r.value);
        r
      else r
  }

  /** A run found after a first character that is no digit or dot is found in the whole
      string one position later. */
  lemma FirstNumRunShift(s: string, run: string)
    requires s != [] && !IsNumChar(s[0])
    requires exists i :: 0 <= i < |s[1..]| && (forall j :: 0 <= j < i ==> !IsNumChar(s[1..][j]))
                         && run == TakeWhile(s[1..][i..], IsNumChar)
    ensures exists i :: 0 <= i < |s| && (forall j :: 0 <= j < i ==> !IsNumChar(s[j]))
                        && run == TakeWhile(s[i..], IsNumChar)
  {
    var i :| 0 <= i < |s[1..]| && (forall j :: 0 <= j < i ==> !IsNumChar(s[1..][j]))
             && run == TakeWhile(s[1..][i..], IsNumChar);
    assert s[1..][i..] == s[i + 1..];
    assert forall j :: 0 <= j < i + 1 ==> !IsNumChar(s[j]) by {
      assert forall j :: 1 <= j < i + 1 ==> s[j] == s[1..][j - 1];
    }
  }

  predicate IsDigits(s: string) { AllSatisfy(s, IsDigit) }

  function DigitValue(c: char): nat
    requires IsDigit(c)
  {
    c as int - '0' as int
  }

  /** The value of a decimal digit string ("" counts as 0). */
  function DigitsValue(ds: string): nat
    requires IsDigits(ds)
  {
    if ds == [] then 0 else DigitsValue(ds[..|ds| - 1]) * 10 + DigitValue(ds[|ds| - 1])
  }

  function Pow10(n: nat): (p: nat)
    ensures p >= 1
  {
    if n == 0 then 1 else 10 * Pow10(n - 1)
  }

  /** The number written as integer digits `a` and fraction digits `b`. */
  function DecimalValue(a: string, b: string): real
    requires IsDigits(a) && IsDigits(b)
  {
    DigitsValue(a) as real + DigitsValue(b) as real / Pow10(|b|) as real
  }

  /** parseFloat on a run of digits and dots: the longest prefix shaped digits[.digits] with
      at least one digit, read exactly; NaN when the run has no such prefix. */
  function ParseFloat(run: string): (r: Number)
    requires AllSatisfy(run, IsNumChar)
    ensures r.Num? ==> r.value >= 0.0
    ensures run != [] ==> (r.NaN? <==> run[0] == '.' && (|run| == 1 || run[1] == '.'))
  {
    var intPart := TakeWhile(run, IsDigit);
    var rest := run[|intPart|..];
    var frac := if rest != [] && rest[0] == '.' then TakeWhile(rest[1..], IsDigit) else [];
    assert IsDigits(intPart) && IsDigits(frac);
    if intPart == [] && frac == [] then NaN
    else Num(DecimalValue(intPart, frac))
  }

  /** The string the number is searched in: "CHF" removed, trimmed, first comma made a dot. */
  function NormalisedPrice(priceString: string): string {
    ReplaceFirstComma(TrimJs(RemoveChf(priceString)))
  }

  /** parsePrice: the first number in the normalised string, or 0 when there is none. */
  function ParsePrice(priceString: string): (price: Number)
    ensures price.Num? ==> price.value >= 0.0
  {
    match FirstNumRun(NormalisedPrice(priceString))
    case None => Num(0.0)
    case Some(run) => ParseFloat(run)
  }

  /** No digit, dot or comma anywhere in `s`. */
  predicate NoNumberChars(s: string) {
    forall i :: 0 <= i < |s| ==> !IsNumChar(s[i]) && s[i] != ','
  }

  /** A string made of characters of `s` has no number character when `s` has none. */
  lemma NoNumberCharsOfMembers(s: string, r: string)
    requires NoNumberChars(s)
    requires forall c :: c in r ==> c in s
    ensures NoNumberChars(r)
  {
    forall i | 0 <= i < |r| ensures !IsNumChar(r[i]) && r[i] != ',' {
      assert r[i] in r;
    }
  }

  lemma NoNumberCharsNormalised(s: string)
    requires NoNumberChars(s)
    ensures NoNumberChars(NormalisedPrice(s))
  {
    var r := RemoveChf(s);
    assert forall c :: c in r ==> c in s by {
      forall c | c in r ensures c in s {
        var i :| 0 <= i < |r| && r[i] == c;
      }
    }
    NoNumberCharsOfMembers(s, r);
    var t := TrimJs(r);
    StripChars(r, IsJsSpace);
    NoNumberCharsOfMembers(r, t);
    assert ',' !in t by {
      assert forall i :: 0 <= i < |t| ==> t[i] != ',';
    }
    assert NormalisedPrice(s) == t;
  }

  /** A price string with no digit, dot or comma parses to the default 0. */
  lemma ParsePriceNoNumber(s: string)
    requires NoNumberChars(s)
    ensures ParsePrice(s) == Num(0.0)
  {
    NoNumberCharsNormalised(s);
    assert FirstNumRun(NormalisedPrice(s)).None?;
  }

  lemma {:induction false} TakeWhileAll(s: string, p: char -> bool)
    requires AllSatisfy(s, p)
    ensures TakeWhile(s, p) == s
    decreases |s|
  {
    if s != [] {
      TakeWhileAll(s[1..], p);
    }
  }

  predicate NoLetterC(s: string) {
    forall i :: 0 <= i < |s| ==> s[i] != 'c' && s[i] != 'C'
  }

  lemma NoLetterCSpace(s: string)
    requires NoLetterC(s)
    ensures NoLetterC(" " + s)
  {
    assert forall i :: 1 <= i < |" " + s| ==> (" " + s)[i] == s[i - 1];
  }

  /** A string with no letter c in either case has no "CHF" to remove. */
  lemma {:induction false} RemoveChfNoC(s: string)
    requires NoLetterC(s)
    ensures RemoveChf(s) == s
    decreases |s|
  {
    if s != [] {
      if |s| >= 3 {
        assert Lower(s[..3])[0] == LowerChar(s[0]) != 'c';
      }
      RemoveChfNoC(s[1..]);
    }
  }

  lemma {:induction false} ReplaceFirstCommaAt(a: string, b: string)
    requires ',' !in a
    ensures ReplaceFirstComma(a + [','] + b) == a + ['.'] + b
    decreases |a|
  {
    if a == [] {
      assert a + [','] + b == [','] + b;
    } else {
      var x := a + [','] + b;
      var tail := a[1..] + [','] + b;
      assert x == [a[0]] + tail;
      ReplaceFirstCommaCons(a[0], tail);
      ReplaceFirstCommaAt(a[1..], b);
      var done := a[1..] + ['.'] + b;
      assert ReplaceFirstComma(x) == [a[0]] + done;
      assert [a[0]] + done == a + ['.'] + b;
    }
  }

  /** A leading character other than a comma is kept. */
  lemma ReplaceFirstCommaCons(c: char, s: string)
    requires c != ','
    ensures ReplaceFirstComma([c] + s) == [c] + ReplaceFirstComma(s)
  {
    assert ([c] + s)[1..] == s;
  }

  /** The first number in a string that starts with a digit and is made of digits and one
      dot: parseFloat reads all of it. */
  lemma ParseDecimalRun(a: string, b: string)
    requires a != [] && IsDigits(a) && IsDigits(b)
    ensures FirstNumRun(a + "." + b) == Some(a + "." + b)
    ensures ParseFloat(a + "." + b) == Num(DecimalValue(a, b))
  {
    var x := a + "." + b;
    DecimalNumChars(a, b);
    TakeWhileAll(x, IsNumChar);
    DecimalParts(a, b);
  }

  /** Every character of `a.b` may belong to a number. */
  lemma DecimalNumChars(a: string, b: string)
    requires IsDigits(a) && IsDigits(b)
    ensures AllSatisfy(a + "." + b, IsNumChar)
  {
    var x := a + "." + b;
    forall i | 0 <= i < |x| ensures IsNumChar(x[i]) {
      if i < |a| { assert x[i] == a[i]; }
      else if i > |a| { assert x[i] == b[i - |a| - 1]; }
    }
  }

  /** parseFloat splits `a.b` into its integer digits `a` and its fraction digits `b`. */
  lemma DecimalParts(a: string, b: string)
    requires a != [] && IsDigits(a) && IsDigits(b)
    ensures AllSatisfy(a + "." + b, IsNumChar)
    ensures ParseFloat(a + "." + b) == Num(DecimalValue(a, b))
  {
    DecimalNumChars(a, b);
    var x := a + "." + b;
    var rest := "." + b;
    assert x == a + rest;
    TakeWhileAppend(a, rest, IsDigit);
    TakeWhileAll(a, IsDigit);
    var intPart := TakeWhile(x, IsDigit);
    assert intPart == a;
    assert x[|intPart|..] == rest;
    assert rest[1..] == b;
    TakeWhileAll(b, IsDigit);
  }

  lemma NoSpaceEnds(x: string)
    requires x != [] && !IsJsSpace(x[0]) && !IsJsSpace(x[|x| - 1])
    ensures TrimJs(x) == x && TrimJs(" " + x) == x
  {
    StripUnchanged(x, IsJsSpace);
    assert TakeWhile(" " + x, IsJsSpace) == " ";
    assert DropWhile(" " + x, IsJsSpace) == x;
  }

  /** `a.b` written with digit strings: no letter c, no comma, no space at either end. */
  lemma DecimalChars(a: string, b: string, sep: char)
    requires a != [] && IsDigits(a) && IsDigits(b) && (sep == '.' || sep == ',')
    ensures forall i :: 0 <= i < |a + [sep] + b| ==>
      (a + [sep] + b)[i] != 'c' && (a + [sep] + b)[i] != 'C' && ((a + [sep] + b)[i] == ',' ==> i == |a|)
    ensures var x := a + [sep] + b; !IsJsSpace(x[0]) && !IsJsSpace(x[|x| - 1])
    ensures ',' !in a
  {
    var x := a + [sep] + b;
    forall i | 0 <= i < |x| ensures x[i] != 'c' && x[i] != 'C' && (x[i] == ',' ==> i == |a|) {
      if i < |a| { assert x[i] == a[i]; }
      else if i > |a| { assert x[i] == b[i - |a| - 1]; }
    }
    assert x[0] == a[0];
    if b != [] { assert x[|x| - 1] == b[|b| - 1]; }
    forall i | 0 <= i < |a| ensures a[i] != ',' { assert IsDigit(a[i]); }
  }

  lemma NormalisedDecimal(a: string, b: string)
    requires a != [] && IsDigits(a) && IsDigits(b)
    ensures NormalisedPrice(a + "." + b) == a + "." + b
    ensures RemoveChf(" " + (a + "." + b)) == " " + (a + "." + b)
    ensures TrimJs(" " + (a + "." + b)) == a + "." + b
    ensures ReplaceFirstComma(a + "." + b) == a + "." + b
  {
    var x := a + "." + b;
    DecimalChars(a, b, '.');
    assert x == a + ['.'] + b;
    assert ',' !in x;
    RemoveChfNoC(x);
    NoSpaceEnds(x);
    NoLetterCSpace(x);
    RemoveChfNoC(" " + x);
  }

  lemma RemoveChfPrefix(x: string)
    ensures RemoveChf("CHF" + x) == RemoveChf(x)
  {
    var s1 := "CHF" + x;
    assert s1[..3] == "CHF" && s1[3..] == x;
  }

  lemma Assoc(p: string, q: string, r: string)
    ensures p + q + r == p + (q + r)
  {
  }

  /** A leading "CHF " leaves the space, which trim() then removes. */
  lemma RemoveChfSpacePrefix(x: string)
    ensures RemoveChf("CHF " + x) == RemoveChf(" " + x)
  {
    assert "CHF " == "CHF" + " ";
    Assoc("CHF", " ", x);
    RemoveChfPrefix(" " + x);
  }

  lemma NormalisedChfDecimal(a: string, b: string)
    requires a != [] && IsDigits(a) && IsDigits(b)
    ensures NormalisedPrice("CHF " + (a + "." + b)) == a + "." + b
  {
    NormalisedDecimal(a, b);
    RemoveChfSpacePrefix(a + "." + b);
  }

  lemma ParsePriceDot(a: string, b: string)
    requires a != [] && IsDigits(a) && IsDigits(b)
    ensures ParsePrice(a + "." + b) == Num(DecimalValue(a, b))
    ensures ParsePrice("CHF " + (a + "." + b)) == Num(DecimalValue(a, b))
  {
    NormalisedDecimal(a, b);
    NormalisedChfDecimal(a, b);
    ParseDecimalRun(a, b);
  }

  lemma ParsePriceComma(a: string, b: string)
    requires a != [] && IsDigits(a) && IsDigits(b)
    ensures ParsePrice(a + "," + b) == Num(DecimalValue(a, b))
  {
    var y := a + "," + b;
    DecimalChars(a, b, ',');
    assert y == a + [','] + b;
    RemoveChfNoC(y);
    StripUnchanged(y, IsJsSpace);
    ReplaceFirstCommaAt(a, b);
    assert NormalisedPrice(y) == a + "." + b;
    ParseDecimalRun(a, b);
  }

  /** The three price formats the code is written for, "CHF 14.50", "14.50" and "14,50",
      all parse to the written value. */
  lemma ParsePriceFormats(a: string, b: string)
    requires a != [] && IsDigits(a) && IsDigits(b)
    ensures ParsePrice("CHF " + (a + "." + b)) == Num(DecimalValue(a, b))
    ensures ParsePrice(a + "." + b) == Num(DecimalValue(a, b))
    ensures ParsePrice(a + "," + b) == Num(DecimalValue(a, b))
  {
    ParsePriceDot(a, b);
    ParsePriceComma(a, b);
  }

  lemma DecimalValueExample()
    ensures IsDigits("14") && IsDigits("50") && DecimalValue("14", "50") == 14.5
  {
    assert DigitsValue("14") == 14 by { assert "14"[..1] == "1"; assert "1"[..0] == ""; }
    assert DigitsValue("50") == 50 by { assert "50"[..1] == "5"; assert "5"[..0] == ""; }
    assert Pow10(|"50"|) == 100 by { assert Pow10(1) == 10; }
  }

  lemma PriceLiterals()
    ensures "14" + "." + "50" == "14.50"
    ensures "14" + "," + "50" == "14,50"
    ensures "CHF " + ("14" + "." + "50") == "CHF 14.50"
  {
  }

  /** The example values written next to the code: "CHF 14.50", "14.50" and "14,50". */
  lemma ParsePriceExampleChf()
    ensures ParsePrice("CHF 14.50") == Num(14.5)
  {
    DecimalValueExample();
    ParsePriceDot("14", "50");
    PriceLiterals();
  }

  lemma ParsePriceExampleDot()
    ensures ParsePrice("14.50") == Num(14.5)
  {
    DecimalValueExample();
    ParsePriceDot("14", "50");
    PriceLiterals();
  }

  lemma ParsePriceExampleComma()
    ensures ParsePrice("14,50") == Num(14.5)
  {
    DecimalValueExample();
    ParsePriceComma("14", "50");
    PriceLiterals();
  }

  /** A lone dot, alone or after "CHF", is matched as a number and parseFloat gives NaN:
      the default 0 is not returned. */
  lemma ParsePriceLoneDotIsNaN()
    ensures ParsePrice(".") == NaN
    ensures ParsePrice("CHF .") == NaN
  {
    LoneDotNormalised();
    TakeWhileAll(".", IsNumChar);
    assert FirstNumRun(".") == Some(".");
    assert ParseFloat(".").NaN?;
  }

  /** Both "." and "CHF ." normalise to the lone dot. */
  lemma LoneDotNormalised()
    ensures NormalisedPrice(".") == "."
    ensures NormalisedPrice("CHF .") == "."
  {
    assert NoLetterC(".") && NoLetterC(" .");
    NoSpaceEnds(".");
    DotRemoveChf();
    assert ReplaceFirstComma(".") == ".";
  }

  lemma DotRemoveChf()
    ensures RemoveChf(".") == "." && RemoveChf("CHF .") == " ."
  {
    assert NoLetterC(".") && NoLetterC(" .");
    RemoveChfNoC(".");
    RemoveChfNoC(" .");
    RemoveChfSpacePrefix(".");
    assert "CHF " + "." == "CHF .";
  }

  /** parsePrice as its "default price if parsing fails" comment intends it: a failed parse
      gives 0 rather than NaN. */
  function ParsePriceOrZero(priceString: string): (price: Number)
    ensures price.Num? && price.value >= 0.0
    ensures ParsePrice(priceString).Num? ==> price == ParsePrice(priceString)
  {
    var parsed := ParsePrice(priceString);
    if parsed.NaN? then Num(0.0) else parsed
  }

  // ---- detectDietaryTags ----

  /** Some keyword, lower-cased, occurs in the lower-cased description. */
  predicate HasKeyword(lowerDescription: string, keywords: seq<string>) {
    exists k :: k in keywords && Contains(lowerDescription, Lower(k))
  }

  /** `a` is `b` with some elements left out, order kept. */
  predicate IsSubsequence(a: seq<string>, b: seq<string>)
    decreases |b|
  {
    if a == [] then true
    else if b == [] then false
    else (a[0] == b[0] && IsSubsequence(a[1..], b[1..])) || IsSubsequence(a, b[1..])
  }

  /** The table row `j` matches the description. */
  predicate RowMatches(lowerDescription: string, table: seq<(string, seq<string>)>, tag: string) {
    exists j :: 0 <= j < |table| && table[j].0 == tag && HasKeyword(lowerDescription, table[j].1)
  }

  /** A label matches in a table exactly when it matches in the first row or in the rest. */
  lemma RowMatchesCons(lowerDescription: string, table: seq<(string, seq<string>)>)
    requires table != []
    ensures forall t :: RowMatches(lowerDescription, table, t) <==>
      (t == table[0].0 && HasKeyword(lowerDescription, table[0].1)) || RowMatches(lowerDescription, table[1..], t)
  {
    forall t ensures RowMatches(lowerDescription, table, t) <==>
      (t == table[0].0 && HasKeyword(lowerDescription, table[0].1)) || RowMatches(lowerDescription, table[1..], t)
    {
      if RowMatches(lowerDescription, table, t) {
        var j :| 0 <= j < |table| && table[j].0 == t && HasKeyword(lowerDescription, table[j].1);
        if j > 0 { assert table[1..][j - 1] == table[j]; }
      }
      if RowMatches(lowerDescription, table[1..], t) {
        var j :| 0 <= j < |table[1..]| && table[1..][j].0 == t && HasKeyword(lowerDescription, table[1..][j].1);
        assert table[j + 1] == table[1..][j];
      }
    }
  }

  /** The forEach over the keyword table: the label of every row with a matching keyword,
      in table order. */
  function CollectTags(lowerDescription: string, table: seq<(string, seq<string>)>): (tags: seq<string>)
    ensures forall t :: t in tags <==> RowMatches(lowerDescription, table, t)
    ensures IsSubsequence(tags, Labels(table))
    ensures NoDup(Labels(table)) ==> NoDup(tags)
  {
    if table == [] then []
    else
      var rest := CollectTags(lowerDescription, table[1..]);
      assert Labels(table) == [table[0].0] + Labels(table[1..]);
      RowMatchesCons(lowerDescription, table);
      if HasKeyword(lowerDescription, table[0].1) then
        var tags := [table[0].0] + rest;
        assert tags[1..] == rest;
        assert NoDup(Labels(table)) ==> NoDup(Labels(table[1..])) && table[0].0 !in rest by {
          if NoDup(Labels(table)) {
            assert Labels(table[1..]) == Labels(table)[1..];
          }
        }
        tags
      else
        assert IsSubsequence(rest, Labels(table)) by {
          if rest != [] { assert Labels(table)[1..] == Labels(table[1..]); }
        }
        rest
  }

  /** [...new Set(tags)]: the distinct values in order of first occurrence. */
  function Dedupe(s: seq<string>): (r: seq<string>)
    ensures NoDup(r)
    ensures forall x :: x in r <==> x in s
    ensures NoDup(s) ==> r == s
  {
    if s == [] then []
    else
      var d := Dedupe(s[..|s| - 1]);
      assert s == s[..|s| - 1] + [s[|s| - 1]];
      if s[|s| - 1] in d then d else d + [s[|s| - 1]]
  }

  /** detectDietaryTags: the labels whose keyword list has a member occurring in the
      description (both lower-cased), without repetition, in the table's order. */
  function DetectDietaryTags(description: string): (tags: seq<string>)
    ensures forall t :: t in tags <==> RowMatches(Lower(description), DIETARY_KEYWORDS, t)
    ensures NoDup(tags)
    ensures IsSubsequence(tags, DIETARY_TAG_ORDER)
  {
    DietaryKeywordsKeys();
    Dedupe(CollectTags(Lower(description), DIETARY_KEYWORDS))
  }

  /** Each label is detected exactly when one of its own keywords occurs. */
  lemma DetectDietaryTagsByLabel(description: string)
    ensures var tags := DetectDietaryTags(description); var d := Lower(description);
      (VEGETARIAN in tags <==> HasKeyword(d, ["végétarien", "vegetarien", "légumes", "vegetable"]))
      && (VEGAN in tags <==> HasKeyword(d, ["végan", "vegan"]))
      && (GLUTEN_FREE in tags <==> HasKeyword(d, ["sans gluten", "gluten-free"]))
      && (HIGH_PROTEIN in tags <==> HasKeyword(d, ["poulet", "chicken", "poisson", "fish", "viande", "meat", "protéine"]))
      && (DAIRY_FREE in tags <==> HasKeyword(d, ["sans lactose", "dairy-free"]))
  {
    var d := Lower(description);
    DietaryKeywordsKeys();
    forall j | 0 <= j < 5 ensures RowMatches(d, DIETARY_KEYWORDS, DIETARY_TAG_ORDER[j]) <==> HasKeyword(d, DIETARY_KEYWORDS[j].1) {
      if RowMatches(d, DIETARY_KEYWORDS, DIETARY_TAG_ORDER[j]) {
        var k :| 0 <= k < 5 && DIETARY_KEYWORDS[k].0 == DIETARY_TAG_ORDER[j] && HasKeyword(d, DIETARY_KEYWORDS[k].1);
        assert Labels(DIETARY_KEYWORDS)[k] == DIETARY_TAG_ORDER[j];
      }
      assert DIETARY_KEYWORDS[j].0 == Labels(DIETARY_KEYWORDS)[j];
    }
    assert DIETARY_TAG_ORDER[0] == VEGETARIAN && DIETARY_TAG_ORDER[1] == VEGAN && DIETARY_TAG_ORDER[2] == GLUTEN_FREE;
    assert DIETARY_TAG_ORDER[3] == HIGH_PROTEIN && DIETARY_TAG_ORDER[4] == DAIRY_FREE;
  }

  // ---- generateMenuItemId ----

  /** generateMenuItemId: `${type.toLowerCase()}_${dayIndex}_${timestamp}`. */
  function GenerateMenuItemId(menuType: string, dayIndex: int, timestamp: int): (id: string)
    ensures Lower(menuType) + "_" <= id
  {
    Lower(menuType) + "_" + IntToString(dayIndex) + "_" + IntToString(timestamp)
  }

  predicate NoUnderscore(s: string) {
    forall i :: 0 <= i < |s| ==> s[i] != '_'
  }

  /** The position of the first underscore, or the length when there is none. */
  function UnderscoreIndex(s: string): nat {
    if s == [] || s[0] == '_' then 0 else 1 + UnderscoreIndex(s[1..])
  }

  lemma {:induction false} UnderscoreIndexJoin(u: string, v: string)
    requires NoUnderscore(u)
    ensures UnderscoreIndex(u + "_" + v) == |u|
    decreases |u|
  {
    if u != [] {
      assert (u + "_" + v)[1..] == u[1..] + "_" + v;
      UnderscoreIndexJoin(u[1..], v);
    }
  }

  /** Two strings joined by an underscore split back at their first underscore. */
  lemma SplitAtUnderscore(u1: string, v1: string, u2: string, v2: string)
    requires NoUnderscore(u1) && NoUnderscore(u2)
    requires u1 + "_" + v1 == u2 + "_" + v2
    ensures u1 == u2 && v1 == v2
  {
    var w := u1 + "_" + v1;
    UnderscoreIndexJoin(u1, v1);
    UnderscoreIndexJoin(u2, v2);
    assert u1 == w[..|u1|] == u2;
    assert v1 == w[|u1| + 1..] == v2;
  }

  lemma IdSuffix(p: string, a: string, b: string)
    ensures (p + a + "_" + b)[|p|..] == a + "_" + b
  {
    assert p + a + "_" + b == p + (a + "_" + b);
  }

  /** Ids of the same type are equal only for the same day index and timestamp. */
  lemma GenerateMenuItemIdInjective(menuType: string, d1: int, t1: int, d2: int, t2: int)
    requires GenerateMenuItemId(menuType, d1, t1) == GenerateMenuItemId(menuType, d2, t2)
    ensures d1 == d2 && t1 == t2
  {
    var p := Lower(menuType) + "_";
    var a1, b1, a2, b2 := IntToString(d1), IntToString(t1), IntToString(d2), IntToString(t2);
    IdSuffix(p, a1, b1);
    IdSuffix(p, a2, b2);
    SplitAtUnderscore(a1, b1, a2, b2);
    IntToStringInjective(d1, d2);
    IntToStringInjective(t1, t2);
  }

  predicate NoLowerLetter(s: string) {
    forall k :: 0 <= k < |s| ==> !('a' <= s[k] <= 'z')
  }

  /** A word ending in a lower-case letter found in `l + tail`, where `tail` has no such
      letter, lies wholly within `l`. */
  lemma WordInHead(l: string, tail: string, sub: string, i: int)
    requires sub != [] && 'a' <= sub[|sub| - 1] <= 'z' && NoLowerLetter(tail)
    requires 0 <= i <= |l + tail| && sub <= (l + tail)[i..]
    ensures i + |sub| <= |l| && sub <= l[i..]
  {
    var p := i + |sub| - 1;
    assert (l + tail)[p] == sub[|sub| - 1];
    assert p < |l|;
  }

  /** A word ending in a lower-case letter occurs in `l + tail`, where `tail` has no such
      letter, exactly when it occurs in `l`. */
  lemma ContainsInHead(l: string, tail: string, sub: string)
    requires sub != [] && 'a' <= sub[|sub| - 1] <= 'z' && NoLowerLetter(tail)
    ensures Contains(l + tail, sub) <==> Contains(l, sub)
  {
    if Contains(l, sub) {
      var i :| 0 <= i <= |l| && sub <= l[i..];
      assert sub <= (l + tail)[i..];
    }
    if Contains(l + tail, sub) {
      var i :| 0 <= i <= |l + tail| && sub <= (l + tail)[i..];
      WordInHead(l, tail, sub, i);
    }
  }

  /** An id is its lower-cased type followed by underscores, minus signs and digits. */
  lemma IdSplit(menuType: string, dayIndex: int, timestamp: int) returns (tail: string)
    ensures GenerateMenuItemId(menuType, dayIndex, timestamp) == Lower(menuType) + tail
    ensures NoLowerLetter(tail)
  {
    tail := "_" + IntToString(dayIndex) + "_" + IntToString(timestamp);
    assert Lower(menuType) + "_" + IntToString(dayIndex) + "_" + IntToString(timestamp) == Lower(menuType) + tail;
  }

  /** An id contains a word ending in a lower-case letter exactly when its lower-cased type does. */
  lemma IdContains(menuType: string, dayIndex: int, timestamp: int, sub: string)
    requires sub != [] && 'a' <= sub[|sub| - 1] <= 'z'
    ensures Contains(GenerateMenuItemId(menuType, dayIndex, timestamp), sub) <==> Contains(Lower(menuType), sub)
  {
    var tail := IdSplit(menuType, dayIndex, timestamp);
    ContainsInHead(Lower(menuType), tail, sub);
  }

  /** The ids of two types never coincide, whatever the day and time, when the first type's
      lower-cased form contains "bistro" and the second's contains "vitality" and not "bistro":
      exactly the titles the backend files under the two stations. */
  lemma CategoryIdsDiffer(bistroType: string, d1: int, t1: int, vitalityType: string, d2: int, t2: int)
    requires Contains(Lower(bistroType), "bistro")
    requires Contains(Lower(vitalityType), "vitality") && !Contains(Lower(vitalityType), "bistro")
    ensures GenerateMenuItemId(bistroType, d1, t1) != GenerateMenuItemId(vitalityType, d2, t2)
  {
    var word := "bistro";
    IdContains(bistroType, d1, t1, word);
    IdContains(vitalityType, d2, t2, word);
    var id1, id2 := GenerateMenuItemId(bistroType, d1, t1), GenerateMenuItemId(vitalityType, d2, t2);
    assert Contains(id1, word) && !Contains(id2, word);
  }

  // ---- transformBackendMenuItem, transformWeeklyMenuForDay, transformWeeklyMenu ----

  /** transformBackendMenuItem, with Date.now() as `now` and the image URL built from the
      service's base URL and encodeURIComponent as `encode`. */
  function TransformBackendMenuItem(item: BackendMenuItem, dayIndex: int, now: int, baseURL: string,
                                    encode: string -> string): (r: MenuItem)
    ensures r.description == item.contenu && r.category == item.itemType
    ensures r.name == Join(Take(Words(item.contenu), MENU_NAME_WORD_COUNT), " ")
    ensures r.price == ParsePriceOrZero(item.prix)
    ensures r.id == GenerateMenuItemId(item.itemType, dayIndex, now)
    ensures r.imageUrl == Api.ImageUrl(baseURL, item.itemType, item.contenu, encode)
    ensures r.dietaryTags.None? <==> forall t :: !RowMatches(Lower(item.contenu), DIETARY_KEYWORDS, t)
    ensures r.dietaryTags.Some? ==> r.dietaryTags.value != [] && r.dietaryTags.value == DetectDietaryTags(item.contenu)
  {
    var tags := DetectDietaryTags(item.contenu);
    assert tags != [] ==> tags[0] in tags;
    MenuItem(
      GenerateMenuItemId(item.itemType, dayIndex, now),
      ExtractMenuName(item.contenu),
      item.contenu,
      ParsePriceOrZero(item.prix),
      item.itemType,
      Api.ImageUrl(baseURL, item.itemType, item.contenu, encode),
      if |tags| > 0 then Some(tags) else None)
  }

  /** One station's contribution to a day: its transformed dish when available, else nothing. */
  function SlotItems(slot: BackendSlot, dayIndex: int, now: int, baseURL: string, encode: string -> string)
    : (items: seq<MenuItem>)
    ensures |items| == if IsBackendMenuItemAvailable(slot) then 1 else 0
    ensures IsBackendMenuItemAvailable(slot) ==>
      items[0] == TransformBackendMenuItem(slot.item, dayIndex, now, baseURL, encode)
  {
    if IsBackendMenuItemAvailable(slot) then [TransformBackendMenuItem(slot.item, dayIndex, now, baseURL, encode)]
    else []
  }

  /** The items of one day: the bistro dish if available, then the vitality dish if available. */
  function DayItems(day: BackendDayMenu, dayIndex: int, now: int, baseURL: string, encode: string -> string)
    : (items: seq<MenuItem>)
    ensures |items| == (if IsBackendMenuItemAvailable(day.bistro) then 1 else 0)
                     + (if IsBackendMenuItemAvailable(day.vitality) then 1 else 0)
    ensures IsBackendMenuItemAvailable(day.bistro) ==>
      items[0] == TransformBackendMenuItem(day.bistro.item, dayIndex, now, baseURL, encode)
    ensures IsBackendMenuItemAvailable(day.vitality) ==>
      items[|items| - 1] == TransformBackendMenuItem(day.vitality.item, dayIndex, now, baseURL, encode)
  {
    var bistro := SlotItems(day.bistro, dayIndex, now, baseURL, encode);
    var vitality := SlotItems(day.vitality, dayIndex, now, baseURL, encode);
    assert bistro != [] ==> (bistro + vitality)[0] == bistro[0];
    assert vitality != [] ==> (bistro + vitality)[|bistro + vitality| - 1] == vitality[0];
    bistro + vitality
  }

  datatype DayView = DayView(items: seq<MenuItem>, weekInfo: string)

  /** transformWeeklyMenuForDay: the week title always; the day's available dishes when the
      index names a weekday present in `jours`, nothing otherwise. */
  function TransformWeeklyMenuForDay(response: BackendWeeklyMenuResponse, dayIndex: int, now: int,
                                     baseURL: string, encode: string -> string): (r: DayView)
    ensures r.weekInfo == response.data.semaine
    ensures |r.items| <= 2
    ensures !(0 <= dayIndex < 5) ==> r.items == []
    ensures 0 <= dayIndex < 5 && DAY_NAMES_FR[dayIndex] !in response.data.jours ==> r.items == []
    ensures 0 <= dayIndex < 5 && DAY_NAMES_FR[dayIndex] in response.data.jours ==>
      r.items == DayItems(response.data.jours[DAY_NAMES_FR[dayIndex]], dayIndex, now, baseURL, encode)
  {
    var weekInfo := response.data.semaine;
    DayNameOfIndexSpec(dayIndex);
    match DayNameOfIndex(dayIndex)
    case None => DayView([], weekInfo)
    case Some(dayName) =>
      if dayName !in response.data.jours then DayView([], weekInfo)
      else DayView(DayItems(response.data.jours[dayName], dayIndex, now, baseURL, encode), weekInfo)
  }

  /** transformWeeklyMenu: one entry per recognised day name of `jours`, keyed by its index;
      unknown names are skipped. */
  function TransformWeeklyMenu(response: BackendWeeklyMenuResponse, now: int, baseURL: string,
                               encode: string -> string): (m: map<int, seq<MenuItem>>)
    ensures forall i :: i in m ==> 0 <= i < 5
    ensures forall name :: name in response.data.jours && name in DAY_MAP ==> DAY_MAP[name] in m
  {
    DayMapIsBijection();
    map name | name in response.data.jours && name in DAY_MAP ::
      DAY_MAP[name] := DayItems(response.data.jours[name], DAY_MAP[name], now, baseURL, encode)
  }

  /** The whole-week map agrees with the per-day transform: a day index has an entry exactly
      when its name is in `jours`, and the entry is that day's items. */
  lemma TransformWeeklyMenuAgrees(response: BackendWeeklyMenuResponse, now: int, baseURL: string,
                                  encode: string -> string, dayIndex: int)
    ensures var m := TransformWeeklyMenu(response, now, baseURL, encode);
      (dayIndex in m <==> 0 <= dayIndex < 5 && DAY_NAMES_FR[dayIndex] in response.data.jours)
      && (dayIndex in m ==> m[dayIndex] == TransformWeeklyMenuForDay(response, dayIndex, now, baseURL, encode).items)
  {
    var m := TransformWeeklyMenu(response, now, baseURL, encode);
    DayMapIsBijection();
    if dayIndex in m {
      var name :| name in response.data.jours && name in DAY_MAP && DAY_MAP[name] == dayIndex;
      assert name == DAY_NAMES_FR[dayIndex];
    }
    if 0 <= dayIndex < 5 && DAY_NAMES_FR[dayIndex] in response.data.jours {
      assert DAY_MAP[DAY_NAMES_FR[dayIndex]] == dayIndex;
    }
  }

  // ---- validateMenuData, getErrorMessage, isCacheValid ----

  /** A parsed JSON value. */
  datatype Json = JNull | JBool(b: bool) | JNumber(n: real) | JString(s: string)
                | JArray(elems: seq<Json>) | JObject(fields: map<string, Json>)

  /** A property read; None stands for undefined. */
  function Field(v: Option<Json>, key: string): Option<Json> {
    if v.Some? && v.value.JObject? && key in v.value.fields then Some(v.value.fields[key]) else None
  }

  predicate Truthy(v: Option<Json>) {
    match v
    case None => false
    case Some(JNull) => false
    case Some(JBool(b)) => b
    case Some(JNumber(n)) => n != 0.0
    case Some(JString(s)) => s != ""
    case Some(_) => true
  }

  /** The `typeof` operator. */
  function TypeOf(v: Option<Json>): string {
    match v
    case None => "undefined"
    case Some(JBool(_)) => "boolean"
    case Some(JNumber(_)) => "number"
    case Some(JString(_)) => "string"
    case Some(_) => "object"
  }

  /** validateMenuData: the value is an object whose `success` is a boolean, whose `data` is
      an object with a string `semaine` and an object or array `jours`. */
  predicate ValidateMenuData(data: Option<Json>)
    ensures ValidateMenuData(data) <==>
      data.Some? && data.value.JObject?
      && "success" in data.value.fields && data.value.fields["success"].JBool?
      && "data" in data.value.fields && data.value.fields["data"].JObject?
      && "semaine" in data.value.fields["data"].fields && data.value.fields["data"].fields["semaine"].JString?
      && "jours" in data.value.fields["data"].fields
      && (data.value.fields["data"].fields["jours"].JObject? || data.value.fields["data"].fields["jours"].JArray?)
  {
    if !Truthy(data) || TypeOf(data) != "object" then false
    else
      var d := Field(data, "data");
      TypeOf(Field(data, "success")) == "boolean"
      && Truthy(d) && TypeOf(d) == "object"
      && TypeOf(Field(d, "semaine")) == "string"
      && Truthy(Field(d, "jours")) && TypeOf(Field(d, "jours")) == "object"
  }

  /** What a catch clause received. */
  datatype Thrown = ThrownError(message: string) | ThrownString(s: string) | ThrownOther

  const UNKNOWN_ERROR_MESSAGE := "An unknown error occurred"

  /** getErrorMessage */
  function GetErrorMessage(error: Thrown): (msg: string)
    ensures error.ThrownError? ==> msg == error.message
    ensures error.ThrownString? ==> msg == error.s
    ensures error.ThrownOther? ==> msg == UNKNOWN_ERROR_MESSAGE
  {
    match error
    case ThrownError(m) => m
    case ThrownString(s) => s
    case ThrownOther => UNKNOWN_ERROR_MESSAGE
  }

  /** isCacheValid, with Date.now() as `now`: younger than the duration; an entry exactly
      `cacheDuration` old has expired. */
  predicate IsCacheValid(timestamp: int, cacheDuration: int, now: int)
    ensures IsCacheValid(timestamp, cacheDuration, now) <==> now < timestamp + cacheDuration
  {
    now - timestamp < cacheDuration
  }
}

=== FILE: image_generator.dfy ===
/** The image cache of the backend (backend/image_generator.py): a dictionary from a menu
    key to the generated PNG bytes and the time they were stored, with lazy expiry after a
    time-to-live. The model call, the PIL resize and PNG encoding are one input outcome;
    times are microseconds on one clock; md5 is an abstract digest. */
module ImageGenerator {
  import opened Wrappers
  import MenuParser

  type Bytes = seq<bv8>

  datatype CachedImage = CachedImage(image: Bytes, storedAt: int)

  /** What the Gemini call and the PNG conversion produced, which is outside the model. */
  datatype Generation = Generated(png: Bytes) | NoImage | GenerationFailed(message: string)

  /** get_cache_stats without the memory estimate. */
  datatype CacheStats = CacheStats(totalEntries: int, validEntries: int, expiredEntries: int, cacheTtlSeconds: int)

  const MISSING_KEY := "Clé API Gemini requise (paramètre ou GOOGLE_GENAI_API_KEY)"
  const NO_IMAGE := "Aucune image générée par Gemini AI"
  const GENERATION_FAILED := "Échec génération image: "
  const DEFAULT_TTL_HOURS := 2
  const MICROS_PER_SECOND := 1000000

  /** The string _generate_menu_hash digests: type, contenu and prix joined by "_". */
  function MenuString(item: MenuParser.MenuItem): string {
    item.itemType + "_" + item.contenu + "_" + item.prix
  }

  /** The key does not tell the fields apart: two different menus share it. */
  lemma MenuStringAmbiguous()
    ensures MenuParser.MenuItem("a_b", "c", "d") != MenuParser.MenuItem("a", "b_c", "d")
    ensures MenuString(MenuParser.MenuItem("a_b", "c", "d")) == MenuString(MenuParser.MenuItem("a", "b_c", "d"))
  {
    assert "a_b" + "_" + "c" + "_" + "d" == "a_b_c_d";
    assert "a" + "_" + "b_c" + "_" + "d" == "a_b_c_d";
  }

  /** An entry stored at `storedAt` is still valid at `now`: younger than the TTL. */
  predicate IsValidAt(storedAt: int, ttlSeconds: int, now: int) {
    now - storedAt < ttlSeconds * MICROS_PER_SECOND
  }

  /** The entries of `cache` still valid at `now`. */
  function Unexpired(cache: map<string, CachedImage>, ttlSeconds: int, now: int): (r: map<string, CachedImage>)
    ensures forall k :: k in r <==> k in cache && IsValidAt(cache[k].storedAt, ttlSeconds, now)
    ensures forall k :: k in r ==> r[k] == cache[k]
  {
    map k | k in cache && IsValidAt(cache[k].storedAt, ttlSeconds, now) :: cache[k]
  }

  /** Removing the expired keys leaves the unexpired entries. */
  lemma RemoveExpired(cache: map<string, CachedImage>, ttlSeconds: int, now: int)
    ensures cache - (set k | k in cache && !IsValidAt(cache[k].storedAt, ttlSeconds, now))
         == Unexpired(cache, ttlSeconds, now)
  {
    var expired := set k | k in cache && !IsValidAt(cache[k].storedAt, ttlSeconds, now);
    var a := cache - expired;
    var b := Unexpired(cache, ttlSeconds, now);
    assert forall k :: k in a <==> k in b;
    assert forall k :: k in a ==> a[k] == b[k];
  }

  /** generate_image on the cache: a valid entry under the key is served as it is; otherwise
      the expired entries go, then a generated image is stored under the key stamped now, or
      the failure is reported with the "Échec génération image: " prefix. */
  function GenerateStep(cache: map<string, CachedImage>, key: string, ttlSeconds: int, now: int,
                        outcome: Generation): (r: (map<string, CachedImage>, Result<Bytes, string>))
    ensures key in cache && IsValidAt(cache[key].storedAt, ttlSeconds, now) ==>
      r == (cache, Success(cache[key].image))
    ensures !(key in cache && IsValidAt(cache[key].storedAt, ttlSeconds, now)) ==>
      match outcome
      case Generated(png) => r == (Unexpired(cache, ttlSeconds, now)[key := CachedImage(png, now)], Success(png))
      case NoImage => r == (Unexpired(cache, ttlSeconds, now), Failure(GENERATION_FAILED + NO_IMAGE))
      case GenerationFailed(m) => r == (Unexpired(cache, ttlSeconds, now), Failure(GENERATION_FAILED + m))
  {
    if key in cache && IsValidAt(cache[key].storedAt, ttlSeconds, now) then (cache, Success(cache[key].image))
    else
      var kept := if key in cache then cache - {key} else cache;
      ExpiredKeyRedundant(cache, key, ttlSeconds, now);
      var cleaned := Unexpired(kept, ttlSeconds, now);
      match outcome
      case Generated(png) => (cleaned[key := CachedImage(png, now)], Success(png))
      case NoImage => (cleaned, Failure(GENERATION_FAILED + NO_IMAGE))
      case GenerationFailed(m) => (cleaned, Failure(GENERATION_FAILED + m))
  }

  /** Deleting the expired entry under the key first changes nothing: the cleanup that
      follows would remove it anyway. */
  lemma ExpiredKeyRedundant(cache: map<string, CachedImage>, key: string, ttlSeconds: int, now: int)
    requires !(key in cache && IsValidAt(cache[key].storedAt, ttlSeconds, now))
    ensures Unexpired(if key in cache then cache - {key} else cache, ttlSeconds, now) == Unexpired(cache, ttlSeconds, now)
  {
  }

  /** A miss always leaves a cache with no expired entry, apart from a fresh image when the
      TTL is not positive: an image stored now is valid exactly when the TTL is positive. */
  lemma MissLeavesOnlyValidEntries(cache: map<string, CachedImage>, key: string, ttlSeconds: int, now: int,
                                   outcome: Generation)
    requires !(key in cache && IsValidAt(cache[key].storedAt, ttlSeconds, now))
    ensures var c := GenerateStep(cache, key, ttlSeconds, now, outcome).0;
      forall k :: k in c && k != key ==> IsValidAt(c[k].storedAt, ttlSeconds, now)
    ensures outcome.Generated? ==>
      var c := GenerateStep(cache, key, ttlSeconds, now, outcome).0;
      key in c && (IsValidAt(c[key].storedAt, ttlSeconds, now) <==> ttlSeconds > 0)
  {
  }

  /** The keys among `keys` whose entry is valid at `now`. */
  function ValidKeys(cache: map<string, CachedImage>, keys: set<string>, ttlSeconds: int, now: int): (r: set<string>)
    ensures r <= keys
    ensures forall k :: k in r <==> k in keys && k in cache && IsValidAt(cache[k].storedAt, ttlSeconds, now)
  {
    set k | k in keys && k in cache && IsValidAt(cache[k].storedAt, ttlSeconds, now)
  }

  /** `api_key or os.getenv('GOOGLE_GENAI_API_KEY')`: an empty string counts as absent. */
  function EffectiveKey(apiKey: Option<string>, envKey: Option<string>): (r: Option<string>)
    ensures r.Some? ==> r.value != []
    ensures apiKey.Some? && apiKey.value != [] ==> r == apiKey
    ensures !(apiKey.Some? && apiKey.value != []) ==> r == (if envKey.Some? && envKey.value != [] then envKey else None)
  {
    if apiKey.Some? && apiKey.value != [] then apiKey
    else if envKey.Some? && envKey.value != [] then envKey
    else None
  }

  class MenuImageGenerator {
    const apiKey: string
    const cacheTtl: int
    /** hashlib.md5(...).hexdigest(), kept abstract. */
    const digest: string -> string
    var cache: map<string, CachedImage>

    /** The part of __init__ after the key check: an empty cache and the TTL in seconds. */
    constructor(key: string, ttlHours: int, hash: string -> string)
      ensures apiKey == key && cacheTtl == ttlHours * 3600 && digest == hash && cache == map[]
    {
      apiKey := key;
      cacheTtl := ttlHours * 3600;
      digest := hash;
      cache := map[];
    }

    /** _generate_menu_hash */
    function MenuHash(item: MenuParser.MenuItem): string {
      digest(MenuString(item))
    }

    /** _is_cache_valid */
    predicate IsCacheValid(cacheTime: int, now: int) {
      IsValidAt(cacheTime, cacheTtl, now)
    }

    /** _cleanup_expired_cache: collect the expired keys, then delete them one by one. */
    method CleanupExpiredCache(now: int)
      modifies this
      ensures cache == Unexpired(old(cache), cacheTtl, now)
    {
      var expiredKeys := set k | k in cache && !IsCacheValid(cache[k].storedAt, now);
      ghost var before := cache;
      var remaining := expiredKeys;
      while remaining != {}
        invariant remaining <= expiredKeys
        invariant cache == before - (expiredKeys - remaining)
        decreases |remaining|
      {
        var key :| key in remaining;
        cache := cache - {key};
        remaining := remaining - {key};
      }
      assert cache == before - expiredKeys;
      RemoveExpired(before, cacheTtl, now);
    }

    /** generate_image: serve a valid cached image; otherwise drop the expired entry, clean
        up, and store and return the generated image or report the failure. */
    method GenerateImage(item: MenuParser.MenuItem, now: int, outcome: Generation) returns (r: Result<Bytes, string>)
      modifies this
      ensures (cache, r) == GenerateStep(old(cache), MenuHash(item), cacheTtl, now, outcome)
    {
      var menuHash := MenuHash(item);
      if menuHash in cache {
        var entry := cache[menuHash];
        if IsCacheValid(entry.storedAt, now) {
          return Success(entry.image);
        } else {
          cache := cache - {menuHash};
        }
      }
      CleanupExpiredCache(now);
      match outcome {
        case Generated(png) =>
          cache := cache[menuHash := CachedImage(png, now)];
          r := Success(png);
        case NoImage =>
          r := Failure(GENERATION_FAILED + NO_IMAGE);
        case GenerationFailed(m) =>
          r := Failure(GENERATION_FAILED + m);
      }
    }

    /** get_cache_stats: count the valid entries; the rest are expired. */
    method GetCacheStats(now: int) returns (stats: CacheStats)
      ensures stats.totalEntries == |cache| && stats.cacheTtlSeconds == cacheTtl
      ensures stats.validEntries == |Unexpired(cache, cacheTtl, now)|
      ensures 0 <= stats.validEntries <= stats.totalEntries
      ensures stats.expiredEntries == stats.totalEntries - stats.validEntries
    {
      var totalEntries := |cache|;
      var validEntries := 0;
      var remaining := cache.Keys;
      while remaining != {}
        invariant remaining <= cache.Keys
        invariant validEntries == |ValidKeys(cache, cache.Keys - remaining, cacheTtl, now)|
        decreases |remaining|
      {
        var key :| key in remaining;
        var seen := cache.Keys - remaining;
        var seen' := cache.Keys - (remaining - {key});
        assert seen' == seen + {key};
        if IsCacheValid(cache[key].storedAt, now) {
          assert ValidKeys(cache, seen', cacheTtl, now) == ValidKeys(cache, seen, cacheTtl, now) + {key};
          validEntries := validEntries + 1;
        } else {
          assert ValidKeys(cache, seen', cacheTtl, now) == ValidKeys(cache, seen, cacheTtl, now);
        }
        remaining := remaining - {key};
      }
      assert cache.Keys - remaining == cache.Keys;
      assert Unexpired(cache, cacheTtl, now).Keys == ValidKeys(cache, cache.Keys, cacheTtl, now);
      SubsetCard(ValidKeys(cache, cache.Keys, cacheTtl, now), cache.Keys);
      stats := CacheStats(totalEntries, validEntries, totalEntries - validEntries, cacheTtl);
    }
  }

  /** A subset is no larger than its superset. */
  lemma SubsetCard<T>(a: set<T>, b: set<T>)
    requires a <= b
    ensures |a| <= |b|
  {
    if a != {} {
      var x :| x in a;
      SubsetCard(a - {x}, b - {x});
    }
  }

  /** __init__: the key comes from the argument or the environment, and a missing key is the
      ValueError; the TTL comes from CACHE_TTL_HOURS, two hours when unset. */
  method NewMenuImageGenerator(apiKey: Option<string>, envKey: Option<string>, ttlHours: Option<int>,
                               hash: string -> string)
    returns (r: Result<MenuImageGenerator, string>)
    ensures EffectiveKey(apiKey, envKey).None? <==> r.Failure?
    ensures r.Failure? ==> r.error == MISSING_KEY
    ensures r.Success? ==>
      fresh(r.value) && r.value.cache == map[] && Some(r.value.apiKey) == EffectiveKey(apiKey, envKey) &&
      r.value.cacheTtl == (if ttlHours.Some? then ttlHours.value else DEFAULT_TTL_HOURS) * 3600 &&
      r.value.digest == hash
  {
    var key := EffectiveKey(apiKey, envKey);
    if key.None? {
      return Failure(MISSING_KEY);
    }
    var hours := if ttlHours.Some? then ttlHours.value else DEFAULT_TTL_HOURS;
    var generator := new MenuImageGenerator(key.value, hours, hash);
    return Success(generator);
  }

  /** The module-level `image_generator` global behind get_image_generator. */
  class GeneratorRegistry {
    var instance: Option<MenuImageGenerator>

    constructor()
      ensures instance.None?
    {
      instance := None;
    }

    /** get_image_generator: the existing instance, or a new one built from the environment
        and kept; a missing key raises and leaves the global unset. */
    method GetImageGenerator(envKey: Option<string>, ttlHours: Option<int>, hash: string -> string)
      returns (r: Result<MenuImageGenerator, string>)
      modifies this
      ensures old(instance).Some? ==> r == Success(old(instance).value) && instance == old(instance)
      ensures old(instance).None? && EffectiveKey(None, envKey).None? ==>
        r == Failure(MISSING_KEY) && instance.None?
      ensures old(instance).None? && EffectiveKey(None, envKey).Some? ==>
        r.Success? && fresh(r.value) && instance == Some(r.value) && r.value.cache == map[]
        && r.value.cacheTtl == (if ttlHours.Some? then ttlHours.value else DEFAULT_TTL_HOURS) * 3600
        && r.value.digest == hash
    {
      if instance.Some? {
        return Success(instance.value);
      }
      r := NewMenuImageGenerator(None, envKey, ttlHours, hash);
      if r.Success? {
        instance := Some(r.value);
      }
    }
  }
}

=== FILE: menu_parser.dfy ===
/** The backend menu parser (MenuParser in backend/menu_parser_server.py, and the same code
    in the older menu_parser_server.py). The HTML tree is given already searched: a page is
    its optional week title and its day rows, a row its optional day name and its panels,
    a panel the optional texts of its title, its content span and its price. */
module MenuParser {
  import opened Wrappers
  import opened Text

  // ---- Extracted records ----

  /** One menu of a day, as the dataclass MenuItem (type, contenu, prix). */
  datatype MenuItem = MenuItem(itemType: string, contenu: string, prix: string)

  /** One day: its lower-cased name and the Bistro and Vitality menus, when present. */
  datatype JourMenu = JourMenu(jour: string, bistro: Option<MenuItem>, vitality: Option<MenuItem>)

  /** The metadata dictionary built by parser_html_menu. */
  datatype Metadata = Metadata(sourceUrl: string, parsedAt: string, joursDisponibles: seq<string>, totalJours: int)

  datatype MenuSemaine = MenuSemaine(semaine: string, jours: seq<JourMenu>, metadata: Metadata)

  // ---- The searched HTML tree ----

  /** A div.panelMenu: the text of div.menu-titre, of the span inside div.containMenu (None
      when the div or its span is missing) and of div.menu-prix. */
  datatype Panel = Panel(title: Option<string>, content: Option<string>, price: Option<string>)

  /** A div.ligneSemaine: the text of its div.dayName and its panels in document order. */
  datatype DayRow = DayRow(dayName: Option<string>, panels: seq<Panel>)

  /** The page: the text of the span inside h1.titreMenu and the day rows in document order. */
  datatype Page = Page(title: Option<string>, rows: seq<DayRow>)

  const SOURCE_URL := "https://app2.eldora.ch/totem/matin?NumEts=9677"
  const UNKNOWN_WEEK := "Semaine inconnue"
  const NO_STRUCTURE := "Structure HTML non reconnue"
  const NO_MENU := "Aucun menu trouvé dans la page"
  const NO_PRICE := "N/A"

  // ---- nettoyer_texte ----

  /** The class [\x00-\x08\x0b-\x0c\x0e-\x1f\x7f] of characters removed after collapsing. */
  predicate IsControl(c: char) {
    var n := c as int;
    (0 <= n <= 8) || n == 11 || n == 12 || (14 <= n <= 31) || n == 127
  }

  predicate IsNotControl(c: char) {
    !IsControl(c)
  }

  predicate IsVisible(c: char) {
    !IsPySpace(c)
  }

  /** str.strip() */
  function PyStrip(s: string): string {
    Strip(s, IsPySpace)
  }

  /** re.sub(r'\s+', ' ', s): every maximal run of whitespace becomes one space. */
  function CollapseSpaces(s: string): (r: string)
    ensures forall c :: c in r ==> c in s || c == ' '
    ensures forall c :: c in r && IsPySpace(c) ==> c == ' '
    ensures r == [] <==> s == []
    ensures s != [] ==> r[0] == if IsPySpace(s[0]) then ' ' else s[0]
    ensures forall i :: 0 <= i < |r| - 1 ==> !(r[i] == ' ' && r[i + 1] == ' ')
    decreases |s|
  {
    if s == [] then []
    else if IsPySpace(s[0]) then
      var rest := DropWhile(s, IsPySpace);
      assert |TakeWhile(s, IsPySpace)| > 0;
      [' '] + CollapseSpaces(rest)
    else [s[0]] + CollapseSpaces(s[1..])
  }

  /** re.sub of the control-character class by the empty string. */
  function RemoveControl(s: string): string {
    Filter(s, IsNotControl)
  }

  /** nettoyer_texte: empty stays empty; otherwise strip, collapse whitespace runs to one
      space, delete control characters and strip again. The result has no whitespace at
      either end, no control character, and no whitespace other than the plain space. */
  function NettoyerTexte(texte: string): (r: string)
    ensures texte == [] ==> r == []
    ensures r == [] || (!IsPySpace(r[0]) && !IsPySpace(r[|r| - 1]))
    ensures forall c :: c in r ==> !IsControl(c) && (IsPySpace(c) ==> c == ' ')
  {
    if texte == [] then []
    else
      var collapsed := CollapseSpaces(PyStrip(texte));
      var cleaned := RemoveControl(collapsed);
      StripChars(cleaned, IsPySpace);
      PyStrip(cleaned)
  }

  /** The whitespace-stripped part of `s` has the same visible characters. */
  lemma StripKeepsVisible(s: string)
    ensures Filter(PyStrip(s), IsVisible) == Filter(s, IsVisible)
  {
    var t := DropWhile(s, IsPySpace);
    DropLeadingKeepsVisible(s);
    DropTrailingKeepsVisible(t);
  }

  lemma DropLeadingKeepsVisible(s: string)
    ensures Filter(DropWhile(s, IsPySpace), IsVisible) == Filter(s, IsVisible)
  {
    var t := DropWhile(s, IsPySpace);
    var k := |s| - |t|;
    assert s == s[..k] + t;
    FilterAppend(s[..k], t, IsVisible);
    FilterNone(s[..k], IsVisible);
  }

  lemma DropTrailingKeepsVisible(t: string)
    ensures Filter(DropWhileEnd(t, IsPySpace), IsVisible) == Filter(t, IsVisible)
  {
    var r := DropWhileEnd(t, IsPySpace);
    assert t == r + t[|r|..];
    FilterAppend(r, t[|r|..], IsVisible);
    FilterNone(t[|r|..], IsVisible);
  }

  lemma {:induction false} CollapseKeepsVisible(s: string)
    ensures Filter(CollapseSpaces(s), IsVisible) == Filter(s, IsVisible)
    decreases |s|
  {
    if s != [] {
      if IsPySpace(s[0]) {
        var rest := DropWhile(s, IsPySpace);
        var k := |s| - |rest|;
        assert s == s[..k] + rest;
        FilterAppend(s[..k], rest, IsVisible);
        FilterNone(s[..k], IsVisible);
        FilterAppend([' '], CollapseSpaces(rest), IsVisible);
        CollapseKeepsVisible(rest);
      } else {
        FilterAppend([s[0]], CollapseSpaces(s[1..]), IsVisible);
        CollapseKeepsVisible(s[1..]);
      }
    }
  }

  /** Cleaning keeps the text: the visible characters of the result are, in order, the
      visible characters of the input that are not control characters. */
  lemma NettoyerTexteKeepsText(texte: string)
    ensures Filter(NettoyerTexte(texte), IsVisible) == RemoveControl(Filter(texte, IsVisible))
  {
    if texte != [] {
      var stripped := PyStrip(texte);
      var collapsed := CollapseSpaces(stripped);
      var cleaned := RemoveControl(collapsed);
      StripKeepsVisible(cleaned);
      FilterCommute(collapsed, IsNotControl, IsVisible);
      CollapseKeepsVisible(stripped);
      StripKeepsVisible(texte);
    }
  }

  /** Already clean text: no control character, only plain spaces, never two in a row. */
  predicate IsCleanInside(s: string) {
    (forall i :: 0 <= i < |s| ==> !IsControl(s[i]) && (IsPySpace(s[i]) ==> s[i] == ' '))
    && (forall i :: 0 <= i < |s| - 1 ==> !(s[i] == ' ' && s[i + 1] == ' '))
  }

  lemma {:induction false} CollapseClean(s: string)
    requires IsCleanInside(s)
    ensures CollapseSpaces(s) == s
    decreases |s|
  {
    if s != [] {
      assert IsCleanInside(s[1..]) by {
        assert forall i :: 0 <= i < |s[1..]| ==> s[1..][i] == s[i + 1];
      }
      if IsPySpace(s[0]) {
        assert TakeWhile(s, IsPySpace) == [s[0]] by {
          assert s[1..] == [] || !IsPySpace(s[1..][0]);
        }
        assert DropWhile(s, IsPySpace) == s[1..];
      }
      CollapseClean(s[1..]);
    }
  }

  /** Text that is already clean and has no whitespace at either end comes back unchanged. */
  lemma CleanTextIsFixedPoint(s: string)
    requires IsCleanInside(s)
    requires s == [] || (!IsPySpace(s[0]) && !IsPySpace(s[|s| - 1]))
    ensures NettoyerTexte(s) == s
  {
    if s != [] {
      StripUnchanged(s, IsPySpace);
      CollapseClean(s);
      FilterAll(s, IsNotControl);
    }
  }

  /** A control character between two spaces: removing it leaves a double space. */
  lemma CleanControlBetweenSpaces()
    ensures NettoyerTexte(['a', ' ', 1 as char, ' ', 'b']) == "a  b"
  {
    var x := ['a', ' ', 1 as char, ' ', 'b'];
    StripUnchanged(x, IsPySpace);
    CollapseControlExample(x);
    RemoveControlExample(x);
    StripUnchanged("a  b", IsPySpace);
  }

  /** Single spaces around a control character are already collapsed. */
  lemma CollapseControlExample(x: string)
    requires x == ['a', ' ', 1 as char, ' ', 'b']
    ensures CollapseSpaces(x) == x
  {
    var x4: string := ['b'];
    var x3: string := [' '] + x4;
    var x2: string := [1 as char] + x3;
    var x1: string := [' '] + x2;
    assert CollapseSpaces(x4) == x4 by {
      CollapseKeepsFirst(x4);
      assert x4[1..] == [];
    }
    assert CollapseSpaces(x3) == x3 by {
      assert x3[1..] == x4;
      CollapseLoneSpace(x3);
    }
    assert CollapseSpaces(x2) == x2 by {
      assert x2[1..] == x3;
      CollapseKeepsFirst(x2);
    }
    assert CollapseSpaces(x1) == x1 by {
      assert x1[1..] == x2;
      CollapseLoneSpace(x1);
    }
    assert x == ['a'] + x1;
    assert x[1..] == x1;
    CollapseKeepsFirst(x);
  }

  /** A first character that is no whitespace is kept. */
  lemma CollapseKeepsFirst(s: string)
    requires s != [] && !IsPySpace(s[0])
    ensures CollapseSpaces(s) == [s[0]] + CollapseSpaces(s[1..])
  {
  }

  /** A single space followed by a non-space is kept as it is. */
  lemma CollapseLoneSpace(s: string)
    requires |s| >= 2 && s[0] == ' ' && !IsPySpace(s[1])
    ensures CollapseSpaces(s) == [' '] + CollapseSpaces(s[1..])
  {
    assert TakeWhile(s, IsPySpace) == [' '] by {
      assert TakeWhile(s[1..], IsPySpace) == [];
    }
  }

  lemma FilterDropsMiddle(a: string, c: string, b: string, keep: char -> bool)
    requires AllSatisfy(a, keep) && AllSatisfy(b, keep)
    requires forall i :: 0 <= i < |c| ==> !keep(c[i])
    ensures Filter(a + c + b, keep) == a + b
  {
    FilterAppend(a, c, keep);
    FilterAll(a, keep);
    FilterNone(c, keep);
    assert Filter(a + c, keep) == a;
    FilterAppend(a + c, b, keep);
    FilterAll(b, keep);
  }

  lemma RemoveControlExample(x: string)
    requires x == ['a', ' ', 1 as char, ' ', 'b']
    ensures RemoveControl(x) == "a  b"
  {
    var a, c, b := "a ", [1 as char], " b";
    assert x == a + c + b;
    assert AllSatisfy(a, IsNotControl) && AllSatisfy(b, IsNotControl);
    FilterDropsMiddle(a, c, b, IsNotControl);
    assert a + b == "a  b";
  }

  /** Two spaces followed by a non-space become one. */
  lemma CollapseSpaceRun(s: string)
    requires |s| >= 3 && s[0] == ' ' && s[1] == ' ' && !IsPySpace(s[2])
    ensures CollapseSpaces(s) == [' '] + CollapseSpaces(s[2..])
  {
    assert TakeWhile(s, IsPySpace) == "  " by {
      assert TakeWhile(s[2..], IsPySpace) == [];
      assert TakeWhile(s[1..], IsPySpace) == " ";
    }
  }

  lemma CollapseDoubleSpace()
    ensures CollapseSpaces("a  b") == "a b"
  {
    var y := "a  b";
    var y1 := y[1..];
    assert y1[2..] == "b" && y1[2..][1..] == [];
    CollapseKeepsFirst("b");
    assert CollapseSpaces("b") == "b";
    CollapseSpaceRun(y1);
    CollapseKeepsFirst(y);
  }

  lemma CleanDoubleSpace()
    ensures NettoyerTexte("a  b") == "a b"
  {
    StripUnchanged("a  b", IsPySpace);
    CollapseDoubleSpace();
    FilterAll("a b", IsNotControl);
    StripUnchanged("a b", IsPySpace);
  }

  /** Cleaning is not idempotent: deleting a control character between two spaces leaves a
      double space, which only a second cleaning collapses. */
  lemma NettoyerTexteNotIdempotent()
    ensures var once := NettoyerTexte(['a', ' ', 1 as char, ' ', 'b']);
      once == "a  b" && NettoyerTexte(once) == "a b" && NettoyerTexte(once) != once
  {
    CleanControlBetweenSpaces();
    CleanDoubleSpace();
  }

  // ---- The price pattern CHF\s*([\d.]+) ----

  /** Where the group of CHF\s*([\d.]+) starts and ends when the pattern matches at `i`:
      "CHF", then all the whitespace that follows, then the longest run of digits and dots,
      which must not be empty. */
  function ChfMatchAt(s: string, i: nat): (r: Option<(nat, nat)>)
    requires i <= |s|
    ensures r.Some? ==> i + 3 <= r.value.0 < r.value.1 <= |s|
    ensures r.Some? ==> s[i..i + 3] == "CHF" && AllSatisfy(s[i + 3..r.value.0], IsPySpace)
    ensures r.Some? ==> AllSatisfy(s[r.value.0..r.value.1], IsNumChar)
    ensures r.Some? ==> r.value.1 == |s| || !IsNumChar(s[r.value.1])
  {
    if "CHF" <= s[i..] then
      var spaces := TakeWhile(s[i + 3..], IsPySpace);
      var g := i + 3 + |spaces|;
      assert s[i + 3..g] == spaces;
      var digits := TakeWhile(s[g..], IsNumChar);
      var e := g + |digits|;
      assert s[g..e] == digits;
      assert s[i..i + 3] == s[i..][..3];
      if g < e then Some((g, e)) else None
    else None
  }

  /** The leftmost position from `from` on where the pattern matches (re.search). */
  function FindChf(s: string, from: nat): (r: Option<nat>)
    requires from <= |s|
    ensures r.Some? ==> from <= r.value <= |s| && ChfMatchAt(s, r.value).Some?
    ensures r.Some? ==> forall j :: from <= j < r.value ==> ChfMatchAt(s, j).None?
    ensures r.None? ==> forall j :: from <= j <= |s| ==> ChfMatchAt(s, j).None?
    decreases |s| - from
  {
    if ChfMatchAt(s, from).Some? then Some(from)
    else if from == |s| then None
    else FindChf(s, from + 1)
  }

  /** The first match position is the one the search returns. */
  lemma {:induction false} FindChfFirst(s: string, from: nat, k: nat)
    requires from <= k <= |s| && ChfMatchAt(s, k).Some?
    requires forall j :: from <= j < k ==> ChfMatchAt(s, j).None?
    ensures FindChf(s, from) == Some(k)
    decreases k - from
  {
    if from < k {
      FindChfFirst(s, from + 1, k);
    }
  }

  /** re.search(r'CHF\s*([\d.]+)', s).group(1), when there is a match. */
  function SearchChf(s: string): (r: Option<string>)
    ensures r.Some? ==> r.value != [] && AllSatisfy(r.value, IsNumChar)
    ensures r.None? <==> forall j :: 0 <= j <= |s| ==> ChfMatchAt(s, j).None?
  {
    match FindChf(s, 0)
    case None => None
    case Some(i) =>
      var m := ChfMatchAt(s, i).value;
      Some(s[m.0..m.1])
  }

  /** The price of a panel: "CHF " and the matched digits, or "N/A" without a price element
      or without a match. */
  function NormalisePrice(priceText: Option<string>): (prix: string)
    ensures prix == NO_PRICE <==> priceText.None? || SearchChf(priceText.value).None?
    ensures prix != NO_PRICE ==> "CHF " <= prix && |prix| > 4 && AllSatisfy(prix[4..], IsNumChar)
  {
    if priceText.None? then NO_PRICE
    else match SearchChf(priceText.value)
      case None => NO_PRICE
      case Some(digits) =>
        assert ("CHF " + digits)[4..] == digits;
        "CHF " + digits
  }

  const PRICE_EXAMPLE := "Prix: CHF\n 14.50"

  lemma PriceExampleSpaces()
    ensures TakeWhile(PRICE_EXAMPLE[9..], IsPySpace) == "\n "
  {
    var s := PRICE_EXAMPLE;
    assert TakeWhile(s[11..], IsPySpace) == [];
    assert s[10..][1..] == s[11..];
    assert TakeWhile(s[10..], IsPySpace) == " ";
    assert s[9..][1..] == s[10..];
  }

  lemma PriceExampleDigits()
    ensures PRICE_EXAMPLE[11..] == "14.50" && TakeWhile(PRICE_EXAMPLE[11..], IsNumChar) == "14.50"
  {
    var d := "14.50";
    assert d[4..][1..] == [];
    assert TakeWhile(d[4..], IsNumChar) == d[4..];
    assert d[3..][1..] == d[4..];
    assert TakeWhile(d[3..], IsNumChar) == d[3..];
    assert d[2..][1..] == d[3..];
    assert TakeWhile(d[2..], IsNumChar) == d[2..];
    assert d[1..][1..] == d[2..];
    assert TakeWhile(d[1..], IsNumChar) == d[1..];
  }

  lemma PriceExampleMatch()
    ensures ChfMatchAt(PRICE_EXAMPLE, 6) == Some((11, 16))
    ensures forall j :: 0 <= j < 6 ==> ChfMatchAt(PRICE_EXAMPLE, j).None?
  {
    var s := PRICE_EXAMPLE;
    PriceExampleSpaces();
    PriceExampleDigits();
    assert "CHF" <= s[6..];
    forall j | 0 <= j < 6 ensures ChfMatchAt(s, j).None? {
      assert s[j..][0] == s[j] != 'C';
    }
  }

  lemma ChfLiteral()
    ensures "CHF " + "14.50" == "CHF 14.50"
  {
  }

  /** The whitespace after "CHF" may be any whitespace; it is normalised to one space and
      the text before "CHF" is ignored. */
  lemma NormalisePriceExample()
    ensures NormalisePrice(Some(PRICE_EXAMPLE)) == "CHF 14.50"
  {
    SearchChfExample();
    ChfLiteral();
  }

  lemma SearchChfExample()
    ensures SearchChf(PRICE_EXAMPLE) == Some("14.50")
  {
    PriceExampleFound();
    PriceExampleGroup();
  }

  lemma PriceExampleFound()
    ensures FindChf(PRICE_EXAMPLE, 0) == Some(6) && ChfMatchAt(PRICE_EXAMPLE, 6) == Some((11, 16))
  {
    PriceExampleMatch();
    FindChfFirst(PRICE_EXAMPLE, 0, 6);
  }

  lemma PriceExampleGroup()
    ensures PRICE_EXAMPLE[11..16] == "14.50"
  {
    PriceExampleDigits();
  }

  // ---- extraire_menus_jour ----

  datatype Slot = BistroSlot | VitalitySlot | NoSlot

  /** The slot a panel title selects: "bistro" first, then "vitality", case-insensitively. */
  function SlotOf(typeMenu: string): Slot {
    if Contains(Lower(typeMenu), "bistro") then BistroSlot
    else if Contains(Lower(typeMenu), "vitality") then VitalitySlot
    else NoSlot
  }

  /** The menu a panel yields: none without a title or content; otherwise the cleaned title
      and content and the normalised price. */
  function PanelItem(panel: Panel): Option<MenuItem> {
    if panel.title.None? || panel.content.None? then None
    else Some(MenuItem(NettoyerTexte(panel.title.value), NettoyerTexte(panel.content.value),
                       NormalisePrice(panel.price)))
  }

  function PanelItems(panels: seq<Panel>): (items: seq<Option<MenuItem>>)
    ensures |items| == |panels| && forall i :: 0 <= i < |panels| ==> items[i] == PanelItem(panels[i])
  {
    seq(|panels|, i requires 0 <= i < |panels| => PanelItem(panels[i]))
  }

  predicate InSlot(item: Option<MenuItem>, slot: Slot) {
    item.Some? && SlotOf(item.value.itemType) == slot
  }

  /** The menu a slot ends up with: the menu of the last panel assigned to it. */
  function LastIn(items: seq<Option<MenuItem>>, slot: Slot): Option<MenuItem> {
    if items == [] then None
    else if InSlot(items[|items| - 1], slot) then items[|items| - 1]
    else LastIn(items[..|items| - 1], slot)
  }

  /** A slot gets a menu exactly when some panel is assigned to it, and then it is the menu
      of the last such panel. */
  lemma {:induction false} LastInSpec(items: seq<Option<MenuItem>>, slot: Slot)
    ensures LastIn(items, slot).Some? <==> exists i :: 0 <= i < |items| && InSlot(items[i], slot)
    ensures LastIn(items, slot).Some? ==>
      exists i :: 0 <= i < |items| && InSlot(items[i], slot) && LastIn(items, slot) == items[i]
                  && forall j :: i < j < |items| ==> !InSlot(items[j], slot)
    decreases |items|
  {
    if items != [] {
      var n := |items| - 1;
      if InSlot(items[n], slot) {
        assert InSlot(items[n], slot) && LastIn(items, slot) == items[n];
      } else {
        LastInSpec(items[..n], slot);
        LastInExtend(items, slot, LastIn(items[..n], slot));
      }
    }
  }

  /** What LastIn promises of the items before the last one carries over to all of them
      when the last one is not in the slot. */
  lemma LastInExtend(items: seq<Option<MenuItem>>, slot: Slot, r: Option<MenuItem>)
    requires items != [] && !InSlot(items[|items| - 1], slot)
    requires var init := items[..|items| - 1];
      (r.Some? <==> exists i :: 0 <= i < |init| && InSlot(init[i], slot))
      && (r.Some? ==> exists i :: 0 <= i < |init| && InSlot(init[i], slot) && r == init[i]
                        && forall j :: i < j < |init| ==> !InSlot(init[j], slot))
    ensures r.Some? <==> exists i :: 0 <= i < |items| && InSlot(items[i], slot)
    ensures r.Some? ==> exists i :: 0 <= i < |items| && InSlot(items[i], slot) && r == items[i]
                          && forall j :: i < j < |items| ==> !InSlot(items[j], slot)
  {
    var init := items[..|items| - 1];
    if r.Some? {
      var i :| 0 <= i < |init| && InSlot(init[i], slot) && r == init[i]
               && forall j :: i < j < |init| ==> !InSlot(init[j], slot);
      LastStaysLast(items, slot, i);
    } else {
      NoneStaysNone(items, slot);
    }
  }

  lemma LastStaysLast(items: seq<Option<MenuItem>>, slot: Slot, i: nat)
    requires items != [] && !InSlot(items[|items| - 1], slot)
    requires var init := items[..|items| - 1];
      i < |init| && forall j :: i < j < |init| ==> !InSlot(init[j], slot)
    ensures items[i] == items[..|items| - 1][i]
    ensures forall j :: i < j < |items| ==> !InSlot(items[j], slot)
  {
    var n := |items| - 1;
    forall j | i < j < |items| ensures !InSlot(items[j], slot) {
      if j < n { assert items[j] == items[..n][j]; }
    }
  }

  lemma NoneStaysNone(items: seq<Option<MenuItem>>, slot: Slot)
    requires items != [] && !InSlot(items[|items| - 1], slot)
    requires var init := items[..|items| - 1]; forall i :: 0 <= i < |init| ==> !InSlot(init[i], slot)
    ensures forall i :: 0 <= i < |items| ==> !InSlot(items[i], slot)
  {
    var n := |items| - 1;
    forall i | 0 <= i < |items| ensures !InSlot(items[i], slot) {
      if i < n { assert items[i] == items[..n][i]; }
    }
  }

  function DayOf(row: DayRow): Option<JourMenu> {
    if row.dayName.None? then None
    else
      var jour := Lower(NettoyerTexte(row.dayName.value));
      if |row.panels| < 2 then Some(JourMenu(jour, None, None))
      else
        var items := PanelItems(row.panels);
        Some(JourMenu(jour, LastIn(items, BistroSlot), LastIn(items, VitalitySlot)))
  }

  /** A row gives a day exactly when it has a day name; the day is named by the cleaned,
      lower-cased text; with fewer than two panels it has no menus; a Bistro menu has
      "bistro" in its title, a Vitality menu "vitality" and not "bistro". */
  lemma DayOfSpec(row: DayRow)
    ensures var r := DayOf(row);
      (r.None? <==> row.dayName.None?)
      && (r.Some? ==> r.value.jour == Lower(NettoyerTexte(row.dayName.value)))
      && (r.Some? && |row.panels| < 2 ==> r.value.bistro.None? && r.value.vitality.None?)
      && (r.Some? && r.value.bistro.Some? ==> Contains(Lower(r.value.bistro.value.itemType), "bistro"))
      && (r.Some? && r.value.vitality.Some? ==>
            Contains(Lower(r.value.vitality.value.itemType), "vitality")
            && !Contains(Lower(r.value.vitality.value.itemType), "bistro"))
  {
    var r := DayOf(row);
    if r.Some? && |row.panels| >= 2 {
      var items := PanelItems(row.panels);
      var b := LastIn(items, BistroSlot);
      LastInSpec(items, BistroSlot);
      LastInSpec(items, VitalitySlot);
      if b.Some? {
        var k :| 0 <= k < |items| && InSlot(items[k], BistroSlot) && b == items[k];
      }
      var v := LastIn(items, VitalitySlot);
      if v.Some? {
        var k :| 0 <= k < |items| && InSlot(items[k], VitalitySlot) && v == items[k];
      }
    }
  }

  lemma LastInSnoc(items: seq<Option<MenuItem>>, item: Option<MenuItem>, slot: Slot)
    ensures LastIn(items + [item], slot) == if InSlot(item, slot) then item else LastIn(items, slot)
  {
    assert (items + [item])[..|items|] == items;
  }

  /** One more panel: a slot keeps its menu unless the new panel is assigned to it. */
  lemma PanelSnoc(items: seq<Option<MenuItem>>, i: nat, slot: Slot)
    requires i < |items|
    ensures LastIn(items[..i + 1], slot) == if InSlot(items[i], slot) then items[i] else LastIn(items[..i], slot)
  {
    assert items[..i + 1] == items[..i] + [items[i]];
    LastInSnoc(items[..i], items[i], slot);
  }

  /** A panel assigned to a slot decides it unless a later panel is assigned to it too. */
  lemma LaterPanelWins(panels: seq<Panel>, i: nat, slot: Slot)
    requires i < |panels| && InSlot(PanelItem(panels[i]), slot)
    requires forall j :: i < j < |panels| ==> !InSlot(PanelItem(panels[j]), slot)
    ensures LastIn(PanelItems(panels), slot) == PanelItem(panels[i])
  {
    var items := PanelItems(panels);
    var r := LastIn(items, slot);
    LastInSpec(items, slot);
    var k :| 0 <= k < |items| && InSlot(items[k], slot) && r == items[k]
             && forall j :: k < j < |items| ==> !InSlot(items[j], slot);
    assert k == i;
  }

  /** The panel list read to its end. */
  lemma PanelsDone(items: seq<Option<MenuItem>>, slot: Slot)
    ensures LastIn(items[..|items|], slot) == LastIn(items, slot)
  {
    assert items[..|items|] == items;
  }

  method ExtraireMenusJour(row: DayRow) returns (r: Option<JourMenu>)
    ensures r == DayOf(row)
  {
    if row.dayName.None? {
      return None;
    }
    var jourNom := Lower(NettoyerTexte(row.dayName.value));
    var panels := row.panels;
    if |panels| < 2 {
      return Some(JourMenu(jourNom, None, None));
    }
    ghost var items := PanelItems(panels);
    var bistro: Option<MenuItem> := None;
    var vitality: Option<MenuItem> := None;
    var i := 0;
    while i < |panels|
      invariant 0 <= i <= |panels| == |items|
      invariant bistro == LastIn(items[..i], BistroSlot)
      invariant vitality == LastIn(items[..i], VitalitySlot)
    {
      var menuItem := PanelItem(panels[i]);
      assert items[i] == menuItem;
      PanelSnoc(items, i, BistroSlot);
      PanelSnoc(items, i, VitalitySlot);
      if menuItem.Some? {
        var typeMenu := Lower(menuItem.value.itemType);
        if Contains(typeMenu, "bistro") {
          bistro := menuItem;
        } else if Contains(typeMenu, "vitality") {
          vitality := menuItem;
        }
      }
      i := i + 1;
    }
    PanelsDone(items, BistroSlot);
    PanelsDone(items, VitalitySlot);
    return Some(JourMenu(jourNom, bistro, vitality));
  }

  // ---- parser_html_menu ----

  /** The days of the rows that have a day name, in row order. */
  function ExtractedDays(rows: seq<DayRow>): (r: seq<JourMenu>)
    ensures |r| <= |rows|
    ensures r == [] <==> forall i :: 0 <= i < |rows| ==> rows[i].dayName.None?
    ensures forall d :: d in r ==> exists i :: 0 <= i < |rows| && DayOf(rows[i]) == Some(d)
  {
    if rows == [] then []
    else
      var init := rows[..|rows| - 1];
      var r := ExtractedDays(init);
      assert forall i :: 0 <= i < |init| ==> init[i] == rows[i];
      match DayOf(rows[|rows| - 1])
      case None => r
      case Some(d) => r + [d]
  }

  /** One more row adds its day, if it has one, at the end. */
  lemma ExtractedDaysStep(rows: seq<DayRow>, i: nat)
    requires i < |rows|
    ensures ExtractedDays(rows[..i + 1])
      == ExtractedDays(rows[..i]) + (if DayOf(rows[i]).Some? then [DayOf(rows[i]).value] else [])
  {
    assert rows[..i + 1][..i] == rows[..i];
  }

  function DayNames(jours: seq<JourMenu>): (names: seq<string>)
    ensures |names| == |jours| && forall i :: 0 <= i < |jours| ==> names[i] == jours[i].jour
  {
    seq(|jours|, i requires 0 <= i < |jours| => jours[i].jour)
  }

  /** parser_html_menu on the searched page. */
  function ParseWeek(page: Page, parsedAt: string): Result<MenuSemaine, string> {
    var semaine := if page.title.Some? then NettoyerTexte(page.title.value) else UNKNOWN_WEEK;
    if page.rows == [] then Failure(NO_STRUCTURE)
    else
      var jours := ExtractedDays(page.rows);
      if jours == [] then Failure(NO_MENU)
      else Success(MenuSemaine(semaine, jours, Metadata(SOURCE_URL, parsedAt, DayNames(jours), |jours|)))
  }

  /** parser_html_menu fails without day rows, and when no row has a day name; otherwise it
      gives the week title (or "Semaine inconnue"), the days in row order, never none, and
      metadata that counts and names them. */
  lemma ParseWeekSpec(page: Page, parsedAt: string)
    ensures var r := ParseWeek(page, parsedAt);
      (r == Failure(NO_STRUCTURE) <==> page.rows == [])
      && (r == Failure(NO_MENU) <==>
            page.rows != [] && forall i :: 0 <= i < |page.rows| ==> page.rows[i].dayName.None?)
      && (r.Success? ==>
            var w := r.value;
            w.jours != [] && w.jours == ExtractedDays(page.rows)
            && w.semaine == (if page.title.Some? then NettoyerTexte(page.title.value) else UNKNOWN_WEEK)
            && w.metadata.sourceUrl == SOURCE_URL && w.metadata.parsedAt == parsedAt
            && w.metadata.totalJours == |w.metadata.joursDisponibles| == |w.jours|
            && forall i :: 0 <= i < |w.jours| ==> w.metadata.joursDisponibles[i] == w.jours[i].jour)
  {
  }

  method ParserHtmlMenu(page: Page, parsedAt: string) returns (r: Result<MenuSemaine, string>)
    ensures r == ParseWeek(page, parsedAt)
  {
    var semaine := UNKNOWN_WEEK;
    if page.title.Some? {
      semaine := NettoyerTexte(page.title.value);
    }
    var lignesJours := page.rows;
    if lignesJours == [] {
      return Failure(NO_STRUCTURE);
    }
    var joursMenus: seq<JourMenu> := [];
    var i := 0;
    while i < |lignesJours|
      invariant 0 <= i <= |lignesJours|
      invariant joursMenus == ExtractedDays(lignesJours[..i])
    {
      ExtractedDaysStep(lignesJours, i);
      var jourMenu := ExtraireMenusJour(lignesJours[i]);
      if jourMenu.Some? {
        joursMenus := joursMenus + [jourMenu.value];
      }
      i := i + 1;
    }
    assert lignesJours[..i] == lignesJours;
    if joursMenus == [] {
      return Failure(NO_MENU);
    }
    var metadata := Metadata(SOURCE_URL, parsedAt, DayNames(joursMenus), |joursMenus|);
    return Success(MenuSemaine(semaine, joursMenus, metadata));
  }
}

=== FILE: menu_types.dfy ===
/** The record shapes of frontend/Elcappfet/types/menu.ts and its two type guards. */
module MenuTypes {
  import opened Wrappers

  /** The two stations, as the `'Bistro' | 'Vitality'` union declares them. The records below
      carry `type` and `category` as plain strings: the backend sends the cleaned panel title,
      which the app copies without checking it against the union. */
  datatype Category = Bistro | Vitality

  function CategoryName(c: Category): (name: string)
    ensures name == "Bistro" || name == "Vitality"
    ensures (name == "Bistro") <==> c == Bistro
  {
    match c
    case Bistro => "Bistro"
    case Vitality => "Vitality"
  }

  /** One station's dish as the backend sends it. */
  datatype BackendMenuItem = BackendMenuItem(itemType: string, contenu: string, prix: string, disponible: bool)

  /** `BackendMenuItem | { disponible: false }`: a dish, or the bare "not offered" marker. */
  datatype BackendSlot = Offered(item: BackendMenuItem) | NotOffered

  datatype BackendDayMenu = BackendDayMenu(bistro: BackendSlot, vitality: BackendSlot)

  datatype WeeklyMetadata = WeeklyMetadata(
    sourceUrl: string, parsedAt: string, servedAt: string, endpoint: string,
    totalJours: int, joursDisponibles: seq<string>)

  /** `data` of GET /menus/weekly: the week's title and the day-name-keyed menus. */
  datatype WeeklyData = WeeklyData(semaine: string, jours: map<string, BackendDayMenu>)

  datatype BackendWeeklyMenuResponse = BackendWeeklyMenuResponse(
    success: bool, data: WeeklyData, metadata: WeeklyMetadata)

  /** A JavaScript number as the price parser can produce it: a value, or NaN. */
  datatype Number = Num(value: real) | NaN

  /** The frontend dish record. `dietaryTags` None stands for the absent optional field. */
  datatype MenuItem = MenuItem(
    id: string, name: string, description: string, price: Number,
    category: string, imageUrl: string, dietaryTags: Option<seq<string>>)

  /** The hook's state; lastFetch is a time in milliseconds. */
  datatype MenuState = MenuState(
    loading: bool, error: Option<string>, data: Option<seq<MenuItem>>,
    lastFetch: Option<int>, weekInfo: Option<string>, refreshing: bool)

  /** What is persisted per day: the items, the week title and the write time in milliseconds. */
  datatype MenuCacheEntry = MenuCacheEntry(data: seq<MenuItem>, weekInfo: string, timestamp: int)

  /** isBackendMenuItemAvailable: a type guard that narrows the slot to a dish whose
      `disponible` field is true; the bare marker never passes. */
  predicate IsBackendMenuItemAvailable(slot: BackendSlot)
    ensures IsBackendMenuItemAvailable(slot) ==> slot.Offered?
    ensures slot.Offered? ==> (IsBackendMenuItemAvailable(slot) <==> slot.item.disponible)
  {
    match slot
    case NotOffered => false
    case Offered(item) => item.disponible == true
  }

  /** isSuccessResponse */
  predicate IsSuccessResponse(response: BackendWeeklyMenuResponse)
    ensures IsSuccessResponse(response) <==> response.success
  {
    response.success == true
  }
}

=== FILE: pipeline.dfy ===
/** How the two halves meet: the backend writes each price as "CHF " and the digits it
    matched, or "N/A", and the frontend's parsePrice reads that string back into a number. */
module Pipeline {
  import opened Wrappers
  import opened Text
  import MenuParser
  import DataTransform
  import MenuTypes

  /** Digits and dots are neither a letter c, a comma nor whitespace. */
  lemma NumCharsAreInert(g: string)
    requires AllSatisfy(g, IsNumChar)
    ensures DataTransform.NoLetterC(g) && ',' !in g
    ensures g != [] ==> !IsJsSpace(g[0]) && !IsJsSpace(g[|g| - 1])
  {
    forall i | 0 <= i < |g| ensures g[i] != 'c' && g[i] != 'C' && g[i] != ',' {
      assert IsNumChar(g[i]);
    }
    if g != [] {
      assert IsNumChar(g[0]) && IsNumChar(g[|g| - 1]);
    }
  }

  /** The digits and dots the backend matched survive the frontend's normalisation intact. */
  lemma NormalisedMatchedDigits(g: string)
    requires g != [] && AllSatisfy(g, IsNumChar)
    ensures DataTransform.NormalisedPrice("CHF " + g) == g
  {
    NumCharsAreInert(g);
    DataTransform.NoLetterCSpace(g);
    DataTransform.RemoveChfSpacePrefix(g);
    DataTransform.RemoveChfNoC(" " + g);
    assert DataTransform.RemoveChf("CHF " + g) == " " + g;
    DataTransform.NoSpaceEnds(g);
    assert DataTransform.TrimJs(" " + g) == g;
    assert DataTransform.ReplaceFirstComma(g) == g;
  }

  /** The price the frontend shows for a backend price string: 0 for "N/A", and otherwise
      parseFloat of exactly the digits the backend's pattern matched. */
  lemma PriceRoundTrip(priceText: Option<string>)
    ensures var prix := MenuParser.NormalisePrice(priceText);
      prix == MenuParser.NO_PRICE ==> DataTransform.ParsePrice(prix) == MenuTypes.Num(0.0)
    ensures var prix := MenuParser.NormalisePrice(priceText);
      prix != MenuParser.NO_PRICE ==>
        DataTransform.ParsePrice(prix) == DataTransform.ParseFloat(MenuParser.SearchChf(priceText.value).value)
  {
    var prix := MenuParser.NormalisePrice(priceText);
    if prix == MenuParser.NO_PRICE {
      assert DataTransform.NoNumberChars(prix);
      DataTransform.ParsePriceNoNumber(prix);
    } else {
      var g := MenuParser.SearchChf(priceText.value).value;
      assert prix == "CHF " + g;
      NormalisedMatchedDigits(g);
      DataTransform.TakeWhileAll(g, IsNumChar);
      assert DataTransform.FirstNumRun(g) == Some(g) by {
        assert g[0..] == g;
      }
    }
  }

  /** A price shown as NaN in the app comes exactly from a backend match whose digits start
      with a dot that no digit follows, such as "CHF ." or "CHF .." on the page. */
  lemma PriceIsNaNOnlyForLoneDot(priceText: Option<string>)
    ensures var prix := MenuParser.NormalisePrice(priceText);
      DataTransform.ParsePrice(prix).NaN? <==>
        priceText.Some? && MenuParser.SearchChf(priceText.value).Some?
        && var g := MenuParser.SearchChf(priceText.value).value;
           g[0] == '.' && (|g| == 1 || g[1] == '.')
  {
    PriceRoundTrip(priceText);
  }

  /** The price the app shows for a backend price string, once the lone-dot NaN is mapped to
      the intended default: 0 for "N/A" and for a lone-dot match, and otherwise parseFloat of
      the matched digits, which is then a number. */
  lemma ShownPrice(priceText: Option<string>)
    ensures var prix := MenuParser.NormalisePrice(priceText);
      var shown := DataTransform.ParsePriceOrZero(prix);
      (prix == MenuParser.NO_PRICE ==> shown == MenuTypes.Num(0.0))
      && (prix != MenuParser.NO_PRICE ==>
            var g := MenuParser.SearchChf(priceText.value).value;
            if g[0] == '.' && (|g| == 1 || g[1] == '.') then shown == MenuTypes.Num(0.0)
            else shown == DataTransform.ParseFloat(g) && shown.Num?)
  {
    PriceRoundTrip(priceText);
    PriceIsNaNOnlyForLoneDot(priceText);
  }
}

=== FILE: routes.dfy ===
/** The HTTP routes of the backend (class EldoraMenuAPI in backend/menu_parser_server.py).
    Each menu route downloads the Eldora page, parses it and shapes the week into a JSON
    response; the image routes go through the image cache. Responses are datatypes, and
    FastAPI's HTTPException is `HttpError`. */
module Routes {
  import opened Wrappers
  import opened Text
  import opened MenuParser
  import ImageGenerator

  /** What session.get(...) and raise_for_status() produced: the page, as the parser searches
      it, or the message of the requests exception. */
  datatype Download = Fetched(page: Page) | RequestFailed(message: string)

  /** HTTPException(status_code, detail). */
  datatype HttpError = HttpError(status: int, detail: string)

  const CONNECTION_ERROR := "Erreur de connexion: "
  const PROCESSING_ERROR := "Erreur de traitement: "
  const IMAGE_ERROR := "Erreur génération image: "
  const STATS_ERROR := "Erreur récupération stats: "
  const CLEAR_ERROR := "Erreur vidage cache: "
  const CACHE_CLEARED := "Cache vidé avec succès"
  const NO_MENU_TODAY := "Aucun menu trouvé pour aujourd'hui"

  /** The head every menu route shares: a request exception is a 503, a parser ValueError a
      500, and otherwise the parsed week, which always has at least one day. */
  function FetchWeek(download: Download, parsedAt: string): (r: Result<MenuSemaine, HttpError>)
    ensures download.RequestFailed? ==> r == Failure(HttpError(503, CONNECTION_ERROR + download.message))
    ensures download.Fetched? && download.page.rows == [] ==>
      r == Failure(HttpError(500, PROCESSING_ERROR + NO_STRUCTURE))
    ensures download.Fetched? && download.page.rows != [] && ExtractedDays(download.page.rows) == [] ==>
      r == Failure(HttpError(500, PROCESSING_ERROR + NO_MENU))
    ensures r.Success? <==> download.Fetched? && ExtractedDays(download.page.rows) != []
    ensures r.Success? ==> r.value.jours == ExtractedDays(download.page.rows) && r.value.jours != []
    ensures r.Success? ==> ParseWeek(download.page, parsedAt) == Success(r.value)
  {
    match download
    case RequestFailed(m) => Failure(HttpError(503, CONNECTION_ERROR + m))
    case Fetched(page) =>
      ParseWeekSpec(page, parsedAt);
      match ParseWeek(page, parsedAt)
      case Failure(e) => Failure(HttpError(500, PROCESSING_ERROR + e))
      case Success(w) => Success(w)
  }

  /** The shared head as the routes run it, through the parser's loop. */
  method FetchAndParse(download: Download, parsedAt: string) returns (r: Result<MenuSemaine, HttpError>)
    ensures r == FetchWeek(download, parsedAt)
  {
    if download.RequestFailed? {
      return Failure(HttpError(503, CONNECTION_ERROR + download.message));
    }
    var parsed := ParserHtmlMenu(download.page, parsedAt);
    if parsed.Failure? {
      return Failure(HttpError(500, PROCESSING_ERROR + parsed.error));
    }
    return Success(parsed.value);
  }

  // ---- Days keyed by name ----

  /** A dict keyed by day name filled in day order: a later day with the same name replaces
      an earlier one. */
  function JoursMap(jours: seq<JourMenu>): (r: map<string, JourMenu>)
    ensures forall k :: k in r <==> exists i :: 0 <= i < |jours| && jours[i].jour == k
    ensures forall k :: k in r ==> r[k].jour == k
  {
    if jours == [] then map[]
    else
      var init := jours[..|jours| - 1];
      assert forall i :: 0 <= i < |init| ==> init[i] == jours[i];
      JoursMap(init)[jours[|jours| - 1].jour := jours[|jours| - 1]]
  }

  /** Under each name the dict holds the last day with that name. */
  lemma {:induction false} JoursMapLastWins(jours: seq<JourMenu>, i: nat)
    requires i < |jours|
    requires forall j :: i < j < |jours| ==> jours[j].jour != jours[i].jour
    ensures JoursMap(jours)[jours[i].jour] == jours[i]
    decreases |jours|
  {
    if i < |jours| - 1 {
      var init := jours[..|jours| - 1];
      JoursMapLastWins(init, i);
    }
  }

  /** The dict has at most one entry per day, and strictly fewer entries than days as soon as
      two days share a name. */
  lemma {:induction false} JoursMapSize(jours: seq<JourMenu>)
    ensures |JoursMap(jours)| <= |jours|
    ensures (exists i, j :: 0 <= i < j < |jours| && jours[i].jour == jours[j].jour) ==> |JoursMap(jours)| < |jours|
    decreases |jours|
  {
    if jours != [] {
      var n := |jours| - 1;
      var init := jours[..n];
      var last := jours[n];
      JoursMapSize(init);
      var m := JoursMap(init);
      assert JoursMap(jours) == m[last.jour := last];
      assert |JoursMap(jours)| <= |m| + 1 by {
        assert JoursMap(jours).Keys == m.Keys + {last.jour};
      }
      if exists i, j :: 0 <= i < j < |jours| && jours[i].jour == jours[j].jour {
        var i, j :| 0 <= i < j < |jours| && jours[i].jour == jours[j].jour;
        if j == n {
          assert init[i] == jours[i];
          assert last.jour in m;
          assert JoursMap(jours).Keys == m.Keys;
        } else {
          assert init[i] == jours[i] && init[j] == jours[j];
        }
      }
    }
  }

  // ---- /menus (legacy) ----

  /** A day of the legacy response: each slot is its item, or null. */
  datatype NullableSlots = NullableSlots(bistro: Option<MenuItem>, vitality: Option<MenuItem>)

  datatype LegacyResponse = LegacyResponse(semaine: string, jours: map<string, NullableSlots>, metadata: Metadata)

  /** get_menus_complets: the week title, the days keyed by name and the parser's metadata. */
  function MenusComplets(download: Download, parsedAt: string): (r: Result<LegacyResponse, HttpError>)
    ensures r.Failure? <==> FetchWeek(download, parsedAt).Failure?
    ensures r.Failure? ==> r.error == FetchWeek(download, parsedAt).error
    ensures r.Success? ==>
      var w := FetchWeek(download, parsedAt).value;
      r.value.semaine == w.semaine && r.value.metadata == w.metadata
      && (forall k :: k in r.value.jours <==> exists i :: 0 <= i < |w.jours| && w.jours[i].jour == k)
    ensures r.Success? ==>
      var m := JoursMap(FetchWeek(download, parsedAt).value.jours);
      forall k :: k in r.value.jours ==> r.value.jours[k] == NullableSlots(m[k].bistro, m[k].vitality)
  {
    match FetchWeek(download, parsedAt)
    case Failure(e) => Failure(e)
    case Success(w) =>
      var m := JoursMap(w.jours);
      Success(LegacyResponse(w.semaine, map k | k in m :: NullableSlots(m[k].bistro, m[k].vitality), w.metadata))
  }

  // ---- /menus/weekly ----

  /** A slot as the today and weekly routes render it: the item with "disponible": true, or
      only "disponible": false. */
  datatype SlotJson = Available(item: MenuItem) | Unavailable

  datatype DaySlots = DaySlots(bistro: SlotJson, vitality: SlotJson)

  /** The metadata of the today and weekly responses: the parser's, plus when and by which
      endpoint it was served. */
  datatype ServedMetadata = ServedMetadata(base: Metadata, servedAt: string, endpoint: string)

  datatype WeeklyResponse = WeeklyResponse(semaine: string, jours: map<string, DaySlots>, metadata: ServedMetadata)

  function SlotData(slot: Option<MenuItem>): (r: SlotJson)
    ensures r.Available? <==> slot.Some?
    ensures r.Available? ==> r.item == slot.value
  {
    if slot.Some? then Available(slot.value) else Unavailable
  }

  /** The weekly route's `jours_data`: the days keyed by name with both slots rendered. */
  function WeeklyJours(jours: seq<JourMenu>): (r: map<string, DaySlots>)
    ensures r.Keys == JoursMap(jours).Keys
    ensures forall k :: k in r ==>
      r[k] == DaySlots(SlotData(JoursMap(jours)[k].bistro), SlotData(JoursMap(jours)[k].vitality))
  {
    var m := JoursMap(jours);
    map k | k in m :: DaySlots(SlotData(m[k].bistro), SlotData(m[k].vitality))
  }

  /** The loop of get_weekly_menu that fills `jours_data` day by day. */
  method BuildWeeklyJours(jours: seq<JourMenu>) returns (joursData: map<string, DaySlots>)
    ensures joursData == WeeklyJours(jours)
  {
    joursData := map[];
    var i := 0;
    while i < |jours|
      invariant 0 <= i <= |jours|
      invariant joursData == WeeklyJours(jours[..i])
    {
      var jour := jours[i];
      assert jours[..i + 1][..i] == jours[..i];
      joursData := joursData[jour.jour := DaySlots(SlotData(jour.bistro), SlotData(jour.vitality))];
      assert joursData == WeeklyJours(jours[..i + 1]);
      i := i + 1;
    }
    assert jours[..i] == jours;
  }

  /** get_weekly_menu: the week title, the days keyed by name with rendered slots, and the
      parser's metadata marked as served by the weekly endpoint. */
  function WeeklyMenu(download: Download, parsedAt: string, servedAt: string): (r: Result<WeeklyResponse, HttpError>)
    ensures r.Failure? <==> FetchWeek(download, parsedAt).Failure?
    ensures r.Failure? ==> r.error == FetchWeek(download, parsedAt).error
    ensures r.Success? ==>
      var w := FetchWeek(download, parsedAt).value;
      r.value.semaine == w.semaine && r.value.jours == WeeklyJours(w.jours)
      && r.value.metadata == ServedMetadata(w.metadata, servedAt, "weekly")
  {
    match FetchWeek(download, parsedAt)
    case Failure(e) => Failure(e)
    case Success(w) => Success(WeeklyResponse(w.semaine, WeeklyJours(w.jours), ServedMetadata(w.metadata, servedAt, "weekly")))
  }

  /** get_weekly_menu. */
  method GetWeeklyMenu(download: Download, parsedAt: string, servedAt: string) returns (r: Result<WeeklyResponse, HttpError>)
    ensures r == WeeklyMenu(download, parsedAt, servedAt)
  {
    var week := FetchAndParse(download, parsedAt);
    if week.Failure? {
      return Failure(week.error);
    }
    var w := week.value;
    var joursData := BuildWeeklyJours(w.jours);
    return Success(WeeklyResponse(w.semaine, joursData, ServedMetadata(w.metadata, servedAt, "weekly")));
  }

  /** The weekly and the legacy routes list the same days, with the same items: a slot is
      available in one exactly when it is not null in the other. */
  lemma WeeklyAgreesWithLegacy(download: Download, parsedAt: string, servedAt: string)
    ensures WeeklyMenu(download, parsedAt, servedAt).Success? <==> MenusComplets(download, parsedAt).Success?
    ensures WeeklyMenu(download, parsedAt, servedAt).Success? ==>
      var weekly := WeeklyMenu(download, parsedAt, servedAt).value.jours;
      var legacy := MenusComplets(download, parsedAt).value.jours;
      weekly.Keys == legacy.Keys
      && forall k :: k in weekly ==>
           (weekly[k].bistro.Available? <==> legacy[k].bistro.Some?)
           && (weekly[k].bistro.Available? ==> weekly[k].bistro.item == legacy[k].bistro.value)
           && (weekly[k].vitality.Available? <==> legacy[k].vitality.Some?)
           && (weekly[k].vitality.Available? ==> weekly[k].vitality.item == legacy[k].vitality.value)
  {
  }

  /** Under each day name both routes serve the last parsed day with that name: the weekly
      route its slots rendered with "disponible", the legacy route its items or null. */
  lemma DayServedUnderName(download: Download, parsedAt: string, servedAt: string, i: nat)
    requires FetchWeek(download, parsedAt).Success?
    requires var jours := FetchWeek(download, parsedAt).value.jours;
      i < |jours| && forall j :: i < j < |jours| ==> jours[j].jour != jours[i].jour
    ensures var day := FetchWeek(download, parsedAt).value.jours[i];
      var weekly := WeeklyMenu(download, parsedAt, servedAt).value.jours;
      var legacy := MenusComplets(download, parsedAt).value.jours;
      day.jour in weekly && weekly[day.jour] == DaySlots(SlotData(day.bistro), SlotData(day.vitality))
      && day.jour in legacy && legacy[day.jour] == NullableSlots(day.bistro, day.vitality)
  {
    var jours := FetchWeek(download, parsedAt).value.jours;
    JoursMapLastWins(jours, i);
  }

  /** total_jours counts the parsed days, but the dict of the weekly response keeps one entry
      per name: a page with two rows for the same day reports more days than it lists. */
  lemma WeeklyTotalCanExceedDays(download: Download, parsedAt: string, servedAt: string)
    requires WeeklyMenu(download, parsedAt, servedAt).Success?
    ensures var w := WeeklyMenu(download, parsedAt, servedAt).value;
      |w.jours| <= w.metadata.base.totalJours
    ensures var w := WeeklyMenu(download, parsedAt, servedAt).value;
      var days := FetchWeek(download, parsedAt).value.jours;
      (exists i, j :: 0 <= i < j < |days| && days[i].jour == days[j].jour) ==> |w.jours| < w.metadata.base.totalJours
  {
    var week := FetchWeek(download, parsedAt).value;
    ParseWeekSpec(download.page, parsedAt);
    JoursMapSize(week.jours);
    assert |WeeklyJours(week.jours)| == |JoursMap(week.jours)| by {
      assert WeeklyJours(week.jours).Keys == JoursMap(week.jours).Keys;
    }
  }

  // ---- Finding a day by name ----

  /** The position of the first day whose name equals `name` ignoring case. */
  function FirstMatch(jours: seq<JourMenu>, name: string): (r: Option<nat>)
    ensures r.Some? ==> r.value < |jours| && Lower(jours[r.value].jour) == Lower(name)
    ensures r.Some? ==> forall j :: 0 <= j < r.value ==> Lower(jours[j].jour) != Lower(name)
    ensures r.None? ==> forall j :: 0 <= j < |jours| ==> Lower(jours[j].jour) != Lower(name)
  {
    if jours == [] then None
    else if Lower(jours[0].jour) == Lower(name) then Some(0)
    else match FirstMatch(jours[1..], name)
      case None => None
      case Some(k) => Some(k + 1)
  }

  /** The search loop of get_today_menu and get_menu_jour: the first day whose name matches,
      ignoring case. */
  method FindJour(jours: seq<JourMenu>, name: string) returns (r: Option<JourMenu>)
    ensures r.None? <==> FirstMatch(jours, name).None?
    ensures r.Some? ==> r.value == jours[FirstMatch(jours, name).value]
  {
    var i := 0;
    while i < |jours|
      invariant 0 <= i <= |jours|
      invariant forall j :: 0 <= j < i ==> Lower(jours[j].jour) != Lower(name)
    {
      if Lower(jours[i].jour) == Lower(name) {
        return Some(jours[i]);
      }
      i := i + 1;
    }
    return None;
  }

  // ---- /menus/today ----

  /** day_mapping: English weekday names to French ones. */
  const DAY_MAPPING: map<string, string> := map[
    "monday" := "lundi", "tuesday" := "mardi", "wednesday" := "mercredi", "thursday" := "jeudi",
    "friday" := "vendredi", "saturday" := "samedi", "sunday" := "dimanche"]

  /** `day_mapping.get(today, today)` on the lower-cased weekday name. */
  function TodayFr(weekday: string): string {
    var today := Lower(weekday);
    if today in DAY_MAPPING then DAY_MAPPING[today] else today
  }

  datatype TodayResponse = TodayResponse(jour: string, semaine: string, bistro: SlotJson, vitality: SlotJson,
                                         metadata: ServedMetadata)

  /** The day get_today_menu serves: the first day named like today, else the first day. */
  function TodayJour(jours: seq<JourMenu>, weekday: string): Option<JourMenu> {
    match FirstMatch(jours, TodayFr(weekday))
    case Some(i) => Some(jours[i])
    case None => if jours != [] then Some(jours[0]) else None
  }

  /** get_today_menu; `weekday` is strftime("%A") of the server's clock. The 404 for a week
      without days is raised inside the try, so as written it would come out as a 500. */
  function TodayMenu(download: Download, parsedAt: string, weekday: string, servedAt: string): Result<TodayResponse, HttpError> {
    match FetchWeek(download, parsedAt)
    case Failure(e) => Failure(e)
    case Success(w) =>
      match TodayJour(w.jours, weekday)
      case None => Failure(HttpError(500, PROCESSING_ERROR + "404: " + NO_MENU_TODAY))
      case Some(j) =>
        Success(TodayResponse(j.jour, w.semaine, SlotData(j.bistro), SlotData(j.vitality), ServedMetadata(w.metadata, servedAt, "today")))
  }

  method GetTodayMenu(download: Download, parsedAt: string, weekday: string, servedAt: string) returns (r: Result<TodayResponse, HttpError>)
    ensures r == TodayMenu(download, parsedAt, weekday, servedAt)
  {
    var week := FetchAndParse(download, parsedAt);
    if week.Failure? {
      return Failure(week.error);
    }
    var w := week.value;
    var todayFr := TodayFr(weekday);
    var jourActuel := FindJour(w.jours, todayFr);
    if jourActuel.None? && w.jours != [] {
      jourActuel := Some(w.jours[0]);
    }
    if jourActuel.None? {
      return Failure(HttpError(500, PROCESSING_ERROR + "404: " + NO_MENU_TODAY));
    }
    var j := jourActuel.value;
    return Success(TodayResponse(j.jour, w.semaine, SlotData(j.bistro), SlotData(j.vitality), ServedMetadata(w.metadata, servedAt, "today")));
  }

  /** The today route fails only when the download or the parse fails: a parsed week always
      has a day, so the "no menu for today" branch is dead. The day served is the first one
      named like today, and the first day of the week when none is. */
  lemma TodayMenuSpec(download: Download, parsedAt: string, weekday: string, servedAt: string)
    ensures TodayMenu(download, parsedAt, weekday, servedAt).Failure? <==> FetchWeek(download, parsedAt).Failure?
    ensures TodayMenu(download, parsedAt, weekday, servedAt).Success? ==>
      var r := TodayMenu(download, parsedAt, weekday, servedAt).value;
      var jours := FetchWeek(download, parsedAt).value.jours;
      (exists i :: 0 <= i < |jours| && Lower(jours[i].jour) == Lower(TodayFr(weekday))) ==>
        Lower(r.jour) == Lower(TodayFr(weekday))
    ensures TodayMenu(download, parsedAt, weekday, servedAt).Success? ==>
      var r := TodayMenu(download, parsedAt, weekday, servedAt).value;
      var jours := FetchWeek(download, parsedAt).value.jours;
      (forall i :: 0 <= i < |jours| ==> Lower(jours[i].jour) != Lower(TodayFr(weekday))) ==>
        r.jour == jours[0].jour && r.bistro == SlotData(jours[0].bistro) && r.vitality == SlotData(jours[0].vitality)
    ensures TodayMenu(download, parsedAt, weekday, servedAt).Success? ==>
      var r := TodayMenu(download, parsedAt, weekday, servedAt).value;
      var jours := FetchWeek(download, parsedAt).value.jours;
      FirstMatch(jours, TodayFr(weekday)).Some? ==>
        var i := FirstMatch(jours, TodayFr(weekday)).value;
        r.jour == jours[i].jour && r.bistro == SlotData(jours[i].bistro) && r.vitality == SlotData(jours[i].vitality)
    ensures TodayMenu(download, parsedAt, weekday, servedAt).Success? ==>
      var r := TodayMenu(download, parsedAt, weekday, servedAt).value;
      var w := FetchWeek(download, parsedAt).value;
      r.semaine == w.semaine && r.metadata == ServedMetadata(w.metadata, servedAt, "today")
  {
  }

  /** On a weekday the mapping knows, the day searched for is its French name. */
  lemma TodayFrMapsWeekdays(weekday: string)
    ensures TodayFr("Monday") == "lundi" && TodayFr("Tuesday") == "mardi" && TodayFr("Wednesday") == "mercredi"
    ensures TodayFr("Thursday") == "jeudi" && TodayFr("Friday") == "vendredi"
    ensures TodayFr("Saturday") == "samedi" && TodayFr("Sunday") == "dimanche"
    ensures Lower(weekday) !in DAY_MAPPING ==> TodayFr(weekday) == Lower(weekday)
  {
    assert Lower("Monday") == "monday";
    assert Lower("Tuesday") == "tuesday";
    assert Lower("Wednesday") == "wednesday";
    assert Lower("Thursday") == "thursday";
    assert Lower("Friday") == "friday";
    assert Lower("Saturday") == "saturday";
    assert Lower("Sunday") == "sunday";
  }

  // ---- /menus/{jour} ----

  datatype DayResponse = DayResponse(jour: string, semaine: string, bistro: Option<MenuItem>,
                                     vitality: Option<MenuItem>, metadata: Metadata)

  /** Python's repr of a list of plain strings: ['lundi', 'mardi']. */
  function PyListRepr(names: seq<string>): string {
    "[" + Join(seq(|names|, i requires 0 <= i < |names| => "'" + names[i] + "'"), ", ") + "]"
  }

  function NotFoundDetail(jour: string, names: seq<string>): string {
    "Jour '" + jour + "' non trouvé. Jours disponibles: " + PyListRepr(names)
  }

  /** The lookup of get_menu_jour in a parsed week: the first day named like `jour`,
      ignoring case, or a 404 that lists the days available. */
  function LookupJour(w: MenuSemaine, jour: string): (r: Result<DayResponse, HttpError>)
    ensures r.Success? <==> exists i :: 0 <= i < |w.jours| && Lower(w.jours[i].jour) == Lower(jour)
    ensures r.Success? ==>
      var d := w.jours[FirstMatch(w.jours, jour).value];
      Lower(r.value.jour) == Lower(jour) && r.value == DayResponse(d.jour, w.semaine, d.bistro, d.vitality, w.metadata)
    ensures r.Failure? ==> r.error == HttpError(404, NotFoundDetail(jour, DayNames(w.jours)))
  {
    match FirstMatch(w.jours, jour)
    case None => Failure(HttpError(404, NotFoundDetail(jour, DayNames(w.jours))))
    case Some(i) =>
      var d := w.jours[i];
      Success(DayResponse(d.jour, w.semaine, d.bistro, d.vitality, w.metadata))
  }

  /** get_menu_jour as intended: the download and parse errors, then the lookup's 404. */
  function MenuJour(download: Download, parsedAt: string, jour: string): (r: Result<DayResponse, HttpError>)
    ensures FetchWeek(download, parsedAt).Failure? ==> r == Failure(FetchWeek(download, parsedAt).error)
    ensures FetchWeek(download, parsedAt).Success? ==> r == LookupJour(FetchWeek(download, parsedAt).value, jour)
  {
    match FetchWeek(download, parsedAt)
    case Failure(e) => Failure(e)
    case Success(w) => LookupJour(w, jour)
  }

  /** get_menu_jour as written: the 404 is raised inside the try, so `except Exception`
      catches it and re-raises a 500 whose detail is str() of the 404. */
  function MenuJourAsWritten(download: Download, parsedAt: string, jour: string): (r: Result<DayResponse, HttpError>)
    ensures r.Success? <==> MenuJour(download, parsedAt, jour).Success?
  {
    match MenuJour(download, parsedAt, jour)
    case Failure(HttpError(404, detail)) => Failure(HttpError(500, PROCESSING_ERROR + "404: " + detail))
    case other => other
  }

  /** As written, an unknown day never reaches the client as a 404: it is a 500 whose detail
      wraps the intended one. */
  lemma MenuJourUnknownDayIsServerError(download: Download, parsedAt: string, jour: string)
    ensures MenuJourAsWritten(download, parsedAt, jour).Failure? ==> MenuJourAsWritten(download, parsedAt, jour).error.status != 404
    ensures MenuJour(download, parsedAt, jour).Failure? && MenuJour(download, parsedAt, jour).error.status == 404 ==>
      MenuJourAsWritten(download, parsedAt, jour)
        == Failure(HttpError(500, PROCESSING_ERROR + "404: " + MenuJour(download, parsedAt, jour).error.detail))
  {
    match FetchWeek(download, parsedAt)
    case Failure(e) =>
      assert e.status != 404;
    case Success(w) =>
  }

  /** A week holding only Monday, asked for Tuesday, gives a 500 as written and a 404 as
      intended. */
  lemma MenuJourMissingDayExample()
    ensures var download := Fetched(Page(None, [DayRow(Some("Lundi"), [])]));
      MenuJour(download, "t", "mardi").Failure? && MenuJour(download, "t", "mardi").error.status == 404
      && MenuJourAsWritten(download, "t", "mardi").Failure? && MenuJourAsWritten(download, "t", "mardi").error.status == 500
  {
    var download := Fetched(Page(None, [DayRow(Some("Lundi"), [])]));
    MondayOnlyWeek();
    var w := FetchWeek(download, "t").value;
    LundiIsNotMardi();
    assert LookupJour(w, "mardi").Failure?;
    MenuJourUnknownDayIsServerError(download, "t", "mardi");
  }

  /** A page with one "Lundi" row and no panels parses to a week of one day named "lundi". */
  lemma MondayOnlyWeek()
    ensures var r := FetchWeek(Fetched(Page(None, [DayRow(Some("Lundi"), [])])), "t");
      r.Success? && r.value.jours == [JourMenu(Lower("Lundi"), None, None)]
  {
    var row := DayRow(Some("Lundi"), []);
    assert IsCleanInside("Lundi");
    CleanTextIsFixedPoint("Lundi");
    assert DayOf(row) == Some(JourMenu(Lower("Lundi"), None, None));
    assert ExtractedDays([row]) == [JourMenu(Lower("Lundi"), None, None)] by {
      assert [row][..0] == [];
    }
  }

  lemma LundiIsNotMardi()
    ensures Lower(Lower("Lundi")) != Lower("mardi")
  {
    assert Lower(Lower("Lundi"))[0] == 'l';
    assert Lower("mardi")[0] == 'm';
  }

  /** get_menu_jour, with the 404 answered as the route intends. */
  method GetMenuJour(download: Download, parsedAt: string, jour: string) returns (r: Result<DayResponse, HttpError>)
    ensures r == MenuJour(download, parsedAt, jour)
  {
    var week := FetchAndParse(download, parsedAt);
    if week.Failure? {
      return Failure(week.error);
    }
    var w := week.value;
    var jourTrouve := FindJour(w.jours, jour);
    if jourTrouve.None? {
      return Failure(HttpError(404, NotFoundDetail(jour, DayNames(w.jours))));
    }
    var d := jourTrouve.value;
    return Success(DayResponse(d.jour, w.semaine, d.bistro, d.vitality, w.metadata));
  }

  // ---- /images/menu/{menu_type}/{menu_description} ----

  /** Where the token \s*CHF\s*[\d.]+\s* that re.sub removes ends, when it starts at `i`:
      the whitespace before "CHF", the price, and the whitespace after it. */
  function PriceTokenEnd(s: string, i: nat): (r: Option<nat>)
    requires i <= |s|
    ensures r.Some? ==> i + 4 <= r.value <= |s|
    ensures r.Some? <==> ChfMatchAt(s, i + |TakeWhile(s[i..], IsPySpace)|).Some?
    ensures r.Some? ==> AllSatisfy(s[i..i + |TakeWhile(s[i..], IsPySpace)|], IsPySpace)
  {
    var spaces := TakeWhile(s[i..], IsPySpace);
    var a := i + |spaces|;
    assert s[i..a] == spaces;
    match ChfMatchAt(s, a)
    case None => None
    case Some(m) =>
      var trailing := TakeWhile(s[m.1..], IsPySpace);
      assert |trailing| <= |s| - m.1;
      Some(m.1 + |trailing|)
  }

  /** re.sub(r'\s*CHF\s*[\d.]+\s*', '', s[from..]): the tokens, leftmost first and never
      overlapping, are removed and every other character is kept. */
  function RemovePriceTokens(s: string, from: nat): (r: string)
    requires from <= |s|
    ensures |r| <= |s| - from
    ensures forall c :: c in r ==> c in s[from..]
    ensures (forall j :: from <= j <= |s| ==> ChfMatchAt(s, j).None?) ==> r == s[from..]
    decreases |s| - from
  {
    if from == |s| then []
    else match PriceTokenEnd(s, from)
      case Some(e) => RemovePriceTokens(s, e)
      case None =>
        var rest := RemovePriceTokens(s, from + 1);
        assert s[from..] == [s[from]] + s[from + 1..];
        [s[from]] + rest
  }

  /** re.sub scans left to right: the characters before the first token are kept, the token
      is removed, and the scan goes on after it. */
  lemma {:induction false} RemovePriceTokensScan(s: string, from: nat, k: nat)
    requires from <= k <= |s|
    requires forall j :: from <= j < k ==> PriceTokenEnd(s, j).None?
    ensures RemovePriceTokens(s, from) == s[from..k] + RemovePriceTokens(s, k)
    ensures k < |s| && PriceTokenEnd(s, k).Some? ==>
      RemovePriceTokens(s, k) == RemovePriceTokens(s, PriceTokenEnd(s, k).value)
    decreases k - from
  {
    if from < k {
      RemovePriceTokensScan(s, from + 1, k);
      RemovePriceTokensKeep(s, from);
      var kept := s[from..k];
      var rest := RemovePriceTokens(s, k);
      assert kept[0] == s[from] && kept[1..] == s[from + 1..k];
      ConsAppend(kept, rest);
    }
    if k < |s| && PriceTokenEnd(s, k).Some? {
      RemovePriceTokensDrop(s, k);
    }
  }

  lemma RemovePriceTokensKeep(s: string, i: nat)
    requires i < |s| && PriceTokenEnd(s, i).None?
    ensures RemovePriceTokens(s, i) == [s[i]] + RemovePriceTokens(s, i + 1)
  {
  }

  lemma RemovePriceTokensDrop(s: string, i: nat)
    requires i < |s| && PriceTokenEnd(s, i).Some?
    ensures RemovePriceTokens(s, i) == RemovePriceTokens(s, PriceTokenEnd(s, i).value)
  {
  }

  /** The TempMenuItem the image route builds from the URL: the price as the parser would
      normalise the description, and the stripped description, with its price tokens
      removed when it carries a price. */
  function ImageRouteItem(menuType: string, description: string): (item: MenuItem)
    ensures item.itemType == menuType
    ensures item.prix == NO_PRICE <==> SearchChf(description).None?
    ensures SearchChf(description).Some? ==> item.prix == "CHF " + SearchChf(description).value
    ensures SearchChf(description).None? ==> item.contenu == PyStrip(description)
    ensures SearchChf(description).Some? ==> item.contenu == PyStrip(RemovePriceTokens(description, 0))
    ensures forall c :: c in item.contenu ==> c in description
  {
    var prix := NormalisePrice(Some(description));
    var rest := if SearchChf(description).Some? then RemovePriceTokens(description, 0) else description;
    assert description[0..] == description;
    StripChars(rest, IsPySpace);
    MenuItem(menuType, PyStrip(rest), prix)
  }

  /** The generators the image routes may touch: the registry's instance, if any. */
  function Instance(registry: ImageGenerator.GeneratorRegistry): set<ImageGenerator.MenuImageGenerator>
    reads registry
  {
    if registry.instance.Some? then {registry.instance.value} else {}
  }

  /** An exception raised to a route's `except Exception` handler becomes a 500 whose detail
      is the handler's prefix and the exception's message. */
  function AsServerError<T>(r: Result<T, string>, prefix: string): (h: Result<T, HttpError>)
    ensures h.Success? <==> r.Success?
    ensures h.Success? ==> h.value == r.value
    ensures h.Failure? ==> h.error.status == 500 && h.error.detail == prefix + r.error
  {
    match r
    case Success(v) => Success(v)
    case Failure(m) => Failure(HttpError(500, prefix + m))
  }

  /** get_menu_image after the item is built: get the generator and generate; any
      exception, a missing key included, is a 500. */
  method ServeMenuImage(registry: ImageGenerator.GeneratorRegistry, envKey: Option<string>, ttlHours: Option<int>,
                        hash: string -> string, item: MenuItem, now: int, outcome: ImageGenerator.Generation)
    returns (r: Result<ImageGenerator.Bytes, HttpError>)
    modifies registry, Instance(registry)
    ensures r.Failure? ==> r.error.status == 500 && IMAGE_ERROR <= r.error.detail
    ensures old(registry.instance).None? && ImageGenerator.EffectiveKey(None, envKey).None? ==>
      r == Failure(HttpError(500, IMAGE_ERROR + ImageGenerator.MISSING_KEY)) && registry.instance.None?
    ensures old(registry.instance).Some? ==>
      var g := old(registry.instance).value;
      var step := ImageGenerator.GenerateStep(old(g.cache), g.MenuHash(item), g.cacheTtl, now, outcome);
      registry.instance == old(registry.instance) && g.cache == step.0 && r == AsServerError(step.1, IMAGE_ERROR)
    ensures old(registry.instance).None? && ImageGenerator.EffectiveKey(None, envKey).Some? ==>
      registry.instance.Some? && fresh(registry.instance.value)
      && var g := registry.instance.value;
         var ttl := (if ttlHours.Some? then ttlHours.value else ImageGenerator.DEFAULT_TTL_HOURS) * 3600;
         var step := ImageGenerator.GenerateStep(map[], hash(ImageGenerator.MenuString(item)), ttl, now, outcome);
         g.cacheTtl == ttl && g.cache == step.0 && r == AsServerError(step.1, IMAGE_ERROR)
  {
    ghost var before := registry.instance;
    var generator := registry.GetImageGenerator(envKey, ttlHours, hash);
    if generator.Failure? {
      return Failure(HttpError(500, IMAGE_ERROR + generator.error));
    }
    var g := generator.value;
    assert before.Some? ==> g == before.value && registry.instance == before;
    r := GenerateForRoute(g, item, now, outcome);
    assert registry.instance == Some(g);
  }

  /** get_menu_image: the item built from the URL's type and description, then served. */
  method GetMenuImage(registry: ImageGenerator.GeneratorRegistry, envKey: Option<string>, ttlHours: Option<int>,
                      hash: string -> string, menuType: string, description: string, now: int,
                      outcome: ImageGenerator.Generation)
    returns (item: MenuItem, r: Result<ImageGenerator.Bytes, HttpError>)
    modifies registry, Instance(registry)
    ensures item == ImageRouteItem(menuType, description)
    ensures r.Failure? ==> r.error.status == 500 && IMAGE_ERROR <= r.error.detail
    ensures old(registry.instance).None? && ImageGenerator.EffectiveKey(None, envKey).None? ==>
      r == Failure(HttpError(500, IMAGE_ERROR + ImageGenerator.MISSING_KEY)) && registry.instance.None?
    ensures old(registry.instance).Some? ==>
      var g := old(registry.instance).value;
      var step := ImageGenerator.GenerateStep(old(g.cache), g.MenuHash(item), g.cacheTtl, now, outcome);
      registry.instance == old(registry.instance) && g.cache == step.0 && r == AsServerError(step.1, IMAGE_ERROR)
    ensures old(registry.instance).None? && ImageGenerator.EffectiveKey(None, envKey).Some? ==>
      registry.instance.Some? && fresh(registry.instance.value)
      && var g := registry.instance.value;
         var ttl := (if ttlHours.Some? then ttlHours.value else ImageGenerator.DEFAULT_TTL_HOURS) * 3600;
         var step := ImageGenerator.GenerateStep(map[], hash(ImageGenerator.MenuString(item)), ttl, now, outcome);
         g.cacheTtl == ttl && g.cache == step.0 && r == AsServerError(step.1, IMAGE_ERROR)
  {
    item := ImageRouteItem(menuType, description);
    r := ServeMenuImage(registry, envKey, ttlHours, hash, item, now, outcome);
  }

  /** The generation step of get_menu_image on a generator, with its exception caught. */
  method GenerateForRoute(g: ImageGenerator.MenuImageGenerator, item: MenuItem, now: int,
                          outcome: ImageGenerator.Generation)
    returns (r: Result<ImageGenerator.Bytes, HttpError>)
    modifies g
    ensures var step := ImageGenerator.GenerateStep(old(g.cache), g.MenuHash(item), g.cacheTtl, now, outcome);
      g.cache == step.0 && r == AsServerError(step.1, IMAGE_ERROR)
  {
    var imageBytes := g.GenerateImage(item, now, outcome);
    r := AsServerError(imageBytes, IMAGE_ERROR);
  }

  /** get_cache_stats (the route): the generator's statistics, or a 500 when it cannot be
      created. */
  method GetCacheStats(registry: ImageGenerator.GeneratorRegistry, envKey: Option<string>, ttlHours: Option<int>,
                       hash: string -> string, now: int)
    returns (r: Result<ImageGenerator.CacheStats, HttpError>)
    modifies registry
    ensures r.Failure? <==> old(registry.instance).None? && ImageGenerator.EffectiveKey(None, envKey).None?
    ensures r.Failure? ==> r.error == HttpError(500, STATS_ERROR + ImageGenerator.MISSING_KEY)
    ensures r.Success? ==>
      registry.instance.Some?
      && var g := registry.instance.value;
         r.value.totalEntries == |g.cache|
         && r.value.validEntries == |ImageGenerator.Unexpired(g.cache, g.cacheTtl, now)|
         && r.value.expiredEntries == r.value.totalEntries - r.value.validEntries
         && r.value.cacheTtlSeconds == g.cacheTtl
    ensures old(registry.instance).Some? ==> registry.instance == old(registry.instance)
    ensures old(registry.instance).None? && r.Success? ==>
      r.value == ImageGenerator.CacheStats(0, 0, 0,
                   (if ttlHours.Some? then ttlHours.value else ImageGenerator.DEFAULT_TTL_HOURS) * 3600)
  {
    var generator := registry.GetImageGenerator(envKey, ttlHours, hash);
    if generator.Failure? {
      return Failure(HttpError(500, STATS_ERROR + generator.error));
    }
    var stats := generator.value.GetCacheStats(now);
    return Success(stats);
  }

  datatype ClearResponse = ClearResponse(message: string, entriesRemoved: int)

  /** clear_image_cache: empty the generator's cache and report how many entries it held. */
  method ClearImageCache(registry: ImageGenerator.GeneratorRegistry, envKey: Option<string>, ttlHours: Option<int>,
                         hash: string -> string)
    returns (r: Result<ClearResponse, HttpError>)
    modifies registry, Instance(registry)
    ensures r.Failure? <==> old(registry.instance).None? && ImageGenerator.EffectiveKey(None, envKey).None?
    ensures r.Failure? ==> r.error == HttpError(500, CLEAR_ERROR + ImageGenerator.MISSING_KEY)
    ensures r.Success? ==> registry.instance.Some? && registry.instance.value.cache == map[]
    ensures old(registry.instance).Some? ==>
      registry.instance == old(registry.instance)
      && r == Success(ClearResponse(CACHE_CLEARED, |old(registry.instance.value.cache)|))
    ensures old(registry.instance).None? && r.Success? ==> r.value == ClearResponse(CACHE_CLEARED, 0)
  {
    var generator := registry.GetImageGenerator(envKey, ttlHours, hash);
    if generator.Failure? {
      return Failure(HttpError(500, CLEAR_ERROR + generator.error));
    }
    var g := generator.value;
    var cacheSizeBefore := |g.cache|;
    g.cache := map[];
    return Success(ClearResponse(CACHE_CLEARED, cacheSizeBefore));
  }
}

=== FILE: text.dfy ===
/** Character classes and string helpers shared by the Python backend and the TypeScript
    frontend.  Both sides call "whitespace" different sets of characters, so each keeps its own. */
module Text {

  /** Python's str.isspace(): what `\s` matches in a str pattern and what strip() removes. */
  predicate IsPySpace(c: char) {
    var n := c as int;
    (9 <= n <= 13) || (28 <= n <= 32) || n == 0x85 || n == 0xA0 || n == 0x1680
    || (0x2000 <= n <= 0x200A) || n == 0x2028 || n == 0x2029 || n == 0x202F
    || n == 0x205F || n == 0x3000
  }

  /** ECMAScript WhiteSpace and LineTerminator: what `\s` matches and trim() removes. */
  predicate IsJsSpace(c: char) {
    var n := c as int;
    (9 <= n <= 13) || n == 32 || n == 0xA0 || n == 0x1680
    || (0x2000 <= n <= 0x200A) || n == 0x2028 || n == 0x2029 || n == 0x202F
    || n == 0x205F || n == 0x3000 || n == 0xFEFF
  }

  predicate IsDigit(c: char) {
    '0' <= c <= '9'
  }

  /** The characters of the class `[\d.]` (ASCII digits). */
  predicate IsNumChar(c: char) {
    IsDigit(c) || c == '.'
  }

  function LowerChar(c: char): char {
    if 'A' <= c <= 'Z' then (c as int + 32) as char else c
  }

  /** ASCII case folding, as toLowerCase() and str.lower() do on ASCII letters. */
  function Lower(s: string): string {
    seq(|s|, i requires 0 <= i < |s| => LowerChar(s[i]))
  }

  /** `sub` occurs in `s` (JavaScript includes(), Python `in`). */
  predicate Contains(s: string, sub: string) {
    exists i :: 0 <= i <= |s| && sub <= s[i..]
  }

  /** Splitting off the first character commutes with appending. */
  lemma ConsAppend(x: string, y: string)
    requires x != []
    ensures x + y == [x[0]] + (x[1..] + y)
  {
  }

  /** The longest prefix of `s` whose characters all satisfy `p`. */
  function TakeWhile(s: string, p: char -> bool): (r: string)
    ensures r <= s
    ensures forall i :: 0 <= i < |r| ==> p(r[i])
    ensures |r| < |s| ==> !p(s[|r|])
  {
    if s == [] || !p(s[0]) then [] else [s[0]] + TakeWhile(s[1..], p)
  }

  /** What is left of `s` once its leading `p` characters are dropped. */
  function DropWhile(s: string, p: char -> bool): (r: string)
    ensures |r| <= |s| && r == s[|s| - |r|..]
    ensures r == [] || !p(r[0])
    ensures forall i :: 0 <= i < |s| - |r| ==> p(s[i])
  {
    s[|TakeWhile(s, p)|..]
  }

  /** `s` without its trailing `p` characters. */
  function DropWhileEnd(s: string, p: char -> bool): (r: string)
    ensures r <= s
    ensures r == [] || !p(r[|r| - 1])
    ensures forall i :: |r| <= i < |s| ==> p(s[i])
  {
    if s == [] || !p(s[|s| - 1]) then s else DropWhileEnd(s[..|s| - 1], p)
  }

  /** `s` without its leading and trailing `p` characters (strip(), trim()). */
  function Strip(s: string, p: char -> bool): (r: string)
    ensures |r| <= |s|
    ensures r == [] || (!p(r[0]) && !p(r[|r| - 1]))
    ensures exists a :: 0 <= a <= |s| && r <= s[a..]
  {
    var t := DropWhile(s, p);
    var r := DropWhileEnd(t, p);
    assert r <= s[|s| - |t|..];
    r
  }

  /** Every character `Strip` keeps comes from the input. */
  lemma StripChars(s: string, p: char -> bool)
    ensures forall c :: c in Strip(s, p) ==> c in s
  {
    var t := DropWhile(s, p);
    var r := DropWhileEnd(t, p);
    assert r == Strip(s, p);
    var a := |s| - |t|;
    forall i | 0 <= i < |r| ensures r[i] in s {
      assert r[i] == t[i] == s[a + i];
    }
  }

  /** The characters of `s` that satisfy `keep`, in order (a list comprehension with a
      condition, a regular-expression deletion of one character class). */
  function Filter(s: string, keep: char -> bool): (r: string)
    ensures |r| <= |s|
    ensures forall c :: c in r ==> keep(c) && c in s
  {
    if s == [] then [] else (if keep(s[0]) then [s[0]] else []) + Filter(s[1..], keep)
  }

  lemma {:induction false} FilterAppend(a: string, b: string, keep: char -> bool)
    ensures Filter(a + b, keep) == Filter(a, keep) + Filter(b, keep)
    decreases |a|
  {
    if a != [] {
      assert (a + b)[0] == a[0];
      assert (a + b)[1..] == a[1..] + b;
      FilterAppend(a[1..], b, keep);
    } else {
      assert a + b == b;
    }
  }

  lemma {:induction false} FilterNone(s: string, keep: char -> bool)
    requires forall i :: 0 <= i < |s| ==> !keep(s[i])
    ensures Filter(s, keep) == []
    decreases |s|
  {
    if s != [] {
      FilterNone(s[1..], keep);
    }
  }

  lemma {:induction false} FilterAll(s: string, keep: char -> bool)
    requires AllSatisfy(s, keep)
    ensures Filter(s, keep) == s
    decreases |s|
  {
    if s != [] {
      FilterAll(s[1..], keep);
    }
  }

  /** Filtering by two character classes gives the same string in either order. */
  lemma {:induction false} FilterCommute(s: string, p: char -> bool, q: char -> bool)
    ensures Filter(Filter(s, p), q) == Filter(Filter(s, q), p)
    decreases |s|
  {
    if s != [] {
      var head := [s[0]];
      assert s == head + s[1..];
      FilterAppend(head, s[1..], p);
      FilterAppend(head, s[1..], q);
      FilterAppend(Filter(head, p), Filter(s[1..], p), q);
      FilterAppend(Filter(head, q), Filter(s[1..], q), p);
      FilterCommute(s[1..], p, q);
    }
  }

  predicate AllSatisfy(s: string, p: char -> bool) {
    forall i :: 0 <= i < |s| ==> p(s[i])
  }

  /** Stripping a string that neither starts nor ends with a `p` character changes nothing. */
  lemma StripUnchanged(s: string, p: char -> bool)
    requires s == [] || (!p(s[0]) && !p(s[|s| - 1]))
    ensures Strip(s, p) == s
  {
  }

  /** Stripping a string made only of `p` characters gives the empty string. */
  lemma {:induction false} StripAllSpace(s: string, p: char -> bool)
    requires AllSatisfy(s, p)
    ensures Strip(s, p) == []
  {
    assert DropWhile(s, p) == [];
  }

  /** The words of `ws` joined by `sep` (Array.prototype.join, str.join). */
  function Join(ws: seq<string>, sep: string): string {
    if ws == [] then []
    else if |ws| == 1 then ws[0]
    else ws[0] + sep + Join(ws[1..], sep)
  }

  function DigitChar(d: nat): (c: char)
    requires d < 10
    ensures IsDigit(c)
  {
    ('0' as int + d) as char
  }

  /** Decimal rendering of a natural number, as `${n}` and str(n) produce it. */
  function NatToString(n: nat): (s: string)
    ensures 1 <= |s|
    ensures forall i :: 0 <= i < |s| ==> IsDigit(s[i])
    ensures n >= 10 ==> 2 <= |s|
  {
    if n < 10 then [DigitChar(n)] else NatToString(n / 10) + [DigitChar(n % 10)]
  }

  /** Decimal rendering of an integer: a minus sign before negative values. */
  function IntToString(i: int): (s: string)
    ensures 1 <= |s|
    ensures forall k :: 0 <= k < |s| ==> IsDigit(s[k]) || s[k] == '-'
    ensures (s[0] == '-') <==> i < 0
  {
    if i < 0 then "-" + NatToString(-i) else NatToString(i)
  }

  /** Distinct natural numbers have distinct decimal renderings. */
  lemma {:induction false} NatToStringInjective(a: nat, b: nat)
    requires NatToString(a) == NatToString(b)
    ensures a == b
  {
    var s := NatToString(a);
    if a < 10 && b < 10 {
      assert s[0] == DigitChar(a) && s[0] == DigitChar(b);
    } else if a >= 10 && b >= 10 {
      var sa := NatToString(a / 10);
      var sb := NatToString(b / 10);
      assert s == sa + [DigitChar(a % 10)];
      assert s == sb + [DigitChar(b % 10)];
      assert s[|s| - 1] == DigitChar(a % 10) == DigitChar(b % 10);
      assert sa == s[..|s| - 1] == sb;
      NatToStringInjective(a / 10, b / 10);
    }
  }

  /** Distinct integers have distinct decimal renderings. */
  lemma IntToStringInjective(a: int, b: int)
    requires IntToString(a) == IntToString(b)
    ensures a == b
  {
    if a < 0 {
      assert IntToString(a)[1..] == NatToString(-a);
      assert IntToString(b)[1..] == NatToString(-b);
      NatToStringInjective(-a, -b);
    } else {
      NatToStringInjective(a, b);
    }
  }
}

=== FILE: use_menu.dfy ===
/** The menu hook of the frontend (frontend/Elcappfet/hooks/useMenu.ts): an in-memory map of
    day items, a persisted key-value store with lazily expired entries, the displayed state
    and a mounted flag. Each fetch is one sequential step; the clock, the network outcome and
    the stored values are inputs. A stored value that does not deserialise is None. */
module UseMenu {
  import opened Wrappers
  import opened Constants
  import opened MenuTypes
  import opened DataTransform
  import Api

  /** Everything a step reads and writes. */
  datatype Snapshot = Snapshot(
    memory: map<int, seq<MenuItem>>,
    store: map<string, Option<MenuCacheEntry>>,
    state: MenuState,
    mounted: bool)

  const INITIAL_STATE := MenuState(true, None, None, None, None, false)
  const CACHED_DATA_PREFIX := "Using cached data. "

  /** The store holds a readable entry for the day that is younger than the cache duration. */
  predicate ValidEntry(store: map<string, Option<MenuCacheEntry>>, dayIndex: int, now: int, cacheDuration: int) {
    var key := CacheKey(dayIndex);
    key in store && store[key].Some? && IsCacheValid(store[key].value.timestamp, cacheDuration, now)
  }

  /** loadFromCache: a valid entry is shown (when mounted) and copied to memory; an expired
      entry is removed; a missing or unreadable one changes nothing. The flag says whether
      a valid entry was found. */
  function LoadStep(s: Snapshot, dayIndex: int, now: int, cacheDuration: int): (r: (Snapshot, bool))
    ensures r.1 <==> ValidEntry(s.store, dayIndex, now, cacheDuration)
    ensures r.0.mounted == s.mounted
    ensures r.1 ==> r.0.store == s.store
    ensures CacheKey(dayIndex) !in s.store || s.store[CacheKey(dayIndex)].None? ==> r == (s, false)
    ensures !r.1 ==> r.0.memory == s.memory && r.0.state == s.state
    ensures !r.1 ==> CacheKey(dayIndex) in r.0.store ==> r.0.store[CacheKey(dayIndex)].None?
    ensures !r.1 ==> forall k :: k != CacheKey(dayIndex) ==> (k in r.0.store <==> k in s.store)
    ensures !r.1 ==> forall k :: k in r.0.store ==> k in s.store && r.0.store[k] == s.store[k]
    ensures r.1 && !s.mounted ==> r.0 == s
    ensures r.1 && s.mounted ==>
      var e := s.store[CacheKey(dayIndex)].value;
      r.0.memory == s.memory[dayIndex := e.data]
      && r.0.state == s.state.(data := Some(e.data), weekInfo := Some(e.weekInfo),
                               lastFetch := Some(e.timestamp), loading := false, error := None)
  {
    var key := CacheKey(dayIndex);
    if key !in s.store || s.store[key].None? then (s, false)
    else
      var e := s.store[key].value;
      if !IsCacheValid(e.timestamp, cacheDuration, now) then (s.(store := s.store - {key}), false)
      else if s.mounted then
        (s.(state := s.state.(data := Some(e.data), weekInfo := Some(e.weekInfo),
                              lastFetch := Some(e.timestamp), loading := false, error := None),
            memory := s.memory[dayIndex := e.data]), true)
      else (s, true)
  }

  /** saveToCache: the day's entry, stamped with the current time, replaces any previous one. */
  function SaveStep(s: Snapshot, dayIndex: int, data: seq<MenuItem>, weekInfo: string, now: int): (r: Snapshot)
    ensures r.store == s.store[CacheKey(dayIndex) := Some(MenuCacheEntry(data, weekInfo, now))]
    ensures r.memory == s.memory && r.state == s.state && r.mounted == s.mounted
  {
    s.(store := s.store[CacheKey(dayIndex) := Some(MenuCacheEntry(data, weekInfo, now))])
  }

  /** The first update of a fetch: loading unless forced, refreshing when forced, no error. */
  function BeginFetch(s: Snapshot, forceRefresh: bool): (r: Snapshot)
    ensures r.memory == s.memory && r.store == s.store && r.mounted == s.mounted
    ensures s.mounted ==> r.state.loading == !forceRefresh && r.state.refreshing == forceRefresh
                          && r.state.error == None && r.state.data == s.state.data
    ensures !s.mounted ==> r.state == s.state
  {
    if s.mounted then s.(state := s.state.(loading := !forceRefresh, refreshing := forceRefresh, error := None))
    else s
  }

  /** The network part of a fetch: on success both caches get the day's items and the state
      shows them; on failure the store is tried once more and the error is shown, prefixed
      when cached data could be shown instead. */
  function NetworkStep(s: Snapshot, dayIndex: int, now: int, outcome: Api.FetchOutcome, cacheDuration: int,
                       baseURL: string, encode: string -> string): Snapshot
  {
    match Api.WeeklyMenuResult(baseURL, outcome)
    case Success(response) =>
      var v := TransformWeeklyMenuForDay(response, dayIndex, now, baseURL, encode);
      var saved := SaveStep(s.(memory := s.memory[dayIndex := v.items]), dayIndex, v.items, v.weekInfo, now);
      if saved.mounted then saved.(state := MenuState(false, None, Some(v.items), Some(now), Some(v.weekInfo), false))
      else saved
    case Failure(e) =>
      var message := GetErrorMessage(ThrownError(e.message));
      var loaded := LoadStep(s, dayIndex, now, cacheDuration);
      var t := loaded.0;
      if !loaded.1 && t.mounted then t.(state := t.state.(loading := false, refreshing := false, error := Some(message)))
      else if t.mounted then
        t.(state := t.state.(loading := false, refreshing := false, error := Some(CACHED_DATA_PREFIX + message)))
      else t
  }

  /** fetchMenu for the selected day. */
  function FetchStep(s: Snapshot, dayIndex: int, forceRefresh: bool, now: int, outcome: Api.FetchOutcome,
                     cacheDuration: int, baseURL: string, encode: string -> string): (r: Snapshot)
    ensures r.mounted == s.mounted
  {
    var s1 := BeginFetch(s, forceRefresh);
    if !forceRefresh && dayIndex in s1.memory && s1.mounted then
      s1.(state := s1.state.(data := Some(s1.memory[dayIndex]), loading := false, refreshing := false))
    else if !forceRefresh then
      var loaded := LoadStep(s1, dayIndex, now, cacheDuration);
      if loaded.1 then loaded.0
      else NetworkStep(loaded.0, dayIndex, now, outcome, cacheDuration, baseURL, encode)
    else NetworkStep(s1, dayIndex, now, outcome, cacheDuration, baseURL, encode)
  }

  /** The removal part of clearCache: every store key with the cache prefix, and the whole
      in-memory map. */
  function ClearStores(s: Snapshot): (r: Snapshot)
    ensures forall k :: k in r.store <==> k in s.store && !(MENU_CACHE_PREFIX <= k)
    ensures forall k :: k in r.store ==> r.store[k] == s.store[k]
    ensures r.memory == map[] && r.state == s.state && r.mounted == s.mounted
  {
    s.(store := s.store - (set k | k in s.store && MENU_CACHE_PREFIX <= k), memory := map[])
  }

  /** clearCache: empty both caches, then fetch with a forced refresh. */
  function ClearCacheStep(s: Snapshot, dayIndex: int, now: int, outcome: Api.FetchOutcome, cacheDuration: int,
                          baseURL: string, encode: string -> string): Snapshot
  {
    FetchStep(ClearStores(s), dayIndex, true, now, outcome, cacheDuration, baseURL, encode)
  }

  // ---- Properties of a fetch ----

  /** A non-forced fetch with the day in memory (while mounted) shows the memory copy and
      touches neither the store nor the network. */
  lemma MemoryHitServesMemory(s: Snapshot, dayIndex: int, now: int, o1: Api.FetchOutcome, o2: Api.FetchOutcome,
                              cacheDuration: int, baseURL: string, encode: string -> string)
    requires dayIndex in s.memory && s.mounted
    ensures var r := FetchStep(s, dayIndex, false, now, o1, cacheDuration, baseURL, encode);
      r == FetchStep(s, dayIndex, false, now, o2, cacheDuration, baseURL, encode)
      && r.store == s.store && r.memory == s.memory
      && r.state == s.state.(data := Some(s.memory[dayIndex]), loading := false, refreshing := false, error := None)
  {
  }

  /** A forced fetch that succeeds ignores both caches: the state it leaves depends on the network outcome
      and the previous state only. */
  lemma ForcedFetchSkipsCaches(s1: Snapshot, s2: Snapshot, dayIndex: int, now: int, outcome: Api.FetchOutcome,
                               cacheDuration: int, baseURL: string, encode: string -> string)
    requires s1.state == s2.state && s1.mounted == s2.mounted
    requires Api.WeeklyMenuResult(baseURL, outcome).Success?
    ensures FetchStep(s1, dayIndex, true, now, outcome, cacheDuration, baseURL, encode).state
         == FetchStep(s2, dayIndex, true, now, outcome, cacheDuration, baseURL, encode).state
  {
  }

  /** When the network is reached and answers, the day's items go to memory and to the store
      (stamped now) and, while mounted, become the whole displayed state. */
  lemma FetchSuccessWritesBothCaches(s: Snapshot, dayIndex: int, forceRefresh: bool, now: int,
                                     outcome: Api.FetchOutcome, cacheDuration: int, baseURL: string,
                                     encode: string -> string)
    requires forceRefresh || (!(dayIndex in s.memory && s.mounted) && !ValidEntry(s.store, dayIndex, now, cacheDuration))
    requires Api.WeeklyMenuResult(baseURL, outcome).Success?
    ensures var v := TransformWeeklyMenuForDay(Api.WeeklyMenuResult(baseURL, outcome).value, dayIndex, now, baseURL, encode);
      var r := FetchStep(s, dayIndex, forceRefresh, now, outcome, cacheDuration, baseURL, encode);
      r.memory[dayIndex] == v.items
      && r.store[CacheKey(dayIndex)] == Some(MenuCacheEntry(v.items, v.weekInfo, now))
      && (s.mounted ==> r.state == MenuState(false, None, Some(v.items), Some(now), Some(v.weekInfo), false))
  {
  }

  /** A forced fetch that fails while a valid entry is stored shows that entry together with
      the error, prefixed "Using cached data. ". */
  lemma ForcedFailureFallsBackToStore(s: Snapshot, dayIndex: int, now: int, outcome: Api.FetchOutcome,
                                      cacheDuration: int, baseURL: string, encode: string -> string)
    requires s.mounted && ValidEntry(s.store, dayIndex, now, cacheDuration)
    requires Api.WeeklyMenuResult(baseURL, outcome).Failure?
    ensures var e := s.store[CacheKey(dayIndex)].value;
      var r := FetchStep(s, dayIndex, true, now, outcome, cacheDuration, baseURL, encode);
      r.state == MenuState(false, Some(CACHED_DATA_PREFIX + Api.WeeklyMenuResult(baseURL, outcome).error.message),
                           Some(e.data), Some(e.timestamp), Some(e.weekInfo), false)
      && r.memory[dayIndex] == e.data
  {
  }

  /** A fetch that fails with no valid entry stored shows the bare error and keeps the data
      it showed before. */
  lemma FailureWithoutCacheKeepsData(s: Snapshot, dayIndex: int, forceRefresh: bool, now: int,
                                     outcome: Api.FetchOutcome, cacheDuration: int, baseURL: string,
                                     encode: string -> string)
    requires s.mounted && !ValidEntry(s.store, dayIndex, now, cacheDuration)
    requires forceRefresh || dayIndex !in s.memory
    requires Api.WeeklyMenuResult(baseURL, outcome).Failure?
    ensures var r := FetchStep(s, dayIndex, forceRefresh, now, outcome, cacheDuration, baseURL, encode);
      r.state == s.state.(loading := false, refreshing := false,
                          error := Some(Api.WeeklyMenuResult(baseURL, outcome).error.message))
      && r.memory == s.memory
  {
  }

  /** A non-forced fetch never shows the "Using cached data." banner: it reaches the network
      only after the store had no valid entry, and so the fallback finds none either. */
  lemma {:induction false} NonForcedFetchNeverShowsBanner(s: Snapshot, dayIndex: int, now: int,
                                      outcome: Api.FetchOutcome, cacheDuration: int, baseURL: string,
                                      encode: string -> string)
    requires s.mounted && dayIndex !in s.memory
    requires Api.WeeklyMenuResult(baseURL, outcome).Failure?
    ensures var r := FetchStep(s, dayIndex, false, now, outcome, cacheDuration, baseURL, encode);
      r.state.error == if ValidEntry(s.store, dayIndex, now, cacheDuration) then None
                       else Some(Api.WeeklyMenuResult(baseURL, outcome).error.message)
  {
    var s1 := BeginFetch(s, false);
    var loaded := LoadStep(s1, dayIndex, now, cacheDuration);
    if !loaded.1 {
      assert !ValidEntry(loaded.0.store, dayIndex, now, cacheDuration);
      assert !LoadStep(loaded.0, dayIndex, now, cacheDuration).1;
    }
  }

  /** The error a failed fetch shows is what getErrorMessage reads from the APIServiceError:
      its own message, never blank, after the "Using cached data. " banner exactly when a
      valid stored entry is shown instead. */
  lemma FailedFetchShowsApiMessage(s: Snapshot, dayIndex: int, forceRefresh: bool, now: int,
                                   outcome: Api.FetchOutcome, cacheDuration: int, baseURL: string,
                                   encode: string -> string)
    requires s.mounted
    requires forceRefresh || (dayIndex !in s.memory && !ValidEntry(s.store, dayIndex, now, cacheDuration))
    requires Api.WeeklyMenuResult(baseURL, outcome).Failure?
    ensures var m := GetErrorMessage(ThrownError(Api.WeeklyMenuResult(baseURL, outcome).error.message));
      var r := FetchStep(s, dayIndex, forceRefresh, now, outcome, cacheDuration, baseURL, encode);
      m == Api.WeeklyMenuResult(baseURL, outcome).error.message && m != ""
      && r.state.error == Some(if ValidEntry(s.store, dayIndex, now, cacheDuration) then CACHED_DATA_PREFIX + m else m)
  {
    Api.FetchWeeklyMenuErrors(baseURL, outcome);
    if ValidEntry(s.store, dayIndex, now, cacheDuration) {
      ForcedFailureFallsBackToStore(s, dayIndex, now, outcome, cacheDuration, baseURL, encode);
    } else {
      FailureWithoutCacheKeepsData(s, dayIndex, forceRefresh, now, outcome, cacheDuration, baseURL, encode);
    }
  }

  /** No step changes the displayed state while unmounted. */
  lemma UnmountedFetchKeepsState(s: Snapshot, dayIndex: int, forceRefresh: bool, now: int,
                                 outcome: Api.FetchOutcome, cacheDuration: int, baseURL: string,
                                 encode: string -> string)
    requires !s.mounted
    ensures FetchStep(s, dayIndex, forceRefresh, now, outcome, cacheDuration, baseURL, encode).state == s.state
  {
  }

  /** What is saved is read back unchanged while younger than the cache duration, and is
      removed once it is that old. */
  lemma SaveThenLoad(s: Snapshot, dayIndex: int, data: seq<MenuItem>, weekInfo: string, saved: int,
                     now: int, cacheDuration: int)
    requires s.mounted
    ensures var r := LoadStep(SaveStep(s, dayIndex, data, weekInfo, saved), dayIndex, now, cacheDuration);
      (r.1 <==> now - saved < cacheDuration)
      && (r.1 ==> r.0.state.data == Some(data) && r.0.state.weekInfo == Some(weekInfo)
                  && r.0.state.lastFetch == Some(saved) && r.0.memory[dayIndex] == data)
      && (!r.1 ==> CacheKey(dayIndex) !in r.0.store)
  {
  }

  /** clearCache keeps every store key outside the cache prefix, and the forced fetch after
      it can only show the bare error: no cached entry is left to fall back on. */
  lemma ClearCacheLeavesNoFallback(s: Snapshot, dayIndex: int, now: int, outcome: Api.FetchOutcome,
                                   cacheDuration: int, baseURL: string, encode: string -> string)
    requires s.mounted
    requires Api.WeeklyMenuResult(baseURL, outcome).Failure?
    ensures var r := ClearCacheStep(s, dayIndex, now, outcome, cacheDuration, baseURL, encode);
      r.state.error == Some(Api.WeeklyMenuResult(baseURL, outcome).error.message)
      && r.state.data == s.state.data
      && (forall k :: k in s.store && !(MENU_CACHE_PREFIX <= k) ==> k in r.store && r.store[k] == s.store[k])
  {
    var c := ClearStores(s);
    assert !ValidEntry(c.store, dayIndex, now, cacheDuration);
    FailureWithoutCacheKeepsData(c, dayIndex, true, now, outcome, cacheDuration, baseURL, encode);
  }

  /** The hook: its fields are the refs and the state of useMenu. */
  class MenuHook {
    var selectedDay: int
    var weeklyCache: map<int, seq<MenuItem>>
    var store: map<string, Option<MenuCacheEntry>>
    var state: MenuState
    var mounted: bool
    const cacheDuration: int
    const api: Api.ApiService

    function Snap(): Snapshot
      reads this
    {
      Snapshot(weeklyCache, store, state, mounted)
    }

    /** The first render: the initial state, an empty memory map, whatever the store holds. */
    constructor(day: int, persisted: map<string, Option<MenuCacheEntry>>, duration: int, service: Api.ApiService)
      ensures selectedDay == day && weeklyCache == map[] && store == persisted
      ensures state == INITIAL_STATE && mounted
      ensures cacheDuration == duration && api == service
    {
      selectedDay := day;
      weeklyCache := map[];
      store := persisted;
      state := INITIAL_STATE;
      mounted := true;
      cacheDuration := duration;
      api := service;
    }

    method LoadFromCache(dayIndex: int, now: int) returns (hit: bool)
      modifies this
      ensures (Snap(), hit) == LoadStep(old(Snap()), dayIndex, now, cacheDuration)
      ensures selectedDay == old(selectedDay)
    {
      var key := CacheKey(dayIndex);
      if key !in store || store[key].None? {
        return false;
      }
      var cache := store[key].value;
      if !IsCacheValid(cache.timestamp, cacheDuration, now) {
        store := store - {key};
        return false;
      }
      if mounted {
        state := state.(data := Some(cache.data), weekInfo := Some(cache.weekInfo),
                        lastFetch := Some(cache.timestamp), loading := false, error := None);
        weeklyCache := weeklyCache[dayIndex := cache.data];
      }
      hit := true;
    }

    method SaveToCache(dayIndex: int, data: seq<MenuItem>, weekInfo: string, now: int)
      modifies this
      ensures Snap() == SaveStep(old(Snap()), dayIndex, data, weekInfo, now)
      ensures selectedDay == old(selectedDay)
    {
      store := store[CacheKey(dayIndex) := Some(MenuCacheEntry(data, weekInfo, now))];
    }

    method FetchMenu(forceRefresh: bool, now: int, outcome: Api.FetchOutcome)
      modifies this
      ensures Snap() == FetchStep(old(Snap()), selectedDay, forceRefresh, now, outcome, cacheDuration,
                                  api.baseURL, api.encode)
      ensures selectedDay == old(selectedDay)
    {
      if mounted {
        state := state.(loading := !forceRefresh, refreshing := forceRefresh, error := None);
      }
      if !forceRefresh && selectedDay in weeklyCache && mounted {
        state := state.(data := Some(weeklyCache[selectedDay]), loading := false, refreshing := false);
        return;
      }
      if !forceRefresh {
        var cacheLoaded := LoadFromCache(selectedDay, now);
        if cacheLoaded {
          return;
        }
      }
      var result := api.FetchWeeklyMenu(outcome);
      if result.Success? {
        var view := TransformWeeklyMenuForDay(result.value, selectedDay, now, api.baseURL, api.encode);
        weeklyCache := weeklyCache[selectedDay := view.items];
        SaveToCache(selectedDay, view.items, view.weekInfo, now);
        if mounted {
          state := MenuState(false, None, Some(view.items), Some(now), Some(view.weekInfo), false);
        }
      } else {
        var message := GetErrorMessage(ThrownError(result.error.message));
        var cacheLoaded := LoadFromCache(selectedDay, now);
        if !cacheLoaded && mounted {
          state := state.(loading := false, refreshing := false, error := Some(message));
        } else if mounted {
          state := state.(loading := false, refreshing := false, error := Some(CACHED_DATA_PREFIX + message));
        }
      }
    }

    /** refetch: a forced fetch (pull to refresh). */
    method Refetch(now: int, outcome: Api.FetchOutcome)
      modifies this
      ensures Snap() == FetchStep(old(Snap()), selectedDay, true, now, outcome, cacheDuration,
                                  api.baseURL, api.encode)
    {
      FetchMenu(true, now, outcome);
    }

    method ClearCache(now: int, outcome: Api.FetchOutcome)
      modifies this
      ensures Snap() == ClearCacheStep(old(Snap()), selectedDay, now, outcome, cacheDuration,
                                       api.baseURL, api.encode)
    {
      var cacheKeys := set k | k in store && MENU_CACHE_PREFIX <= k;
      store := store - cacheKeys;
      weeklyCache := map[];
      FetchMenu(true, now, outcome);
    }

    /** The effect on a (new) selected day: mounted again, then a non-forced fetch. */
    method SelectDay(day: int, now: int, outcome: Api.FetchOutcome)
      modifies this
      ensures selectedDay == day
      ensures Snap() == FetchStep(old(Snap()).(mounted := true), day, false, now, outcome, cacheDuration,
                                  api.baseURL, api.encode)
    {
      selectedDay := day;
      mounted := true;
      FetchMenu(false, now, outcome);
    }

    /** The effect's cleanup. */
    method Unmount()
      modifies this
      ensures Snap() == old(Snap()).(mounted := false) && selectedDay == old(selectedDay)
    {
      mounted := false;
    }
  }
}

=== FILE: wrappers.dfy ===
/** Option and Result, for absent values and for error paths that the source reports by
    returning None or by raising. */
module Wrappers {

  datatype Option<+T> = None | Some(value: T)

  datatype Result<+T, +E> = Success(value: T) | Failure(error: E)
}
